=== FILE: README.md ===
# Moviebot core, modelled in Dafny

Moviebot is a Telegram bot. It looks up films on TMDB and OMDb, finds their trailers on
YouTube, and tries to recognise a film from a poster photo or a short video clip. Around
the HTTP calls sits a layer of pure logic. This project models that layer:

- **Trailer ranking** (`Trailers`, youtube.dfy). The bot builds an ordered list of query
  variants. It scores each video with a fixed additive formula, counted here in integer
  tenths. It keeps the videos scoring above 0.3, best three first. The search loop takes the
  first query with a hit, and the result is rendered as a message.
- **Poster-text candidates** (`ImageAnalysis`, image.dfy). OCR annotations are filtered,
  passed through the movie-title test, and boosted by the portrait "poster likelihood". The
  five best are kept, then formatted.
- **Video analysis** (`VideoAnalysis`, video.dfy). This covers upload validation and the
  per-frame analysis guards. It has two dedup policies keyed by the lower-cased title:
  - accumulating, with diminishing returns and a frame counter, for candidates across frames;
  - keep-the-best, for frame and audio candidates.
  It also covers the report message.
- **Movie search results** (`Movies`, movie.dfy). These are the TMDB and OMDb record
  mappings and the merge of OMDb data into an existing record. The two-source combination
  scans for a match and merges in place or appends. The movie card is formatted from the result.
- **Helpers** (`Helpers`, helpers.dfy, and `HelperPatterns`, patterns.dfy). The pure functions
  of utils/helpers.py, each modelled on its own: truncation, runtime text, list limiting,
  Markdown escaping, confidence icons, file names and extensions, and the size check. None of
  the services imports this module; where a service repeats one of these computations inline,
  a lemma states that the two agree. The regular
  expression helpers are the duration parser, year and IMDb-id extraction, and title
  cleaning. They are modelled as leftmost searches.

Shared modules:

- `Wrappers`: Option, min and max.
- `Text`: Python string primitives.
  - `str.isspace`, `lower`, `strip`, `split`, `join`;
  - slicing with clamped bounds, and the substring test `in`;
  - decimal rendering.
- `Ranking`: a stable descending sort. It matches `sorted(..., reverse=True)`, where ties
  keep their input order. `TopK` takes the first k.
- `Config`: the constants from config.py.

Records are immutable datatypes. A dictionary key that may be missing is an `Option`. The
source's mutate-in-place updates become functions that return the updated sequence. A Python
`dict` keyed by the lower-cased title is a sequence with distinct keys, and a replaced
key keeps its position, as in Python's insertion-ordered dicts. The network, the image
decoder and float-to-text rendering become parameters:

| parameter | stands for |
|---|---|
| `search` | the YouTube search call |
| `analyze` | per-frame image analysis |
| `audioClues` | the audio metadata reader |
| `toFloat` | Python's `float()` on a rating string |
| `render` | Python's `str()` of a rating |

Confidences are `real`. Trailer scores are `nat` tenths.

## Model

| member | source | states |
|---|---|---|
| Helpers.TruncateText | utils/helpers.py:82-98 | Text within the bound is returned unchanged. Longer text ends with the suffix after a prefix of the text, and is exactly `max_length` long when the suffix fits. |
| Helpers.TruncateTextIdempotent | utils/helpers.py:94-98 | Truncating twice gives the same text as truncating once, whenever the suffix fits in the bound. |
| Helpers.FormatRuntime | utils/helpers.py:100-119 | Below an hour the text ends in "min". Whole hours end in "h". Anything else has an "h " part and ends in "min". |
| Helpers.FormatListWithLimit | utils/helpers.py:168-187 | Empty input gives "N/A". Up to `limit` items, every item appears. Beyond that, the first `limit` items appear and the text ends with " and {n-limit} more". Separator and order are stated by Helpers.FormatListJoinsInOrder. |
| Helpers.FormatListJoinsInOrder | utils/helpers.py:183-187 | The items are joined by the separator, in order. Take a separator that cannot overlap itself, like the default ", ", and items that do not contain it. Up to `limit` items, splitting the result gives back exactly the items. Beyond that, the text is the join of `items[:limit]` followed by " and {n-limit} more", and splitting the part before that tail gives `items[:limit]`. |
| Helpers.EscapeChars | utils/helpers.py:189-205 | Single-pass escaping adds exactly one character per special character. |
| Helpers.EscapeMarkdownIsSinglePass | utils/helpers.py:200-205 | The sequential `replace` calls equal one pass that puts a backslash before each special character, because backslash is not itself special. |
| Helpers.EscapeMarkdownRoundTrip | utils/helpers.py:189-205 | The escaped text is longer by the number of specials, and removing the added backslashes gives back the input. |
| Helpers.ConfidenceEmoji | utils/helpers.py:260-279 | Each of the five icons is chosen exactly on its interval: at least 0.9, 0.75, 0.5 and 0.3, and below 0.3. |
| Helpers.ConfidenceEmojiMonotone | utils/helpers.py:270-279 | A higher confidence never gets a lower icon. |
| Helpers.SplitExt | utils/helpers.py:328-338 | `os.path.splitext`: the stem and extension concatenate to the path, and the extension is empty or a single dotted component without a further dot or slash. |
| Helpers.GetFileExtension | utils/helpers.py:328-338 | The result has no dot, no slash and no upper-case letter. When it is non-empty, the lower-cased file name ends in "." followed by it. |
| Helpers.SplitExtOf | utils/helpers.py:328-338 | A name whose last component has a character other than a dot, followed by a dot and a tail without dot or slash, splits into that name and the dotted tail. |
| Helpers.FileExtensionOf | utils/helpers.py:328-338 | For such a name, the extension is the tail, lower-cased and without the dot. |
| Helpers.SanitizeFilename | utils/helpers.py:281-306 | The result contains none of `<>:"/\|?*` and is never longer than the input. A name that is 200 characters or less after replacing and stripping is returned as it is. A longer one keeps its extension at the end, and before it a prefix of its stem, 200 characters in all when the extension fits. |
| Helpers.ReplaceEachInPlace | utils/helpers.py:292-296 | The replacement loop keeps the name's length. Each character in the replaced set becomes '_' at its own position, and every other character stays. Helpers.SanitizeReplacesInPlace applies this to sanitize_filename's set `<>:"/\|?*`. |
| Helpers.SanitizeFilenameKeepsCleanNames | utils/helpers.py:292-306 | A name up to 200 characters with no forbidden character and no leading or trailing space or dot comes back unchanged. |
| HelperPatterns.FindRun | utils/helpers.py:219-253 | `re.search` for a digit run followed by a given tail: the returned position matches, and no earlier position does. |
| HelperPatterns.ConvertDurationToMinutes | utils/helpers.py:207-258 | A "PT" text always yields a number. Otherwise the first "N min" match wins. The result is None exactly when none of the four patterns matches. |
| HelperPatterns.IsoDurationRoundTrip | utils/helpers.py:219-235 | The ISO 8601 text for h hours, m minutes and s seconds parses to h*60 + m + s div 60. |
| HelperPatterns.ReadsMinutesText | utils/helpers.py:239-241 | "{n}min" parses to n. |
| HelperPatterns.ReadsHoursText | utils/helpers.py:251-253 | "{n}h" parses to n*60. |
| HelperPatterns.FormatRuntimeMisread | utils/helpers.py:239-248 | The parser as written reads the output "{h}h {r}min" of `format_runtime` as r minutes. |
| HelperPatterns.FormatRuntimeReadsBackUnmixed | utils/helpers.py:110-119 | For runtimes under an hour, or whole hours, parsing the `format_runtime` text gives the runtime back. |
| HelperPatterns.ConvertDurationToMinutesCorrected | utils/helpers.py:207-258 | With the "h m" pattern tried before the "min" pattern, a text with an hours-and-minutes form parses to that form. The other cases are unchanged. |
| HelperPatterns.CorrectedReadsFormatRuntime | utils/helpers.py:100-119 | With the corrected order, every `format_runtime` text parses back to its runtime. |
| HelperPatterns.ExtractYearFromString | utils/helpers.py:63-80 | A found year is 4 digits starting "19" or "20" and occurs in the text. None is returned exactly when no position holds a year. |
| HelperPatterns.ExtractYearIsLeftmost | utils/helpers.py:74-80 | The leftmost year in the text is the one returned. |
| HelperPatterns.ParseImdbId | utils/helpers.py:149-166 | A found id is "tt" followed by at least 7 digits and occurs in the text. None is returned exactly when no position holds one. |
| HelperPatterns.ParseImdbIdIsLeftmost | utils/helpers.py:160-164 | When an id stands at position i and at no earlier position, the result is the whole digit run at i: "tt" and every digit that follows. |
| HelperPatterns.CollapseSpaces | utils/helpers.py:48 | `re.sub(r'\s+', ' ', ...)`: only single spaces remain as whitespace, and the ends keep their space-ness. |
| HelperPatterns.CollapseSpacesKeepsText | utils/helpers.py:48 | Collapsing whitespace keeps every non-whitespace character, in order, and adds none. |
| HelperPatterns.CleanMovieTitle | utils/helpers.py:37-61 | The cleaned title is a prefix of the space-collapsed, stripped input, has single spaces only, and no whitespace at either end. |
| HelperPatterns.CleanMovieTitleKeepsPlainTitles | utils/helpers.py:37-61 | A title that is already clean and has none of the removed suffixes comes back unchanged. |
| HelperPatterns.CleanRemovesYear | utils/helpers.py:52 | A clean title followed by " (yyyy)" cleans to the title. |
| HelperPatterns.CleanRemovesTag | utils/helpers.py:53 | A clean title without '[' followed by " [tag]", the tag free of whitespace, cleans to the title. |
| HelperPatterns.CleanRemovesDashTrailer | utils/helpers.py:54 | A clean title followed by " - trailer" cleans to the title. |
| HelperPatterns.CleanRemovesOfficialTrailer | utils/helpers.py:55 | A clean title followed by " official trailer" cleans to the title. |
| Trailers.BuildSearchQueries | services/youtube_service.py:89-109 | With a year there are 7 queries, the first three containing it; without one there are 4. Each starts with the stripped title and a space, and ends in "trailer". |
| Trailers.ReadSignals | services/youtube_service.py:204-244 | Each scoring rule fires exactly on its substring condition. The penalty is the only rule that looks at the description, and the studio rule reads the channel. |
| Trailers.TrailerScore | services/youtube_service.py:201-246 | The score is at most 1.4. When the bonuses minus the penalty are non-negative the score is exactly that sum, and otherwise it is 0. |
| Trailers.PenaltyAloneIsFloored | services/youtube_service.py:234-246 | A video hit only by the penalty sums to -0.3 and is floored to 0. |
| Trailers.TitledTrailerPasses | services/youtube_service.py:211-220 | A title containing the movie title and "trailer", with no penalty word, scores at least 0.8. |
| Trailers.PassingWithoutTitleOrKeyword | services/youtube_service.py:186-188 | Without the title match or a trailer keyword, a video passes the 0.3 threshold exactly when it has no penalty and at least two of the studio, year and official bonuses. |
| Trailers.FilterTrailerResults | services/youtube_service.py:179-195 | Exactly min(3, number of videos scoring above 0.3) trailers, sorted by score, each from the input. No better-scoring passing video is left out, and the result is a sub-multiset of the scored videos. It is empty exactly when every video scores at most 0.3. |
| Trailers.ScoredEmpty | services/youtube_service.py:186-190 | No video passes the threshold exactly when every video scores at most 0.3. |
| Trailers.FilterSubMultiset | services/youtube_service.py:186-195 | The videos kept form a sub-multiset of the input. |
| Trailers.FirstHit | services/youtube_service.py:56-72 | The chosen query has hits and every earlier one has none. With no choice, no query has hits. |
| Trailers.FindTrailer | services/youtube_service.py:33-87 | A missing key gives failure. A found result holds 1 to 3 trailers: the filtered hits of the query it names, and every earlier query had none. Not found means every query came back empty. |
| Trailers.FirstFound | services/youtube_service.py:56-72 | The hits returned are those of the named query, non-empty, and every earlier query had none. With nothing returned, every query had none. |
| Trailers.ShortTitle | services/youtube_service.py:336-338 | A title over 60 characters becomes its first 57 characters plus "...", 60 in all. Others are unchanged. |
| Trailers.ShortTitleIsTruncateText | services/youtube_service.py:337-338 | The title cut is `truncate_text(title, 60)`. |
| Trailers.FormatTrailerMessage | services/youtube_service.py:322-347 | No trailers gives the fixed "No trailers found" line. Otherwise the message opens with the header and contains every numbered entry, in order. For every k, the header and the first k entries joined by blank lines form a prefix. The last entry ends the message. |
| ImageAnalysis.PosterLikelihood | services/image_analysis.py:206-222 | The likelihood is 0.5 exactly when the width is positive and height/width > 1.2, that is 5*height > 6*width; otherwise 0.3. |
| ImageAnalysis.EffectiveLikelihood | services/image_analysis.py:257-261 | When feature detection failed, the default 0.5 is used. |
| ImageAnalysis.IsPotentialMovieTitle | services/image_analysis.py:288-315 | The stripped text is accepted exactly when its length is 2 to 100, it contains no skip pattern, and at least half of it is letters. |
| ImageAnalysis.TitleTestIgnoresSurroundingSpace | services/image_analysis.py:290-291 | Stripping before the test changes nothing. |
| ImageAnalysis.AcceptedTitleHasLetter | services/image_analysis.py:311-313 | An accepted title contains a letter. |
| ImageAnalysis.KeptTexts | services/image_analysis.py:181-190 | Every kept item is an annotation's stripped text, longer than 2 characters, with a missing confidence read as 0.5, and every such annotation is kept. Order and copies are stated by ImageAnalysis.KeepReadConcat. |
| ImageAnalysis.KeepReadConcat | services/image_analysis.py:181-190 | The loop keeps order and copies: the kept items of two lists in a row are those of the first followed by those of the second. One annotation gives its item exactly when the stripped text is longer than 2 characters, and nothing otherwise. |
| ImageAnalysis.MaxConfidence | services/image_analysis.py:195 | `max(..., default=0.0)`: an upper bound attained by some item, or 0.0 for none. |
| ImageAnalysis.ProcessVisionTextResults | services/image_analysis.py:167-197 | No responses gives no text and confidence 0.0. Otherwise the kept texts of the first response are returned, their confidence is the maximum, and the method is "google_vision". |
| ImageAnalysis.BoostConfidence | services/image_analysis.py:263-265 | `min(c*(1+p), 1.0)`: the product when it is at most 1, and 1 otherwise. The result is at least c for c in [0,1]. |
| ImageAnalysis.TitleCandidates | services/image_analysis.py:244-255 | Every candidate is a detected text that passes the title test, boosted, from "text_detection", and every passing text gives one. Order and copies are stated by ImageAnalysis.SelectTitlesConcat. |
| ImageAnalysis.SelectTitlesConcat | services/image_analysis.py:244-255 | The loop keeps order and copies: the candidates of two lists in a row are those of the first followed by those of the second. One text gives its boosted candidate exactly when it is accepted, and nothing otherwise. |
| ImageAnalysis.TitleCandidatesEmpty | services/image_analysis.py:244-255 | There are no candidates exactly when no detected text passes the title test. |
| ImageAnalysis.CombineAnalysisResults | services/image_analysis.py:237-278 | Exactly min(5, number of passing texts) candidates, sorted by confidence. They form a sub-multiset of the passing texts, boosted, so no candidate appears more often than its text. Each is a detected text passing the title test, boosted by the likelihood and capped at 1. There are none exactly when text detection failed or no text passes. No better-boosted title is left out. The methods and the likelihood are as in the source. |
| ImageAnalysis.Percent | services/image_analysis.py:344 | `int(c*100)` truncates toward zero on both signs. |
| ImageAnalysis.PosterLineNeverShown | services/image_analysis.py:334-337 | The likelihood is never above 0.7, so the "looks like a movie poster" line is never shown. The "might be movie-related" line shows exactly when the likelihood is 0.5. |
| ImageAnalysis.FormatAnalysisMessage | services/image_analysis.py:317-351 | Failure gives the error line; no candidates gives the fixed text. Otherwise the message starts with the header and then the likelihood line when there is one. The titles heading and the numbered candidate lines follow in order: for every k, these lines up to the k-th candidate form a prefix. The tip ends the message. |
| VideoAnalysis.VideoExtension | services/video_analysis.py:86 | The extension is a suffix of the lower-cased file name, and is empty or a dot followed by no further dot or slash. |
| VideoAnalysis.VideoExtensionOf | services/video_analysis.py:86 | A name with a dotted tail that has no dot or slash has that tail, lower-cased, as its extension. |
| VideoAnalysis.ValidateVideo | services/video_analysis.py:75-104 | "Too large" comes first, then "unsupported format", then "too small" for a supported file under 1 KiB. A file is valid exactly when it is 1 KiB to 20 MiB with a supported extension, and the reported format is that extension. |
| VideoAnalysis.TooLargeIsFileSizeCheck | utils/helpers.py:24-35 | `_validate_video` reports "too large" exactly when `validate_file_size` rejects the upload's size against the 20 MiB maximum, so its first check is the helper's comparison. |
| VideoAnalysis.LookupReplace | services/video_analysis.py:206-212 | Updating an entry in place keeps keys distinct and changes the lookup only at that key. |
| VideoAnalysis.ObserveLookup | services/video_analysis.py:202-219 | One sighting creates the entry or updates it at its key only, keeping keys distinct. |
| VideoAnalysis.AccumulateTally | services/video_analysis.py:196-219 | Keys stay distinct. A key is present exactly when it was sighted, with a frame count equal to the number of sightings, the first sighting's title and source "video_frames". |
| VideoAnalysis.AccumulateBounded | services/video_analysis.py:206-211 | Confidences stay in [0,1] when every sighting's confidence is in [0,1]. |
| VideoAnalysis.TwoSightings | services/video_analysis.py:208-212 | Sightings of 0.5 and 0.4 under one key accumulate to 0.62 over 2 frames. |
| VideoAnalysis.CombineFrameResults | services/video_analysis.py:194-228 | Exactly min(3, number of distinct keys sighted) candidates with distinct keys, sorted by (confidence, frame count), all from the accumulated table. No better-ranked table entry is left out. |
| VideoAnalysis.Succeeded | services/video_analysis.py:166-173 | Every kept analysis is a successful outcome. All analyses are kept exactly when all succeed; none exactly when all fail. Order and copies are stated by VideoAnalysis.SucceededConcat. |
| VideoAnalysis.SucceededConcat | services/video_analysis.py:166-173 | The loop keeps order and copies: the successes of two outcome lists in a row are those of the first followed by those of the second. One outcome gives its analysis when it succeeded and nothing when it failed. |
| VideoAnalysis.AnalyzeFrames | services/video_analysis.py:151-185 | No frames gives no candidates and confidence 0.0. Otherwise the frames analysed are the successful analyses among the first 5 frames, and the candidates are min(3, table size) entries of the table accumulated from those analyses. Frames analysed equals frames tried exactly when all succeed, and all failing gives nothing. |
| VideoAnalysis.BestIndex | services/video_analysis.py:271-275 | The first entry of a key whose confidence no entry of that key exceeds. Every earlier entry of the key is strictly lower. |
| VideoAnalysis.ConsiderLookup | services/video_analysis.py:272-275 | One candidate replaces the kept one only when strictly more confident. Other keys are untouched. |
| VideoAnalysis.KeepBestIsBest | services/video_analysis.py:270-275 | The kept entry for each key is that key's first most-confident candidate, with distinct keys. |
| VideoAnalysis.AllCandidates | services/video_analysis.py:256-268 | The frame candidates come first, followed by one candidate per audio clue. |
| VideoAnalysis.CombineVideoAnalysis | services/video_analysis.py:250-288 | Exactly min(3, number of distinct keys) candidates with distinct keys, sorted by confidence, all drawn from the frame and audio candidates, none less confident than a candidate of the same key. No kept-best candidate that ranks above a returned one is left out. The frame count is passed through. |
| VideoAnalysis.CombineVideoKeepsBestTitles | services/video_analysis.py:270-288 | A candidate more confident than some returned one has its title returned, with at least its confidence. |
| VideoAnalysis.AnalyzeVideo | services/video_analysis.py:34-65 | The analysis fails exactly when validation fails, with its error. Otherwise the frame count is the frame stage's, and the candidates are min(3, distinct keys) of the frame and audio candidates. Nothing is found when there are no frames and no clues. |
| VideoAnalysis.FormatVideoAnalysisMessage | services/video_analysis.py:298-334 | Failure gives the error line; no candidates gives the fixed text. Otherwise the header, the frames line when frames were analysed, every numbered candidate line and the tip are present. |
| VideoAnalysis.PlaceholdersFindNothing | services/video_analysis.py:113-149 | With the placeholder frame extractor and audio reader, every valid upload reports "No movie content detected". |
| Ranking.SortDesc | services/video_analysis.py:222-226 | The output is a permutation of the input, sorted non-increasingly by the key. |
| Ranking.SortDescStable | services/video_analysis.py:277-281 | Equal-key elements keep their input order, as Python's sort does. |
| Ranking.TopKIsTop | services/video_analysis.py:222-228 | Top k: min(k, n) elements, sorted, a sub-multiset of the input. Nothing left out ranks above anything kept. |
| Movies.ProcessTmdbMovie | services/movie_service.py:274-293 | `imdb_id` is None and the source is "tmdb". The title and overview get their defaults, genres default to [] and adult to false, and the other fields are passed through. The poster URL is present exactly when the path is truthy, and is then the base URL followed by the path. |
| Movies.ProcessOmdbMovie | services/movie_service.py:295-314 | Each field is mapped as in the source: the rating is the parsed `imdbRating`, vote count and popularity are None, genres are empty, adult is false, a poster of "N/A" is dropped, and the source is "omdb". |
| Movies.MergeOmdb | services/movie_service.py:316-325 | `imdb_id`, director, actors and type are overwritten. The poster is adopted only when the current one is falsy and the OMDb poster is not "N/A". No other field changes. |
| Movies.MergeOmdbIdempotent | services/movie_service.py:316-325 | Merging the same OMDb entry twice is the same as merging it once. |
| Movies.MergedFromTransitive | services/movie_service.py:316-325 | Repeated merges still change only the merge fields. |
| Movies.FirstMatch | services/movie_service.py:244-249 | The first record whose lower-cased title or IMDb id equals the entry's; none exactly when no record matches. |
| Movies.Absorb | services/movie_service.py:243-257 | A matched entry is merged into the first match, and only that record changes. Otherwise the list is kept and the processed OMDb record is appended. |
| Movies.AbsorbCarriesId | services/movie_service.py:243-257 | After absorbing an entry, its first match carries the entry's IMDb id. |
| Movies.AbsorbTwiceAddsOnce | services/movie_service.py:243-257 | Absorbing the same entry twice appends at most once. |
| Movies.MergeAll | services/movie_service.py:240-257 | The list grows by at most one per OMDb entry, and the earlier records change only in merge fields. |
| Movies.MergeAllSteps | services/movie_service.py:242-257 | With no OMDb entries the records are unchanged. Otherwise the result is the last entry absorbed into the result for the earlier entries, so each entry is processed in input order. |
| Movies.AppendedInOrder | services/movie_service.py:254-257 | The appended records come from OMDb entries in strictly increasing input order, each being that entry's processed record up to later merges. |
| Movies.TmdbMovies | services/movie_service.py:233-237 | At most 5 TMDB entries, processed in order; none when the source failed. |
| Movies.OmdbCandidates | services/movie_service.py:240-242 | The first 3 OMDb entries, or all of them when there are fewer; none when the source failed. |
| Movies.CombineMovieData | services/movie_service.py:227-264 | The total equals the number of movies, at most 8. The TMDB records come first in order, changed only in merge fields. A failed OMDb source leaves exactly the TMDB records, and a failed TMDB source leaves only OMDb records. |
| Movies.CombineLastOmdb | services/movie_service.py:240-257 | The result is the last OMDb candidate absorbed into the merge of the rest, and that candidate's first match carries its IMDb id. |
| Movies.FirstTitleGetsId | services/movie_service.py:244-253 | When the first TMDB title equals the last OMDb candidate's title ignoring case, the first record ends with that candidate's IMDb id. |
| Movies.OmdbOnly | services/movie_service.py:240-257 | Without TMDB records every result comes from OMDb. |
| Movies.MissingIdsMatch | services/movie_service.py:246-247 | An OMDb entry without `imdbID` matches the first TMDB record whatever the titles, because both ids are None. |
| Movies.YearText | services/movie_service.py:349-354 | The year is the first 4 characters of the release date, or all of it when shorter. |
| Movies.CastText | services/movie_service.py:362-365 | Splitting the cast on ", " gives the first 3 names of the actors text, or all of them when there are fewer. |
| Text.SplitJoinPrefix | services/movie_service.py:364-365 | Joining the first k pieces of a split with the separator and splitting again gives those k pieces back. |
| Movies.PlotText | services/movie_service.py:367-371 | An overview over 300 characters becomes 297 characters plus "...", 300 in all. Others are unchanged. |
| Movies.PlotTextIsTruncateText | services/movie_service.py:369-370 | The plot cut is `truncate_text(overview, 300)`. |
| Movies.Details | services/movie_service.py:349-371 | One line per shown field, at fixed positions: year first, then rating, director and cast, each after the shown lines before it, and plot last. The rating line shows the rendered rating out of 10 when a non-zero rating is present. |
| Movies.MovieParts | services/movie_service.py:347-374 | The title line, the detail lines, and the IMDb link last exactly when the id is truthy. |
| Movies.FormatMovieMessage | services/movie_service.py:336-376 | The card starts with the title and ends with the IMDb link when the id is truthy. It contains the year, rating, director, cast and plot lines when those are shown. |

## Left out

- Helpers.FormatListJoinsInOrder: holds only for a separator that cannot overlap itself, such as the default ", " (Helpers.CommaSpaceUnbordered), and items that do not contain it. With a separator such as "aa", splitting does not undo joining: "a" and "b" joined by "aa" split into "" and "ab" (Text.BorderedSeparatorBreaksSplit). So a split gives no account of such a join.
- Network and HTTP are not modelled: TMDB, OMDb, YouTube and Google Vision requests, sessions and timeouts. A search or analysis call is a function parameter.
- The image decoder, resizing and frame extraction through temporary files are not modelled. Frames are an abstract sequence, and a poster's size is an optional (width, height) pair.
- The audio metadata reader is replaced by the `audioClues` parameter.
- Audio candidates in the combined video list carry frame count 0, where the source dict has no `frame_count` key. Nothing downstream reads it.
- Exceptions and the `except` fallbacks are not modelled. Every modelled function is total.
- JSON `null` values are not modelled. A missing key gives the default, and a present key its value.
- The concurrent gather in `search_movies`, the per-service caches and the Telegram handlers are not modelled.
- Float rendering and parsing are not modelled: `format_rating`, `format_bytes`, the "{rating}/10" text (the `render` parameter) and `float()` on rating strings (the `toFloat` parameter).
- `is_valid_url` and `format_error_message` are not modelled.
- Trailers.TrailerScore: scores are exact tenths, while the source sums binary floats. Two consequences:
  - studio + year + penalty + official sums to 0.30000000000000004 in Python, which passes `> 0.3`; here it is 3 and does not pass;
  - studio + year + official gives 0.6000000000000001, a "⭐" icon in Python; here it is 6, a "🔗" icon.
- Trailers.FilterTrailerResults: scores equal in tenths but different as floats keep their input order here, so their order can differ from the source's.
- Text.Lower and ImageAnalysis.IsPotentialMovieTitle: upper and lower case and `isalpha` are modelled for ASCII only. `str.isspace` and `\s` use Python's full whitespace set.
- HelperPatterns.ExtractYearFromString and HelperPatterns.ParseImdbId: `\b` and `\d` are ASCII.
- HelperPatterns.ConvertDurationToMinutes and HelperPatterns.CleanMovieTitle: `\d` is ASCII here, in the four duration patterns and in the `\(\d{4}\)` suffix. Python's `\d` also matches other Unicode decimal digits, such as Arabic-Indic ones.
- HelperPatterns.MinWord, HelperPatterns.HourWord and HelperPatterns.CleanMovieTitle: `re.IGNORECASE` is ASCII case folding here. Python also matches 'ı' and 'İ' for "i", 'ſ' for "s", and the Kelvin sign for "k", in "min", "official" and "trailer". The letters "h" and "m" have no such equivalents.
- ImageAnalysis.Percent: `int(c * 100)` is computed on exact reals, while the source multiplies binary floats. Python gives 28 for 0.29, 56 for 0.57 and 57 for 0.58; here they are 29, 57 and 58.
- Helpers.SplitExt: `os.path.splitext` is modelled for POSIX paths only, with '/' as the only separator. On Windows, a backslash and a drive colon also end the stem.
- Movies.FirstTitleGetsId: it covers only the first TMDB record and the last OMDb candidate. The general claim, that every OMDb candidate's IMDb id reaches the record its title matches, is false: an earlier record may match by IMDb id first (see Movies.MissingIdsMatch).
- HelperPatterns.CleanMovieTitle: the `$` anchor before a final newline is not modelled. After `strip`, the text never ends in a newline.
- Helpers.FormatRuntime: the contract gives the shape of each branch. The exact text is stated by HelperPatterns.FormatRuntimeMixed and read back by HelperPatterns.CorrectedReadsFormatRuntime.
- The `_search_youtube` and `get_video_details` parsing of API responses is not modelled; `Trailers.Video` records are given.

## Findings

| source | as written | input that shows it | evidently intended | confidence | as-written member | corrected member |
|---|---|---|---|---|---|---|
| utils/helpers.py:239-248 | `convert_duration_to_minutes` tries `(\d+)\s*min` before `(\d+)h\s*(\d+)m` | "2h 30min", the text `format_runtime(150)` produces, reads as 30 | the hours-and-minutes form is read as 150, so the helper reads back what `format_runtime` writes | not executed | HelperPatterns.FormatRuntimeMisread | HelperPatterns.CorrectedReadsFormatRuntime |

=== FILE: config.dfy ===
/** The fixed settings the modelled code reads from its configuration object
    (config.py). API keys are not constants: where their presence matters
    they are parameters of the operation that checks them. */
module Config {

  /** 20 MB, the upload limit for images and videos. */
  const MaxFileSize: nat := 20 * 1024 * 1024

  /** Accepted video extensions, lower-case and with their dot, in the order
      the "unsupported format" message lists them. */
  const SupportedVideoFormats: seq<string> := [".mp4", ".avi", ".mov", ".mkv", ".webm"]

  /** Prefix that turns a movie-database poster path into a URL. */
  const TmdbImageBaseUrl: string := "https://image.tmdb.org/t/p/w500"
}

=== FILE: helpers.dfy ===
/** The string utilities of utils/helpers.py that need no pattern matching:
    truncation, runtime and list rendering, Markdown escaping, confidence
    icons, file names and extensions, and the size check. */
module Helpers {
  import opened Wrappers
  import opened Text

  // ---------------------------------------------------------------------------
  // truncate_text

  /** Text that fits is returned as is; longer text keeps a prefix and gets
      `suffix`, so that the whole is `maxLength` long whenever the suffix
      itself fits. A bound shorter than the suffix makes the prefix length
      negative, which Python reads as counting from the end. */
  function TruncateText(text: string, maxLength: int, suffix: string): (r: string)
    ensures |text| <= maxLength ==> r == text
    ensures |text| > maxLength ==> IsSuffix(suffix, r) && IsPrefix(r[..|r| - |suffix|], text)
    ensures |text| > maxLength && maxLength >= |suffix| ==> |r| == maxLength
    ensures |text| > maxLength && maxLength >= |suffix| ==> r[..maxLength - |suffix|] == text[..maxLength - |suffix|]
  {
    if |text| <= maxLength then text
    else PyTake(text, maxLength - |suffix|) + suffix
  }

  /** Truncating twice with the same bound changes nothing the second time. */
  lemma TruncateTextIdempotent(text: string, maxLength: int, suffix: string)
    requires maxLength >= |suffix|
    ensures TruncateText(TruncateText(text, maxLength, suffix), maxLength, suffix)
         == TruncateText(text, maxLength, suffix)
  {
  }

  // ---------------------------------------------------------------------------
  // format_runtime

  /** "{m}min" under an hour (negative counts included), whole hours as
      "{h}h", anything else as "{h}h {r}min". */
  function FormatRuntime(minutes: int): (r: string)
    ensures minutes < 60 ==> IsSuffix("min", r)
    ensures minutes >= 60 && minutes % 60 == 0 ==> IsSuffix("h", r)
    ensures minutes >= 60 && minutes % 60 != 0 ==> IsSuffix("min", r) && Contains(r, "h ")
  {
    if minutes < 60 then IntToString(minutes) + "min"
    else
      var hours := minutes / 60;
      var rest := minutes % 60;
      if rest == 0 then NatToString(hours) + "h"
      else
        var r := NatToString(hours) + "h " + NatToString(rest) + "min";
        assert OccursAt(r, "h ", |NatToString(hours)|);
        r
  }

  // ---------------------------------------------------------------------------
  // format_list_with_limit

  /** "N/A" for no items; every item when they fit within `limit`; otherwise
      the first `limit` items followed by " and {n} more" naming how many
      were left out. */
  function FormatListWithLimit(items: seq<string>, limit: int, sep: string): (r: string)
    ensures items == [] ==> r == "N/A"
    ensures 0 < |items| <= limit ==> forall i :: 0 <= i < |items| ==> Contains(r, items[i])
    ensures items != [] && |items| > limit ==>
              IsSuffix(" and " + IntToString(|items| - limit) + " more", r)
              && forall i :: 0 <= i < |PyTake(items, limit)| ==> Contains(r, items[i])
  {
    if items == [] then "N/A"
    else if |items| <= limit then
      assert forall i :: 0 <= i < |items| ==> Contains(Join(items, sep), items[i]) by {
        forall i | 0 <= i < |items| {
          JoinContainsParts(items, sep, i);
        }
      }
      Join(items, sep)
    else
      var shown := PyTake(items, limit);
      var tail := " and " + IntToString(|items| - limit) + " more";
      assert forall i :: 0 <= i < |shown| ==> Contains(Join(shown, sep) + tail, items[i]) by {
        forall i | 0 <= i < |shown| ensures Contains(Join(shown, sep) + tail, items[i]) {
          assert shown[i] == items[i];
          JoinContainsParts(shown, sep, i);
          ContainsInConcat(Join(shown, sep), tail, shown[i]);
        }
      }
      Join(shown, sep) + tail
  }

  /** The items are joined by the separator, in order: splitting the result
      on a separator such as ", " gives back every item when they fit, and
      otherwise the shown items before the " and {n} more" tail. */
  lemma FormatListJoinsInOrder(items: seq<string>, limit: int, sep: string)
    requires |sep| > 0 && Unbordered(sep)
    requires forall i :: 0 <= i < |items| ==> !Contains(items[i], sep)
    ensures 0 < |items| <= limit ==> Split(FormatListWithLimit(items, limit, sep), sep) == items
    ensures items != [] && |items| > limit ==>
              var r := FormatListWithLimit(items, limit, sep);
              var tail := " and " + IntToString(|items| - limit) + " more";
              |tail| <= |r| && r[|r| - |tail|..] == tail
              && (PyTake(items, limit) != [] ==> Split(r[..|r| - |tail|], sep) == PyTake(items, limit))
              && (PyTake(items, limit) == [] ==> r == tail)
  {
    if 0 < |items| <= limit {
      SplitOfJoin(items, sep);
    } else if items != [] {
      var shown := PyTake(items, limit);
      forall i | 0 <= i < |shown| ensures !Contains(shown[i], sep) {
        assert shown[i] == items[i];
      }
      var tail := " and " + IntToString(|items| - limit) + " more";
      var r := Join(shown, sep) + tail;
      assert r[..|r| - |tail|] == Join(shown, sep) && r[|r| - |tail|..] == tail;
      if shown != [] {
        SplitOfJoin(shown, sep);
      }
    }
  }

  /** The separator the bot uses is unbordered. */
  lemma CommaSpaceUnbordered()
    ensures Unbordered(", ")
  {
    forall m | 0 < m < 2 ensures ", "[m..] != ", "[..2 - m] {
      assert ", "[m..][0] == ' ' && ", "[..2 - m][0] == ',';
    }
  }

  // ---------------------------------------------------------------------------
  // escape_markdown

  /** The characters Telegram Markdown needs escaped, in the order the source
      replaces them. */
  const MarkdownSpecials: seq<char> :=
    ['_', '*', '[', ']', '(', ')', '~', '`', '>', '#', '+', '-', '=', '|', '{', '}', '.', '!']

  /** The loop `for c in chars: text = text.replace(c, rep(c))`. */
  function ReplaceEach(text: string, chars: seq<char>, rep: char -> string): string
    decreases |chars|
  {
    if chars == [] then text
    else ReplaceEach(ReplaceChar(text, chars[0], rep(chars[0])), chars[1..], rep)
  }

  function Backslashed(c: char): string {
    ['\\', c]
  }

  /** escape_markdown, as written: eighteen successive replacements. */
  function EscapeMarkdown(text: string): string {
    ReplaceEach(text, MarkdownSpecials, Backslashed)
  }

  /** One left-to-right pass that puts a backslash before each character of
      `specials`. */
  function EscapeChars(text: string, specials: set<char>): (r: string)
    ensures |r| == |text| + CountIn(text, specials)
  {
    if text == [] then []
    else (if text[0] in specials then ['\\', text[0]] else [text[0]]) + EscapeChars(text[1..], specials)
  }

  function CountIn(text: string, specials: set<char>): nat {
    if text == [] then 0
    else (if text[0] in specials then 1 else 0) + CountIn(text[1..], specials)
  }

  /** Undoes `EscapeChars`: a backslash followed by a special character
      stands for that character. */
  function Unescape(text: string, specials: set<char>): string
    decreases |text|
  {
    if text == [] then []
    else if |text| >= 2 && text[0] == '\\' && text[1] in specials then [text[1]] + Unescape(text[2..], specials)
    else [text[0]] + Unescape(text[1..], specials)
  }

  lemma {:induction false} ReplaceCharAppend(a: string, b: string, c: char, rep: string)
    ensures ReplaceChar(a + b, c, rep) == ReplaceChar(a, c, rep) + ReplaceChar(b, c, rep)
  {
    if a != [] {
      assert (a + b)[1..] == a[1..] + b;
      assert (a + b)[0] == a[0];
      ReplaceCharAppend(a[1..], b, c, rep);
      var h := if a[0] == c then rep else [a[0]];
      calc {
        ReplaceChar(a + b, c, rep);
        h + ReplaceChar(a[1..] + b, c, rep);
        h + (ReplaceChar(a[1..], c, rep) + ReplaceChar(b, c, rep));
        (h + ReplaceChar(a[1..], c, rep)) + ReplaceChar(b, c, rep);
      }
    } else {
      assert a + b == b;
    }
  }

  lemma {:induction false} EscapeCharsNone(text: string)
    ensures EscapeChars(text, {}) == text
  {
    if text != [] {
      EscapeCharsNone(text[1..]);
    }
  }

  /** One more replacement extends the set of escaped characters by one,
      because the backslash it inserts is never itself replaced later. */
  lemma {:induction false} EscapeStep(text: string, done: set<char>, c: char)
    requires c !in done && c != '\\'
    ensures ReplaceChar(EscapeChars(text, done), c, Backslashed(c)) == EscapeChars(text, done + {c})
  {
    if text != [] {
      var head := if text[0] in done then ['\\', text[0]] else [text[0]];
      ReplaceCharAppend(head, EscapeChars(text[1..], done), c, Backslashed(c));
      EscapeStep(text[1..], done, c);
      if text[0] in done {
        assert ReplaceChar(head, c, Backslashed(c)) == head by {
          assert head[1..][1..] == [];
        }
      } else {
        assert head[1..] == [];
      }
    }
  }

  lemma SetOfCons(chars: seq<char>)
    requires chars != []
    ensures (set c | c in chars) == {chars[0]} + set c | c in chars[1..]
  {
    HeadTail(chars);
  }

  lemma {:induction false} EscapeSteps(text: string, done: set<char>, chars: seq<char>)
    requires forall i, j :: 0 <= i < j < |chars| ==> chars[i] != chars[j]
    requires forall i :: 0 <= i < |chars| ==> chars[i] !in done && chars[i] != '\\'
    ensures ReplaceEach(EscapeChars(text, done), chars, Backslashed)
         == EscapeChars(text, done + set c | c in chars)
    decreases |chars|
  {
    if chars != [] {
      EscapeStep(text, done, chars[0]);
      EscapeSteps(text, done + {chars[0]}, chars[1..]);
      SetOfCons(chars);
      assert done + {chars[0]} + (set c | c in chars[1..]) == done + set c | c in chars;
    } else {
      assert (set c | c in chars) == {};
      assert done + {} == done;
    }
  }

  /** The eighteen sequential replacements of escape_markdown do not
      interfere with one another: the result is the single pass that puts a
      backslash before each special character. */
  lemma EscapeMarkdownIsSinglePass(text: string)
    ensures EscapeMarkdown(text) == EscapeChars(text, set c | c in MarkdownSpecials)
  {
    SpecialsDistinct();
    EscapeAllSinglePass(text, MarkdownSpecials);
  }

  /** Replacing distinct characters one after another, none of them a
      backslash, escapes them all in one pass. */
  lemma EscapeAllSinglePass(text: string, chars: seq<char>)
    requires forall i, j :: 0 <= i < j < |chars| ==> chars[i] != chars[j]
    requires forall i :: 0 <= i < |chars| ==> chars[i] != '\\'
    ensures ReplaceEach(text, chars, Backslashed) == EscapeChars(text, set c | c in chars)
  {
    EscapeCharsNone(text);
    EscapeSteps(text, {}, chars);
    assert {} + (set c | c in chars) == set c | c in chars;
  }

  lemma SpecialsDistinct()
    ensures forall i, j :: 0 <= i < j < |MarkdownSpecials| ==> MarkdownSpecials[i] != MarkdownSpecials[j]
    ensures forall i :: 0 <= i < |MarkdownSpecials| ==> MarkdownSpecials[i] != '\\'
  {
    assert MarkdownSpecials
        == ['_', '*', '[', ']', '(', ')', '~', '`', '>', '#', '+', '-', '=', '|', '{', '}', '.', '!'];
  }

  lemma {:induction false} UnescapeEscapeChars(text: string, specials: set<char>)
    requires '\\' !in specials
    ensures Unescape(EscapeChars(text, specials), specials) == text
  {
    if text != [] {
      var rest := EscapeChars(text[1..], specials);
      UnescapeEscapeChars(text[1..], specials);
      if text[0] in specials {
        assert (['\\', text[0]] + rest)[2..] == rest;
      } else {
        assert ([text[0]] + rest)[1..] == rest;
        if text[0] == '\\' && |rest| >= 1 {
          assert rest[0] == '\\' || rest[0] == text[1];
        }
      }
    }
  }

  /** escape_markdown loses nothing: the escaped text has exactly one extra
      character per special character, and removing the backslashes gives
      the input back. */
  lemma EscapeMarkdownRoundTrip(text: string)
    ensures |EscapeMarkdown(text)| == |text| + CountIn(text, set c | c in MarkdownSpecials)
    ensures Unescape(EscapeMarkdown(text), set c | c in MarkdownSpecials) == text
  {
    EscapeMarkdownIsSinglePass(text);
    SpecialsDistinct();
    var specials := set c | c in MarkdownSpecials;
    assert '\\' !in specials;
    UnescapeEscapeChars(text, specials);
  }

  // ---------------------------------------------------------------------------
  // calculate_confidence_emoji

  /** A step function of the confidence with thresholds 0.9, 0.75, 0.5 and
      0.3, each inclusive. */
  function ConfidenceEmoji(confidence: real): (r: string)
    ensures r == "🎯" <==> confidence >= 0.9
    ensures r == "⭐" <==> 0.75 <= confidence < 0.9
    ensures r == "🔸" <==> 0.5 <= confidence < 0.75
    ensures r == "❓" <==> 0.3 <= confidence < 0.5
    ensures r == "❌" <==> confidence < 0.3
  {
    if confidence >= 0.9 then "🎯"
    else if confidence >= 0.75 then "⭐"
    else if confidence >= 0.5 then "🔸"
    else if confidence >= 0.3 then "❓"
    else "❌"
  }

  /** The position of an icon on the confidence scale, lowest first. */
  function IconLevel(icon: string): nat {
    if icon == "🎯" then 4
    else if icon == "⭐" then 3
    else if icon == "🔸" then 2
    else if icon == "❓" then 1
    else 0
  }

  /** A higher confidence never gets a lower icon. */
  lemma ConfidenceEmojiMonotone(a: real, b: real)
    requires a <= b
    ensures IconLevel(ConfidenceEmoji(a)) <= IconLevel(ConfidenceEmoji(b))
  {
  }

  // ---------------------------------------------------------------------------
  // File names

  /** The index of the last `c` in `s`. */
  function LastIndexOf(s: string, c: char): (r: Option<nat>)
    ensures r.Some? ==> r.value < |s| && s[r.value] == c
    ensures r.Some? ==> forall k :: r.value < k < |s| ==> s[k] != c
    ensures r.None? ==> c !in s
  {
    if s == [] then None
    else if s[|s| - 1] == c then Some(|s| - 1)
    else LastIndexOf(s[..|s| - 1], c)
  }

  /** Python's `os.path.splitext` on a POSIX path: the extension runs from the
      last dot of the last path component, unless only dots precede that dot
      in the component (".bashrc" has no extension). */
  function SplitExt(p: string): (r: (string, string))
    ensures r.0 + r.1 == p
    ensures r.1 == [] || (r.1[0] == '.' && '.' !in r.1[1..] && '/' !in r.1)
  {
    match LastIndexOf(p, '.')
    case None => (p, [])
    case Some(dot) =>
      var start := match LastIndexOf(p, '/') case None => 0 case Some(slash) => slash + 1;
      if start <= dot && exists k :: start <= k < dot && p[k] != '.' then
        assert '.' !in p[dot..][1..] by {
          forall k | 0 <= k < |p[dot..][1..]| ensures p[dot..][1..][k] != '.' {
            assert p[dot..][1..][k] == p[dot + 1 + k];
          }
        }
        (p[..dot], p[dot..])
      else (p, [])
  }

  /** get_file_extension: the extension of the lower-cased name, without its
      dot. */
  function GetFileExtension(filename: string): (r: string)
    ensures '.' !in r && '/' !in r
    ensures forall i :: 0 <= i < |r| ==> !('A' <= r[i] <= 'Z')
    ensures r != [] ==> IsSuffix("." + r, Lower(filename))
  {
    var lower := Lower(filename);
    ExtensionTail(lower);
    PyDrop(SplitExt(lower).1, 1)
  }

  /** The last path component of `stem` has a character other than a dot,
      so a dot appended to it starts an extension. */
  predicate NamedStem(stem: string) {
    exists k :: 0 <= k < |stem| && stem[k] != '.' && stem[k] != '/' && forall j :: k < j < |stem| ==> stem[j] != '/'
  }

  /** A name, a dot and a dot-free, slash-free tail split into the name and
      the dotted tail. */
  lemma SplitExtOf(stem: string, e: string)
    requires '.' !in e && '/' !in e && NamedStem(stem)
    ensures SplitExt(stem + "." + e) == (stem, "." + e)
  {
    var p := stem + "." + e;
    var k :| 0 <= k < |stem| && stem[k] != '.' && stem[k] != '/' && forall j :: k < j < |stem| ==> stem[j] != '/';
    assert forall j :: |stem| < j < |p| ==> p[j] == e[j - |stem| - 1];
    assert p[|stem|] == '.';
    assert LastIndexOf(p, '.') == Some(|stem|);
    assert p[k] == stem[k];
    assert forall j :: k < j < |p| ==> p[j] != '/';
    var start := match LastIndexOf(p, '/') case None => 0 case Some(slash) => slash + 1;
    assert start <= k;
    assert start <= k < |stem| && p[k] != '.';
    assert p[..|stem|] == stem && p[|stem|..] == "." + e;
  }

  /** Lower-casing keeps dots and slashes where they are. */
  lemma LowerKeepsSeparators(s: string)
    ensures forall i :: 0 <= i < |s| ==> (Lower(s)[i] == '.' <==> s[i] == '.')
    ensures forall i :: 0 <= i < |s| ==> (Lower(s)[i] == '/' <==> s[i] == '/')
  {
  }

  /** Lower-casing keeps a name's named last component. */
  lemma LowerNamedStem(stem: string)
    requires NamedStem(stem)
    ensures NamedStem(Lower(stem))
  {
    LowerKeepsSeparators(stem);
    var k :| 0 <= k < |stem| && stem[k] != '.' && stem[k] != '/' && forall j :: k < j < |stem| ==> stem[j] != '/';
    assert Lower(stem)[k] != '.' && Lower(stem)[k] != '/';
  }

  /** Lower-casing works piece by piece. */
  lemma LowerDotted(stem: string, e: string)
    ensures Lower(stem + "." + e) == Lower(stem) + "." + Lower(e)
  {
    LowerConcat(stem, ".");
    LowerConcat(stem + ".", e);
    assert Lower(".") == ".";
  }

  /** Lower-casing a concatenation lower-cases each side. */
  lemma {:induction false} LowerConcat(a: string, b: string)
    ensures Lower(a + b) == Lower(a) + Lower(b)
  {
    if a == [] {
      assert a + b == b;
    } else {
      assert (a + b)[1..] == a[1..] + b;
      LowerConcat(a[1..], b);
    }
  }

  /** The extension of a name with a dotted, dot-free, slash-free tail is
      that tail, lower-cased. */
  lemma FileExtensionOf(stem: string, e: string)
    requires '.' !in e && '/' !in e && NamedStem(stem)
    ensures SplitExt(Lower(stem + "." + e)).1 == "." + Lower(e)
    ensures GetFileExtension(stem + "." + e) == Lower(e)
  {
    LowerDotted(stem, e);
    LowerKeepsSeparators(e);
    LowerNamedStem(stem);
    SplitExtOf(Lower(stem), Lower(e));
    assert ("." + Lower(e))[1..] == Lower(e);
  }

  /** The extension without its dot is a dot-free tail of the path. */
  lemma ExtensionTail(p: string)
    ensures var r := PyDrop(SplitExt(p).1, 1);
      && '.' !in r && '/' !in r
      && (r != [] ==> IsSuffix("." + r, p))
      && forall i :: 0 <= i < |r| ==> r[i] == p[|p| - |r| + i]
  {
    var (root, ext) := SplitExt(p);
    var r := PyDrop(ext, 1);
    assert ext == p[|root|..];
    if ext != [] {
      assert r == ext[1..];
      assert "." + r == ext;
    }
  }

  const InvalidFilenameChars: seq<char> := ['<', '>', ':', '"', '/', '\\', '|', '?', '*']

  predicate IsSpaceOrDot(c: char) {
    c == ' ' || c == '.'
  }

  function Underscore(c: char): string {
    "_"
  }

  /** The name after the replacements and the strip, before the length cap. */
  function SanitizedStem(filename: string): string {
    StripBy(ReplaceEach(filename, InvalidFilenameChars, Underscore), IsSpaceOrDot)
  }

  /** sanitize_filename: invalid characters become '_', surrounding spaces
      and dots go, and a name over 200 characters keeps its extension and
      loses the end of its stem. */
  function SanitizeFilename(filename: string): (r: string)
    ensures forall c :: c in r ==> c !in InvalidFilenameChars
    ensures |r| <= |filename|
    ensures |SplitExt(SanitizedStem(filename)).1| <= 200 ==> |r| <= 200
    ensures |SanitizedStem(filename)| <= 200 ==> r == SanitizedStem(filename)
    ensures |SanitizedStem(filename)| > 200 ==>
              var (name, ext) := SplitExt(SanitizedStem(filename));
              IsSuffix(ext, r) && IsPrefix(r[..|r| - |ext|], name)
              && (|ext| <= 200 ==> |r| == 200)
  {
    var stem := SanitizedStem(filename);
    SanitizedStemFacts(filename);
    if |stem| > 200 then CapLength(stem) else stem
  }

  /** The length cap: the stem of the name is cut so that, with its
      extension, it fits in 200 characters. */
  function CapLength(stem: string): (r: string)
    ensures forall c :: c in r ==> c in stem
    ensures |r| <= |stem|
    ensures |SplitExt(stem).1| <= 200 ==> |r| <= 200
    ensures IsSuffix(SplitExt(stem).1, r) && IsPrefix(r[..|r| - |SplitExt(stem).1|], SplitExt(stem).0)
    ensures |SplitExt(stem).1| <= 200 < |stem| ==> |r| == 200
  {
    var (name, ext) := SplitExt(stem);
    var kept := PyTake(name, 200 - |ext|);
    assert forall c :: c in kept ==> c in name;
    assert forall c :: c in name ==> c in stem by {
      assert stem == name + ext;
    }
    assert forall c :: c in ext ==> c in stem by {
      assert stem == name + ext;
    }
    kept + ext
  }

  lemma SanitizedStemFacts(filename: string)
    ensures |SanitizedStem(filename)| <= |filename|
    ensures forall c :: c in SanitizedStem(filename) ==> c !in InvalidFilenameChars
  {
    assert '_' !in InvalidFilenameChars;
    StemFacts(filename, InvalidFilenameChars);
  }

  lemma StemFacts(filename: string, chars: seq<char>)
    requires '_' !in chars
    ensures |StripBy(ReplaceEach(filename, chars, Underscore), IsSpaceOrDot)| <= |filename|
    ensures forall c :: c in StripBy(ReplaceEach(filename, chars, Underscore), IsSpaceOrDot) ==> c !in chars
  {
    var replaced := ReplaceEach(filename, chars, Underscore);
    ReplaceEachUnderscore(filename, chars);
    StripKeepsChars(replaced, IsSpaceOrDot);
  }

  lemma StripKeepsChars(s: string, p: char -> bool)
    ensures forall c :: c in StripBy(s, p) ==> c in s
  {
    var stem := StripBy(s, p);
    var lead := LeadCount(s, p);
    assert stem == s[lead..lead + |stem|];
  }

  lemma {:induction false} ReplaceEachUnderscore(text: string, chars: seq<char>)
    requires '_' !in chars
    ensures |ReplaceEach(text, chars, Underscore)| == |text|
    ensures forall c :: c in ReplaceEach(text, chars, Underscore) ==>
              c !in chars && (c in text || c == '_')
    decreases |chars|
  {
    if chars != [] {
      var once := ReplaceChar(text, chars[0], "_");
      ReplaceCharSameLength(text, chars[0], "_");
      ReplaceEachUnderscore(once, chars[1..]);
      forall c | c in ReplaceEach(text, chars, Underscore)
        ensures c != chars[0]
      {
        assert c in once || c == '_';
      }
    }
  }

  lemma {:induction false} ReplaceCharSameLength(text: string, c: char, rep: string)
    requires |rep| == 1
    ensures |ReplaceChar(text, c, rep)| == |text|
  {
    if text != [] {
      ReplaceCharSameLength(text[1..], c, rep);
    }
  }

  lemma {:induction false} ReplaceEachAbsent(text: string, chars: seq<char>, rep: char -> string)
    requires forall i :: 0 <= i < |chars| ==> chars[i] !in text
    ensures ReplaceEach(text, chars, rep) == text
    decreases |chars|
  {
    if chars != [] {
      ReplaceCharAbsent(text, chars[0], rep(chars[0]));
      ReplaceEachAbsent(text, chars[1..], rep);
    }
  }

  lemma {:induction false} ReplaceCharAbsent(text: string, c: char, rep: string)
    requires c !in text
    ensures ReplaceChar(text, c, rep) == text
  {
    if text != [] {
      ReplaceCharAbsent(text[1..], c, rep);
    }
  }

  /** Replacing one character by one character works in place. */
  lemma {:induction false} ReplaceCharInPlace(text: string, c: char, x: char)
    ensures |ReplaceChar(text, c, [x])| == |text|
    ensures forall i :: 0 <= i < |text| ==>
              ReplaceChar(text, c, [x])[i] == (if text[i] == c then x else text[i])
  {
    if text != [] {
      ReplaceCharInPlace(text[1..], c, x);
      var head := if text[0] == c then [x] else [text[0]];
      assert ReplaceChar(text, c, [x]) == head + ReplaceChar(text[1..], c, [x]);
    }
  }

  /** The loop of replacements by '_' works in place: each character in
      `chars` becomes '_' at its own position, and every other character
      stays. */
  lemma {:induction false} ReplaceEachInPlace(text: string, chars: seq<char>)
    ensures |ReplaceEach(text, chars, Underscore)| == |text|
    ensures forall i :: 0 <= i < |text| ==>
              ReplaceEach(text, chars, Underscore)[i] == (if text[i] in chars then '_' else text[i])
    decreases |chars|
  {
    if chars != [] {
      var once := ReplaceChar(text, chars[0], "_");
      ReplaceCharInPlace(text, chars[0], '_');
      ReplaceEachInPlace(once, chars[1..]);
      forall i | 0 <= i < |text|
        ensures ReplaceEach(text, chars, Underscore)[i] == (if text[i] in chars then '_' else text[i])
      {
        assert text[i] in chars <==> text[i] == chars[0] || text[i] in chars[1..];
      }
    }
  }

  /** sanitize_filename's replacements: the name keeps its length, and each
      invalid character becomes '_' where it stood. */
  lemma SanitizeReplacesInPlace(filename: string)
    ensures |ReplaceEach(filename, InvalidFilenameChars, Underscore)| == |filename|
    ensures forall i :: 0 <= i < |filename| ==>
              ReplaceEach(filename, InvalidFilenameChars, Underscore)[i]
                == (if filename[i] in InvalidFilenameChars then '_' else filename[i])
  {
    ReplaceEachInPlace(filename, InvalidFilenameChars);
  }

  /** A name that is already clean comes back unchanged. */
  lemma SanitizeFilenameKeepsCleanNames(filename: string)
    requires forall c :: c in filename ==> c !in InvalidFilenameChars
    requires |filename| <= 200
    requires filename != [] ==> !IsSpaceOrDot(filename[0]) && !IsSpaceOrDot(filename[|filename| - 1])
    ensures SanitizeFilename(filename) == filename
  {
    assert forall i :: 0 <= i < |InvalidFilenameChars| ==> InvalidFilenameChars[i] !in filename;
    ReplaceEachAbsent(filename, InvalidFilenameChars, Underscore);
    StripByNothing(filename, IsSpaceOrDot);
  }

  // ---------------------------------------------------------------------------
  // validate_file_size

  /** A size is acceptable up to and including the limit. */
  function ValidateFileSize(fileSize: int, maxSize: int): (ok: bool)
    ensures ok <==> fileSize <= maxSize
  {
    fileSize <= maxSize
  }
}

=== FILE: image.dfy ===
/** The poster reader of services/image_analysis.py: which recognised text
    fragments may be movie titles, how the aspect ratio of the picture
    boosts their confidence, the top five that are kept, and the message
    that reports them. Decoding the picture and calling the recognition
    service are outside the model; their results are the inputs here. */
module ImageAnalysis {
  import opened Wrappers
  import opened Text
  import Ranking

  // ---------------------------------------------------------------------------
  // _detect_poster_features

  /** 0.5 for a portrait picture, one whose height exceeds 1.2 times its
      width; 0.3 otherwise, a zero width included (its ratio is taken as 0). */
  function PosterLikelihood(width: nat, height: nat): (r: real)
    ensures r == 0.5 || r == 0.3
    ensures r == 0.5 <==> width > 0 && 5 * height > 6 * width
  {
    var aspect := if width > 0 then height as real / width as real else 0.0;
    if width > 0 then
      RatioAbove(width as real, height as real);
      if aspect > 1.2 then 0.5 else 0.3
    else if aspect > 1.2 then 0.5 else 0.3
  }

  lemma RatioAbove(w: real, h: real)
    requires w > 0.0
    ensures h / w > 1.2 <==> 5.0 * h > 6.0 * w
  {
    var a := h / w;
    assert a * w == h;
    if a > 1.2 {
      assert a * w > 1.2 * w;
    } else {
      assert a * w <= 1.2 * w;
    }
  }

  /** The likelihood the combination step uses: the one detected from the
      picture's `(width, height)`, or 0.5 when detection failed (`None`). */
  function EffectiveLikelihood(size: Option<(nat, nat)>): (r: real)
    ensures r == 0.5 || r == 0.3
    ensures r == 0.3 <==> size.Some? && !(size.value.0 > 0 && 5 * size.value.1 > 6 * size.value.0)
  {
    match size
    case None => 0.5
    case Some((width, height)) => PosterLikelihood(width, height)
  }

  // ---------------------------------------------------------------------------
  // _is_potential_movie_title

  /** Fragments that mark text as something other than a title. */
  const SkipPatterns: seq<string> := [
    "rating", "pg-13", "rated", "minutes", "min", "hrs", "hours",
    "dvd", "blu-ray", "digital", "download", "streaming",
    "trailer", "teaser", "poster", "coming soon",
    "www.", "http", ".com", ".net", ".org"]

  function CountLetters(s: string): (n: nat)
    ensures n <= |s|
    ensures n > 0 <==> exists i :: 0 <= i < |s| && IsLetter(s[i])
  {
    if s == [] then 0
    else
      var rest := CountLetters(s[1..]);
      assert forall i :: 1 <= i < |s| ==> s[i] == s[1..][i - 1];
      (if IsLetter(s[0]) then 1 else 0) + rest
  }

  /** Stripped, the text is 2 to 100 characters long, contains none of the
      skip patterns once lower-cased (a plain substring test, so a title
      containing "min" anywhere is refused), and at least half of it is
      letters. */
  function IsPotentialMovieTitle(text: string): (r: bool)
    ensures r <==> var t := Strip(text);
                   && 2 <= |t| <= 100
                   && (forall i :: 0 <= i < |SkipPatterns| ==> !Contains(Lower(t), SkipPatterns[i]))
                   && 2 * CountLetters(t) >= |t|
  {
    var t := Strip(text);
    if |t| < 2 || |t| > 100 then false
    else if ContainsAny(Lower(t), SkipPatterns) then false
    else !(2 * CountLetters(t) < |t|)
  }

  /** Whether a fragment may be a title depends only on its stripped form. */
  lemma TitleTestIgnoresSurroundingSpace(text: string)
    ensures IsPotentialMovieTitle(Strip(text)) == IsPotentialMovieTitle(text)
  {
    StripIdempotent(text, IsSpace);
  }

  /** Every accepted fragment has a letter. */
  lemma AcceptedTitleHasLetter(text: string)
    requires IsPotentialMovieTitle(text)
    ensures exists i :: 0 <= i < |Strip(text)| && IsLetter(Strip(text)[i])
  {
  }

  // ---------------------------------------------------------------------------
  // _process_vision_text_results

  /** One text annotation of the recognition response; a missing
      confidence is `None`. */
  datatype Annotation = Annotation(description: string, confidence: Option<real>)

  datatype TextItem = TextItem(text: string, confidence: real)

  /** A text-detection result: the fragments, their best confidence, and
      the method name when the result carries one. */
  datatype TextDetection = TextDetection(success: bool, detectedText: seq<TextItem>, confidence: real, methodName: Option<string>)

  /** What the detector reports when no recognition service is configured:
      nothing found, at confidence 0.3. */
  const FallbackDetection: TextDetection := TextDetection(true, [], 0.3, Some("fallback"))

  /** The stripped description and the confidence, 0.5 when missing. */
  function ReadAnnotation(a: Annotation): TextItem {
    TextItem(Strip(a.description), a.confidence.GetOr(0.5))
  }

  /** The items `read` makes of `xs` whose text is longer than two
      characters, in order. */
  function KeepRead<A>(xs: seq<A>, read: A -> TextItem): (r: seq<TextItem>)
    ensures |r| <= |xs|
    ensures forall t :: t in r ==> |t.text| > 2 && exists a :: a in xs && t == read(a)
    ensures forall a :: a in xs && |read(a).text| > 2 ==> read(a) in r
  {
    if xs == [] then []
    else
      var t := read(xs[0]);
      var rest := KeepRead(xs[1..], read);
      assert forall a :: a in xs ==> a == xs[0] || a in xs[1..];
      (if |t.text| > 2 then [t] else []) + rest
  }

  /** What one item contributes to `KeepRead`. */
  function KeptOne<A>(a: A, read: A -> TextItem): seq<TextItem> {
    if |read(a).text| > 2 then [read(a)] else []
  }

  lemma KeepReadCons<A>(xs: seq<A>, read: A -> TextItem)
    requires xs != []
    ensures KeepRead(xs, read) == KeptOne(xs[0], read) + KeepRead(xs[1..], read)
  {
  }

  /** The kept items of two lists in a row are the kept items of the first
      followed by those of the second: the filter keeps order and copies.
      One item is kept exactly when its text is longer than two characters. */
  lemma {:induction false} KeepReadConcat<A>(xs: seq<A>, ys: seq<A>, read: A -> TextItem)
    ensures KeepRead(xs + ys, read) == KeepRead(xs, read) + KeepRead(ys, read)
    ensures |xs| == 1 ==> KeepRead(xs, read) == (if |read(xs[0]).text| > 2 then [read(xs[0])] else [])
    decreases |xs|
  {
    if xs == [] {
      assert xs + ys == ys;
    } else {
      var zs := xs + ys;
      assert zs[0] == xs[0] && zs[1..] == xs[1..] + ys;
      KeepReadCons(zs, read);
      KeepReadConcat(xs[1..], ys, read);
      KeepReadStep(xs, KeepRead(xs[1..] + ys, read), KeepRead(ys, read), read);
    }
  }

  /** The step of `KeepReadConcat`, with the recursive facts as inputs. */
  lemma KeepReadStep<A>(xs: seq<A>, restBoth: seq<TextItem>, second: seq<TextItem>, read: A -> TextItem)
    requires xs != [] && restBoth == KeepRead(xs[1..], read) + second
    ensures KeptOne(xs[0], read) + restBoth == KeepRead(xs, read) + second
    ensures |xs| == 1 ==> KeepRead(xs, read) == KeptOne(xs[0], read)
  {
    KeepReadCons(xs, read);
    Assoc(KeptOne(xs[0], read), KeepRead(xs[1..], read), second);
    if |xs| == 1 {
      assert xs[1..] == [];
    }
  }

  /** The stripped annotations longer than two characters, in order, with
      a missing confidence read as 0.5. */
  function KeptTexts(annotations: seq<Annotation>): (r: seq<TextItem>)
    ensures |r| <= |annotations|
    ensures forall t :: t in r ==> |t.text| > 2 && exists a :: a in annotations && t == ReadAnnotation(a)
    ensures forall a :: a in annotations && |ReadAnnotation(a).text| > 2 ==> ReadAnnotation(a) in r
  {
    KeepRead(annotations, ReadAnnotation)
  }

  /** Python's `max(..., default=0.0)` over the confidences. */
  function MaxConfidence(items: seq<TextItem>): (r: real)
    ensures forall t :: t in items ==> t.confidence <= r
    ensures items == [] ==> r == 0.0
    ensures items != [] ==> exists t :: t in items && t.confidence == r
  {
    if items == [] then 0.0
    else if |items| == 1 then items[0].confidence
    else
      var rest := MaxConfidence(items[1..]);
      assert forall t :: t in items ==> t == items[0] || t in items[1..];
      MaxReal(items[0].confidence, rest)
  }

  /** Only the first response is read. No response at all gives nothing at
      confidence 0 and no method name. */
  function ProcessVisionTextResults(responses: seq<seq<Annotation>>): (r: TextDetection)
    ensures r.success
    ensures responses == [] ==> r.detectedText == [] && r.confidence == 0.0 && r.methodName.None?
    ensures responses != [] ==> r.detectedText == KeptTexts(responses[0]) && r.methodName == Some("google_vision")
    ensures forall t :: t in r.detectedText ==> t.confidence <= r.confidence
    ensures r.detectedText != [] ==> exists t :: t in r.detectedText && t.confidence == r.confidence
  {
    if responses == [] then TextDetection(true, [], 0.0, None)
    else
      var texts := KeptTexts(responses[0]);
      TextDetection(true, texts, MaxConfidence(texts), Some("google_vision"))
  }

  // ---------------------------------------------------------------------------
  // _combine_analysis_results

  datatype Candidate = Candidate(title: string, confidence: real, source: string)

  datatype Analysis = Analysis(potentialMovies: seq<Candidate>, posterLikelihood: real, methods: seq<string>)

  /** `min(c * (1 + p), 1.0)`: never above 1, and never below `c` when `c`
      is a probability and the likelihood is non-negative. */
  function BoostConfidence(c: real, p: real): (r: real)
    ensures r <= 1.0
    ensures 0.0 <= c <= 1.0 && 0.0 <= p ==> c <= r
    ensures 0.0 <= c && 0.0 <= p ==> 0.0 <= r
    ensures c * (1.0 + p) <= 1.0 ==> r == c * (1.0 + p)
    ensures c * (1.0 + p) > 1.0 ==> r == 1.0
  {
    BoostGrows(c, p);
    MinReal(c * (1.0 + p), 1.0)
  }

  lemma BoostGrows(c: real, p: real)
    ensures c * (1.0 + p) == c + c * p
    ensures 0.0 <= c && 0.0 <= p ==> 0.0 <= c * p
  {
    if 0.0 <= c && 0.0 <= p {
      assert 0.0 * p <= c * p;
    }
  }

  /** The candidate a fragment becomes, its confidence boosted by `p`. */
  function Boosted(t: TextItem, p: real): Candidate {
    Candidate(t.text, BoostConfidence(t.confidence, p), "text_detection")
  }

  /** The fragments `accept` lets through, in order, as boosted candidates. */
  function SelectTitles(items: seq<TextItem>, p: real, accept: string -> bool): (r: seq<Candidate>)
    ensures |r| <= |items|
    ensures forall m :: m in r ==> exists t :: t in items && accept(t.text) && m == Boosted(t, p)
    ensures forall t :: t in items && accept(t.text) ==> Boosted(t, p) in r
  {
    if items == [] then []
    else
      var t := items[0];
      var rest := SelectTitles(items[1..], p, accept);
      assert forall x :: x in items ==> x == t || x in items[1..];
      (if accept(t.text) then [Boosted(t, p)] else []) + rest
  }

  /** What one item contributes to `SelectTitles`. */
  function SelectedOne(t: TextItem, p: real, accept: string -> bool): seq<Candidate> {
    if accept(t.text) then [Boosted(t, p)] else []
  }

  lemma SelectTitlesCons(xs: seq<TextItem>, p: real, accept: string -> bool)
    requires xs != []
    ensures SelectTitles(xs, p, accept) == SelectedOne(xs[0], p, accept) + SelectTitles(xs[1..], p, accept)
  {
  }

  /** The selection of two lists in a row is the selection of the first
      followed by that of the second: order and copies are kept. One item
      gives its boosted candidate exactly when it is accepted. */
  lemma {:induction false} SelectTitlesConcat(xs: seq<TextItem>, ys: seq<TextItem>, p: real, accept: string -> bool)
    ensures SelectTitles(xs + ys, p, accept) == SelectTitles(xs, p, accept) + SelectTitles(ys, p, accept)
    ensures |xs| == 1 ==> SelectTitles(xs, p, accept) == (if accept(xs[0].text) then [Boosted(xs[0], p)] else [])
    decreases |xs|
  {
    if xs == [] {
      assert xs + ys == ys;
    } else {
      var zs := xs + ys;
      assert zs[0] == xs[0] && zs[1..] == xs[1..] + ys;
      SelectTitlesCons(zs, p, accept);
      SelectTitlesCons(xs, p, accept);
      SelectTitlesConcat(xs[1..], ys, p, accept);
      Assoc(SelectedOne(xs[0], p, accept), SelectTitles(xs[1..], p, accept), SelectTitles(ys, p, accept));
      if |xs| == 1 {
        assert xs[1..] == [];
      }
    }
  }

  /** The fragments that may be titles, in order, with boosted confidence. */
  function TitleCandidates(items: seq<TextItem>, p: real): (r: seq<Candidate>)
    ensures |r| <= |items|
    ensures forall m :: m in r ==> IsPotentialMovieTitle(m.title) && m.source == "text_detection"
                                   && exists t :: t in items && m == Boosted(t, p)
    ensures forall t :: t in items && IsPotentialMovieTitle(t.text) ==> Boosted(t, p) in r
  {
    SelectTitles(items, p, IsPotentialMovieTitle)
  }

  /** No candidate exactly when no fragment passes the title test. */
  lemma TitleCandidatesEmpty(items: seq<TextItem>, p: real)
    ensures TitleCandidates(items, p) == [] <==> forall t :: t in items ==> !IsPotentialMovieTitle(t.text)
  {
    var r := TitleCandidates(items, p);
    if r != [] {
      assert r[0] in r;
    }
  }

  function ByConfidence(m: Candidate): Ranking.Rank {
    Ranking.Rank(m.confidence, 0)
  }

  /** At most five candidates, best first, each a detected fragment that
      passes the title test, with a confidence of at most 1, and none kept
      more often than it was detected; no passing fragment left out
      outranks one kept. */
  function CombineAnalysisResults(text: TextDetection, size: Option<(nat, nat)>): (r: Analysis)
    ensures text.success ==> |r.potentialMovies| == Min(5, |TitleCandidates(text.detectedText, r.posterLikelihood)|)
    ensures !text.success ==> r.potentialMovies == []
    ensures r.potentialMovies == [] <==> !text.success || forall t :: t in text.detectedText ==> !IsPotentialMovieTitle(t.text)
    ensures Ranking.SortedDesc(r.potentialMovies, ByConfidence)
    ensures multiset(r.potentialMovies)
              <= multiset(if text.success then TitleCandidates(text.detectedText, r.posterLikelihood) else [])
    ensures forall m :: m in r.potentialMovies
              ==> m.confidence <= 1.0 && IsPotentialMovieTitle(m.title)
                  && exists t :: t in text.detectedText && m == Boosted(t, r.posterLikelihood)
    ensures r.posterLikelihood == EffectiveLikelihood(size)
    ensures r.methods == [text.methodName.GetOr("unknown"), "poster_features"]
    ensures forall t, m :: text.success && t in text.detectedText && IsPotentialMovieTitle(t.text)
                           && m in r.potentialMovies && BoostConfidence(t.confidence, r.posterLikelihood) > m.confidence
                           ==> Boosted(t, r.posterLikelihood) in r.potentialMovies
  {
    var p := EffectiveLikelihood(size);
    var candidates := if text.success then TitleCandidates(text.detectedText, p) else [];
    var top := Ranking.TopK(candidates, ByConfidence, 5);
    Ranking.TopKIsTop(candidates, ByConfidence, 5);
    forall m | m in top ensures m in candidates {
      Ranking.TopKMembers(candidates, ByConfidence, 5, m);
    }
    forall t, m | text.success && t in text.detectedText && IsPotentialMovieTitle(t.text)
                  && m in top && BoostConfidence(t.confidence, p) > m.confidence
      ensures Boosted(t, p) in top
    {
      var x := Boosted(t, p);
      assert x in candidates;
      assert x in multiset(candidates) - multiset(top) ==> !Ranking.Above(ByConfidence(x), ByConfidence(m));
      assert Ranking.Above(ByConfidence(x), ByConfidence(m));
      assert x in multiset(top);
    }
    TitleCandidatesEmpty(text.detectedText, p);
    Analysis(top, p, [text.methodName.GetOr("unknown"), "poster_features"])
  }

  // ---------------------------------------------------------------------------
  // format_analysis_message

  /** The outcome of a whole analysis: a failure with its message (an
      oversized or undecodable picture), or the combined result. */
  datatype AnalysisOutcome = AnalysisFailed(error: string) | Analysed(analysis: Analysis)

  /** Python's `int(c * 100)`, which truncates toward zero. */
  function Percent(c: real): (r: int)
    ensures 0.0 <= c ==> 0 <= r && r as real <= c * 100.0 < r as real + 1.0
    ensures c < 0.0 ==> r <= 0 && r as real - 1.0 < c * 100.0 <= r as real
    ensures c <= 1.0 ==> r <= 100
  {
    var x := c * 100.0;
    if x >= 0.0 then x.Floor else -((-x).Floor)
  }

  /** 🎯 above 0.8, 🎲 above 0.5, ❓ otherwise. */
  function ConfidenceIcon(c: real): string {
    if c > 0.8 then "🎯" else if c > 0.5 then "🎲" else "❓"
  }

  const PosterLine: string := "📽️ This looks like a movie poster!"
  const MaybePosterLine: string := "🎬 This might be movie-related content."
  const AnalysisHeader: string := "🔍 *Image Analysis Results*\n"
  const TitlesHeading: string := "\n*Potential movie titles detected:*"
  const TipLine: string := "\n💡 Tip: Use /search command with any of these titles to get movie details!"
  const NoTitlesMessage: string :=
    "🔍 *Image Analysis Complete*\n\nNo movie titles detected in the image. This might not be a movie poster, or the text might not be clear enough."

  /** The line about the poster likelihood: above 0.7, above 0.4, or none. */
  function LikelihoodLine(p: real): seq<string> {
    if p > 0.7 then [PosterLine] else if p > 0.4 then [MaybePosterLine] else []
  }

  /** The 0.7 branch is dead: the likelihood is always 0.3 or 0.5, so the
      message never says the picture looks like a poster, and it says it
      might be movie-related exactly when the picture is portrait or could
      not be measured. */
  lemma PosterLineNeverShown(text: TextDetection, size: Option<(nat, nat)>)
    ensures LikelihoodLine(CombineAnalysisResults(text, size).posterLikelihood) != [PosterLine]
    ensures LikelihoodLine(CombineAnalysisResults(text, size).posterLikelihood) == [MaybePosterLine]
            <==> size.None? || (size.value.0 > 0 && 5 * size.value.1 > 6 * size.value.0)
  {
  }

  function CandidateLine(n: nat, m: Candidate): string {
    NatToString(n) + ". " + ConfidenceIcon(m.confidence) + " *" + m.title + "* (" + IntToString(Percent(m.confidence))
      + "% confidence)"
  }

  /** The candidate lines numbered from `first` on. */
  function CandidateLines(movies: seq<Candidate>, first: nat): (r: seq<string>)
    ensures |r| == |movies|
    ensures forall i :: 0 <= i < |movies| ==> r[i] == CandidateLine(first + i, movies[i])
  {
    Numbered(movies, first, CandidateLine)
  }

  /** Lines joined after a fixed front and before a last line: the front
      and every run of leading lines form a prefix, and the last line ends
      the text. */
  lemma LinesInOrder(front: seq<string>, lines: seq<string>, last: string, sep: string)
    ensures IsSuffix(last, Join(front + lines + [last], sep))
    ensures forall k :: 0 <= k <= |lines| ==> IsPrefix(Join(front + lines[..k], sep), Join(front + lines + [last], sep))
  {
    var parts := front + lines + [last];
    JoinEndsWith(parts, sep);
    JoinPrefixes(parts, sep);
    forall k | 0 <= k <= |lines| ensures IsPrefix(Join(front + lines[..k], sep), Join(parts, sep)) {
      assert parts[..|front| + k] == front + lines[..k];
    }
  }

  /** A failure is reported with its message; no candidates give a fixed
      text; otherwise the header, the likelihood line if any, and one
      numbered line per candidate followed by the tip. */
  function FormatAnalysisMessage(outcome: AnalysisOutcome): (r: string)
    ensures outcome.AnalysisFailed? ==> r == "❌ Image analysis failed: " + outcome.error
    ensures outcome.Analysed? && outcome.analysis.potentialMovies == [] ==> r == NoTitlesMessage
    ensures outcome.Analysed? && outcome.analysis.potentialMovies != [] ==>
              IsPrefix(AnalysisHeader + "\n", r)
              && Contains(r, TipLine)
              && forall i :: 0 <= i < |outcome.analysis.potentialMovies|
                   ==> Contains(r, CandidateLine(i + 1, outcome.analysis.potentialMovies[i]))
    ensures outcome.Analysed? && outcome.analysis.potentialMovies != [] ==>
              var a := outcome.analysis;
              IsSuffix(TipLine, r)
              && forall k :: 0 <= k <= |a.potentialMovies| ==>
                   IsPrefix(Join([AnalysisHeader] + LikelihoodLine(a.posterLikelihood) + [TitlesHeading]
                                 + CandidateLines(a.potentialMovies, 1)[..k], "\n"), r)
  {
    match outcome
    case AnalysisFailed(error) => "❌ Image analysis failed: " + error
    case Analysed(a) =>
      if a.potentialMovies == [] then NoTitlesMessage
      else
        var lines := CandidateLines(a.potentialMovies, 1);
        var front := [AnalysisHeader] + LikelihoodLine(a.posterLikelihood) + [TitlesHeading];
        var parts := front + lines + [TipLine];
        JoinStartsWith(parts, "\n");
        JoinContainsParts(parts, "\n", |parts| - 1);
        JoinContainsRun(front, lines, [TipLine], "\n");
        LinesInOrder(front, lines, TipLine, "\n");
        Join(parts, "\n")
  }
}

=== FILE: movie.dfy ===
/** The movie search core of services/movie_service.py. Search results
    from two catalogues become one record type: TMDB's results, and OMDB's
    search results with IMDb ids. TMDB's results come first. Each OMDB
    result is merged into the first record that shares its title or its
    IMDb id, or else appended. A record is then rendered as a Markdown
    message. */
module Movies {
  import opened Wrappers
  import opened Text
  import Config
  import Helpers

  // ---------------------------------------------------------------------------
  // Records

  /** One TMDB search result; a key the response lacks is None. */
  datatype TmdbEntry = TmdbEntry(
    title: Option<string>,
    originalTitle: Option<string>,
    releaseDate: Option<string>,
    overview: Option<string>,
    voteAverage: Option<real>,
    voteCount: Option<int>,
    popularity: Option<real>,
    posterPath: Option<string>,
    id: Option<int>,
    genreIds: Option<seq<int>>,
    adult: Option<bool>)

  /** One OMDB search result; a key the response lacks is None. */
  datatype OmdbEntry = OmdbEntry(
    title: Option<string>,
    year: Option<string>,
    plot: Option<string>,
    imdbRating: Option<string>,
    poster: Option<string>,
    imdbId: Option<string>,
    kind: Option<string>,
    director: Option<string>,
    actors: Option<string>)

  /** The bot's movie record. `kind`, `director` and `actors` are None on a
      TMDB record until OMDB data is merged into it. */
  datatype Movie = Movie(
    title: string,
    originalTitle: Option<string>,
    releaseDate: Option<string>,
    overview: string,
    voteAverage: Option<real>,
    voteCount: Option<int>,
    popularity: Option<real>,
    posterUrl: Option<string>,
    tmdbId: Option<int>,
    imdbId: Option<string>,
    genreIds: seq<int>,
    adult: bool,
    source: string,
    kind: Option<string>,
    director: Option<string>,
    actors: Option<string>)

  // ---------------------------------------------------------------------------
  // _process_tmdb_movie, _process_omdb_movie, _parse_imdb_rating

  /** A TMDB result as a record: no IMDb id yet, and a poster URL only when
      the result has a non-empty poster path. */
  function ProcessTmdbMovie(e: TmdbEntry): (r: Movie)
    ensures r.imdbId == None && r.source == "tmdb" && r.tmdbId == e.id
    ensures r.title == e.title.GetOr("Unknown Title")
    ensures r.overview == e.overview.GetOr("No overview available")
    ensures r.posterUrl.Some? <==> Truthy(e.posterPath)
    ensures r.posterUrl.Some? ==> r.posterUrl.value == Config.TmdbImageBaseUrl + e.posterPath.value
    ensures r.originalTitle == e.originalTitle && r.releaseDate == e.releaseDate
    ensures r.voteAverage == e.voteAverage && r.voteCount == e.voteCount && r.popularity == e.popularity
    ensures r.genreIds == e.genreIds.GetOr([]) && r.adult == e.adult.GetOr(false)
    ensures r.kind == None && r.director == None && r.actors == None
  {
    Movie(
      title := e.title.GetOr("Unknown Title"),
      originalTitle := e.originalTitle,
      releaseDate := e.releaseDate,
      overview := e.overview.GetOr("No overview available"),
      voteAverage := e.voteAverage,
      voteCount := e.voteCount,
      popularity := e.popularity,
      posterUrl := if Truthy(e.posterPath) then Some(Config.TmdbImageBaseUrl + e.posterPath.value) else None,
      tmdbId := e.id,
      imdbId := None,
      genreIds := e.genreIds.GetOr([]),
      adult := e.adult.GetOr(false),
      source := "tmdb",
      kind := None,
      director := None,
      actors := None)
  }

  /** An IMDb rating: absent, empty and "N/A" give None; anything else is
      read by `toFloat`, which stands for Python's `float` and answers None
      where it would raise. */
  function ParseImdbRating(rating: Option<string>, toFloat: string -> Option<real>): (r: Option<real>)
    ensures !Truthy(rating) || rating == Some("N/A") ==> r == None
    ensures Truthy(rating) && rating != Some("N/A") ==> r == toFloat(rating.value)
  {
    if Truthy(rating) && rating.value != "N/A" then toFloat(rating.value) else None
  }

  /** The poster OMDB reports, with its "N/A" placeholder read as none. */
  function OmdbPoster(o: OmdbEntry): (r: Option<string>)
    ensures r == None <==> o.poster == None || o.poster == Some("N/A")
    ensures r.Some? ==> r == o.poster
  {
    if o.poster == Some("N/A") then None else o.poster
  }

  /** An OMDB result as a record: its IMDb id, type, director and cast are
      kept, and there is no TMDB id. */
  function ProcessOmdbMovie(o: OmdbEntry, toFloat: string -> Option<real>): (r: Movie)
    ensures r.imdbId == o.imdbId && r.source == "omdb" && r.tmdbId == None
    ensures r.title == o.title.GetOr("Unknown Title") && r.originalTitle == o.title
    ensures r.releaseDate == o.year && r.overview == o.plot.GetOr("No plot available")
    ensures r.posterUrl == OmdbPoster(o)
    ensures r.kind == o.kind && r.director == o.director && r.actors == o.actors
    ensures r.voteAverage == ParseImdbRating(o.imdbRating, toFloat)
    ensures r.voteCount == None && r.popularity == None && r.genreIds == [] && !r.adult
  {
    Movie(
      title := o.title.GetOr("Unknown Title"),
      originalTitle := o.title,
      releaseDate := o.year,
      overview := o.plot.GetOr("No plot available"),
      voteAverage := ParseImdbRating(o.imdbRating, toFloat),
      voteCount := None,
      popularity := None,
      posterUrl := OmdbPoster(o),
      tmdbId := None,
      imdbId := o.imdbId,
      genreIds := [],
      adult := false,
      source := "omdb",
      kind := o.kind,
      director := o.director,
      actors := o.actors)
  }

  // ---------------------------------------------------------------------------
  // _merge_omdb_data

  /** `b` is `a` with OMDB data merged in: only the IMDb id, type, director,
      cast and poster may differ, and a poster `a` had stays. */
  predicate MergedFrom(b: Movie, a: Movie) {
    && b.(imdbId := a.imdbId, kind := a.kind, director := a.director, actors := a.actors, posterUrl := a.posterUrl) == a
    && (Truthy(a.posterUrl) ==> b.posterUrl == a.posterUrl)
  }

  /** Merging never changes where a record came from. */
  lemma MergedFromKeepsSource(b: Movie, a: Movie)
    requires MergedFrom(b, a)
    ensures b.source == a.source && b.title == a.title
  {
    assert b.source == b.(imdbId := a.imdbId, kind := a.kind, director := a.director, actors := a.actors,
                          posterUrl := a.posterUrl).source;
  }

  lemma MergedFromTransitive(c: Movie, b: Movie, a: Movie)
    requires MergedFrom(c, b) && MergedFrom(b, a)
    ensures MergedFrom(c, a)
  {
  }

  /** The IMDb id, type, director and cast are overwritten with OMDB's, even
      when OMDB lacks them. The poster is adopted only when the record has
      none (or an empty one) and OMDB's is not "N/A". Nothing else
      changes. */
  function MergeOmdb(m: Movie, o: OmdbEntry): (r: Movie)
    ensures r.imdbId == o.imdbId && r.kind == o.kind && r.director == o.director && r.actors == o.actors
    ensures Truthy(m.posterUrl) || o.poster == Some("N/A") ==> r.posterUrl == m.posterUrl
    ensures !Truthy(m.posterUrl) && o.poster != Some("N/A") ==> r.posterUrl == o.poster
    ensures MergedFrom(r, m)
  {
    var adopted := if !Truthy(m.posterUrl) && o.poster != Some("N/A") then o.poster else m.posterUrl;
    m.(imdbId := o.imdbId, director := o.director, actors := o.actors, kind := o.kind, posterUrl := adopted)
  }

  /** Merging the same OMDB result twice is merging it once. */
  lemma MergeOmdbIdempotent(m: Movie, o: OmdbEntry)
    ensures MergeOmdb(MergeOmdb(m, o), o) == MergeOmdb(m, o)
  {
  }

  // ---------------------------------------------------------------------------
  // _combine_movie_data

  /** A record and an OMDB result describe the same movie when their titles
      agree ignoring case (a missing OMDB title counts as empty) or their
      IMDb ids are equal, where two missing ids are equal too. */
  predicate Matches(m: Movie, o: OmdbEntry) {
    Lower(m.title) == Lower(o.title.GetOr("")) || m.imdbId == o.imdbId
  }

  /** The first record that matches. */
  function FirstMatch(movies: seq<Movie>, o: OmdbEntry): (r: Option<nat>)
    ensures r.Some? ==> r.value < |movies| && Matches(movies[r.value], o)
                        && forall j :: 0 <= j < r.value ==> !Matches(movies[j], o)
    ensures r.None? <==> forall j :: 0 <= j < |movies| ==> !Matches(movies[j], o)
  {
    FirstWhere(movies, m => Matches(m, o))
  }

  /** The index of the first element satisfying `p`. */
  function FirstWhere<T>(s: seq<T>, p: T -> bool): (r: Option<nat>)
    ensures r.Some? ==> r.value < |s| && p(s[r.value]) && forall j :: 0 <= j < r.value ==> !p(s[j])
    ensures r.None? <==> forall j :: 0 <= j < |s| ==> !p(s[j])
  {
    if s == [] then None
    else if p(s[0]) then Some(0)
    else match FirstWhere(s[1..], p)
      case None => None
      case Some(i) => Some(i + 1)
  }

  /** One OMDB result: merged in place into the first matching record, or
      appended as a record of its own. */
  function Absorb(movies: seq<Movie>, o: OmdbEntry, toFloat: string -> Option<real>): (r: seq<Movie>)
    ensures FirstMatch(movies, o).Some? ==> |r| == |movies|
    ensures FirstMatch(movies, o).None? ==> |r| == |movies| + 1 && r[|movies|] == ProcessOmdbMovie(o, toFloat)
    ensures FirstMatch(movies, o).Some? ==>
              r == movies[FirstMatch(movies, o).value := MergeOmdb(movies[FirstMatch(movies, o).value], o)]
    ensures FirstMatch(movies, o).None? ==> r[..|movies|] == movies
    ensures forall i :: 0 <= i < |movies| ==> MergedFrom(r[i], movies[i])
    ensures FirstMatch(r, o).Some?
  {
    match FirstMatch(movies, o)
    case None =>
      var r := movies + [ProcessOmdbMovie(o, toFloat)];
      assert Matches(r[|movies|], o);
      assert r[..|movies|] == movies;
      r
    case Some(i) =>
      var r := movies[i := MergeOmdb(movies[i], o)];
      assert Matches(r[i], o);
      r
  }

  /** An OMDB result already absorbed matches again, so absorbing it a
      second time adds no record. */
  lemma AbsorbTwiceAddsOnce(movies: seq<Movie>, o: OmdbEntry, toFloat: string -> Option<real>)
    ensures |Absorb(Absorb(movies, o, toFloat), o, toFloat)| == |Absorb(movies, o, toFloat)|
  {
  }

  /** What the merge loop needs of a step: it keeps every earlier item,
      related by `rel`, and adds at most one new item, related to
      `born(e)`; `rel` is reflexive and transitive. */
  ghost predicate StepShape<T(!new), E(!new)>(step: (seq<T>, E) -> seq<T>, born: E -> T, rel: (T, T) -> bool) {
    && (forall ys, e {:trigger step(ys, e)} :: |ys| <= |step(ys, e)| <= |ys| + 1)
    && (forall ys, e {:trigger step(ys, e)} :: |step(ys, e)| == |ys| + 1 ==> rel(step(ys, e)[|ys|], born(e)))
    && (forall ys, e, i {:trigger step(ys, e)[i]} :: 0 <= i < |ys| ==> rel(step(ys, e)[i], ys[i]))
    && (forall a {:trigger rel(a, a)} :: rel(a, a))
    && (forall a, b, c {:trigger rel(c, b), rel(b, a)} :: rel(c, b) && rel(b, a) ==> rel(c, a))
  }

  /** `step` applied to `es[k..]` in order. */
  function Fold<T, E>(xs: seq<T>, es: seq<E>, k: nat, step: (seq<T>, E) -> seq<T>): seq<T>
    requires k <= |es|
    decreases |es| - k
  {
    if k == |es| then xs else Fold(step(xs, es[k]), es, k + 1, step)
  }

  /** The positions in `es[k..]` whose step added an item, in order. */
  function Added<T, E>(xs: seq<T>, es: seq<E>, k: nat, step: (seq<T>, E) -> seq<T>): (idx: seq<nat>)
    requires k <= |es|
    ensures forall t :: 0 <= t < |idx| ==> k <= idx[t] < |es|
    ensures forall s, t :: 0 <= s < t < |idx| ==> idx[s] < idx[t]
    decreases |es| - k
  {
    if k == |es| then []
    else
      var next := step(xs, es[k]);
      (if |next| > |xs| then [k] else []) + Added(next, es, k + 1, step)
  }

  /** Earlier items survive the fold, related by `rel`. */
  lemma {:induction false} FoldKeeps<T(!new), E(!new)>(xs: seq<T>, es: seq<E>, k: nat, step: (seq<T>, E) -> seq<T>,
                                           born: E -> T, rel: (T, T) -> bool)
    requires k <= |es| && StepShape(step, born, rel)
    ensures |xs| <= |Fold(xs, es, k, step)| <= |xs| + (|es| - k)
    ensures forall i :: 0 <= i < |xs| ==> rel(Fold(xs, es, k, step)[i], xs[i])
    decreases |es| - k
  {
    if k < |es| {
      var next := step(xs, es[k]);
      assert |xs| <= |next| <= |xs| + 1;
      FoldKeeps(next, es, k + 1, step, born, rel);
      var r := Fold(next, es, k + 1, step);
      assert Fold(xs, es, k, step) == r;
      forall i | 0 <= i < |xs| ensures rel(r[i], xs[i]) {
        assert rel(r[i], next[i]) && rel(next[i], xs[i]);
      }
    }
  }

  /** One step that appended `next[|xs|]`, followed by the rest of the fold:
      the appended items of the whole fold line up with `[k] + later`. */
  lemma ShiftAdded<T(!new), E>(xs: seq<T>, next: seq<T>, r: seq<T>, es: seq<E>, k: nat, later: seq<nat>,
                         born: E -> T, rel: (T, T) -> bool)
    requires k < |es| && |next| == |xs| + 1 && |later| == |r| - |next|
    requires rel(r[|xs|], next[|xs|]) && rel(next[|xs|], born(es[k]))
    requires forall a, b, c :: rel(c, b) && rel(b, a) ==> rel(c, a)
    requires forall t :: 0 <= t < |later| ==> later[t] < |es| && rel(r[|next| + t], born(es[later[t]]))
    ensures forall t :: 0 <= t < |[k] + later| ==> rel(r[|xs| + t], born(es[([k] + later)[t]]))
  {
    forall t | 0 <= t < |[k] + later| ensures rel(r[|xs| + t], born(es[([k] + later)[t]])) {
      if t == 0 {
        assert ([k] + later)[t] == k;
        assert rel(r[|xs|], born(es[k]));
      } else {
        assert ([k] + later)[t] == later[t - 1];
        assert r[|xs| + t] == r[|next| + (t - 1)];
        assert rel(r[|next| + (t - 1)], born(es[later[t - 1]]));
      }
    }
  }

  /** The items past `xs` in the fold from `k` on are related to the
      entries `Added` lists, in that order. */
  ghost predicate AddsFrom<T, E>(xs: seq<T>, es: seq<E>, k: nat, step: (seq<T>, E) -> seq<T>,
                                 born: E -> T, rel: (T, T) -> bool)
    requires k <= |es|
  {
    && |Added(xs, es, k, step)| == |Fold(xs, es, k, step)| - |xs|
    && forall t :: 0 <= t < |Added(xs, es, k, step)| ==>
         rel(Fold(xs, es, k, step)[|xs| + t], born(es[Added(xs, es, k, step)[t]]))
  }

  /** A step that appended an item, followed by the rest of the fold. */
  lemma GrownStep<T(!new), E(!new)>(xs: seq<T>, es: seq<E>, k: nat, step: (seq<T>, E) -> seq<T>,
                                    born: E -> T, rel: (T, T) -> bool)
    requires k < |es| && StepShape(step, born, rel) && |step(xs, es[k])| > |xs|
    requires AddsFrom(step(xs, es[k]), es, k + 1, step, born, rel)
    ensures AddsFrom(xs, es, k, step, born, rel)
  {
    var next := step(xs, es[k]);
    var r := Fold(next, es, k + 1, step);
    var later := Added(next, es, k + 1, step);
    assert Fold(xs, es, k, step) == r;
    assert Added(xs, es, k, step) == [k] + later;
    FoldKeeps(next, es, k + 1, step, born, rel);
    ShiftAdded(xs, next, r, es, k, later, born, rel);
  }

  /** A step that appended nothing, followed by the rest of the fold. */
  lemma SameStep<T(!new), E(!new)>(xs: seq<T>, es: seq<E>, k: nat, step: (seq<T>, E) -> seq<T>,
                                   born: E -> T, rel: (T, T) -> bool)
    requires k < |es| && |step(xs, es[k])| == |xs|
    requires AddsFrom(step(xs, es[k]), es, k + 1, step, born, rel)
    ensures AddsFrom(xs, es, k, step, born, rel)
  {
    var next := step(xs, es[k]);
    var r := Fold(next, es, k + 1, step);
    var later := Added(next, es, k + 1, step);
    assert Fold(xs, es, k, step) == r;
    assert Added(xs, es, k, step) == later;
    forall t | 0 <= t < |later| ensures rel(r[|xs| + t], born(es[later[t]])) {
      assert rel(r[|next| + t], born(es[later[t]]));
    }
  }

  /** The items past the original ones come from the positions `Added`
      lists, in that order. */
  lemma {:induction false} FoldAdds<T(!new), E(!new)>(xs: seq<T>, es: seq<E>, k: nat, step: (seq<T>, E) -> seq<T>,
                                          born: E -> T, rel: (T, T) -> bool)
    requires k <= |es| && StepShape(step, born, rel)
    ensures |Added(xs, es, k, step)| == |Fold(xs, es, k, step)| - |xs|
    ensures forall t :: 0 <= t < |Added(xs, es, k, step)| ==>
              rel(Fold(xs, es, k, step)[|xs| + t], born(es[Added(xs, es, k, step)[t]]))
    decreases |es| - k
  {
    if k < |es| {
      var next := step(xs, es[k]);
      FoldAdds(next, es, k + 1, step, born, rel);
      if |next| > |xs| {
        GrownStep(xs, es, k, step, born, rel);
      } else {
        SameStep(xs, es, k, step, born, rel);
      }
    } else {
      assert Added(xs, es, k, step) == [] && Fold(xs, es, k, step) == xs;
    }
  }

  function AbsorbStep(toFloat: string -> Option<real>): (seq<Movie>, OmdbEntry) -> seq<Movie> {
    (movies, o) => Absorb(movies, o, toFloat)
  }

  function OmdbRecord(toFloat: string -> Option<real>): OmdbEntry -> Movie {
    o => ProcessOmdbMovie(o, toFloat)
  }

  /** Absorbing OMDB results has the shape the merge loop needs. */
  lemma AbsorbShape(toFloat: string -> Option<real>)
    ensures StepShape(AbsorbStep(toFloat), OmdbRecord(toFloat), MergedFrom)
  {
    forall a, b, c | MergedFrom(c, b) && MergedFrom(b, a) ensures MergedFrom(c, a) {
      MergedFromTransitive(c, b, a);
    }
  }

  /** The OMDB results in order, each matched against every record so far,
      including those appended from earlier OMDB results. */
  function MergeAll(movies: seq<Movie>, omdb: seq<OmdbEntry>, toFloat: string -> Option<real>): (r: seq<Movie>)
    ensures |movies| <= |r| <= |movies| + |omdb|
    ensures forall i :: 0 <= i < |movies| ==> MergedFrom(r[i], movies[i])
  {
    AbsorbShape(toFloat);
    FoldKeeps(movies, omdb, 0, AbsorbStep(toFloat), OmdbRecord(toFloat), MergedFrom);
    Fold(movies, omdb, 0, AbsorbStep(toFloat))
  }

  /** The records past the original ones are the unmatched OMDB results, in
      their original order, each possibly merged with later results. */
  lemma AppendedInOrder(movies: seq<Movie>, omdb: seq<OmdbEntry>, toFloat: string -> Option<real>)
    ensures |Added(movies, omdb, 0, AbsorbStep(toFloat))| == |MergeAll(movies, omdb, toFloat)| - |movies|
    ensures forall t :: 0 <= t < |Added(movies, omdb, 0, AbsorbStep(toFloat))| ==>
              MergedFrom(MergeAll(movies, omdb, toFloat)[|movies| + t],
                         ProcessOmdbMovie(omdb[Added(movies, omdb, 0, AbsorbStep(toFloat))[t]], toFloat))
  {
    AbsorbShape(toFloat);
    FoldAdds(movies, omdb, 0, AbsorbStep(toFloat), OmdbRecord(toFloat), MergedFrom);
  }

  /** The fold over a non-empty list is one step after the fold over all but
      its last entry. */
  lemma {:induction false} FoldLast<T, E>(xs: seq<T>, es: seq<E>, k: nat, step: (seq<T>, E) -> seq<T>)
    requires k < |es|
    ensures Fold(xs, es, k, step) == step(Fold(xs, es[..|es| - 1], k, step), es[|es| - 1])
    decreases |es| - k
  {
    var init := es[..|es| - 1];
    if k < |es| - 1 {
      assert init[k] == es[k];
      FoldLast(step(xs, es[k]), es, k + 1, step);
      assert Fold(xs, init, k, step) == Fold(step(xs, es[k]), init, k + 1, step);
    }
  }

  /** Absorbing an OMDB result leaves, as the first record it matches, one
      that carries its IMDb id. */
  lemma AbsorbCarriesId(movies: seq<Movie>, o: OmdbEntry, toFloat: string -> Option<real>)
    ensures FirstMatch(Absorb(movies, o, toFloat), o).Some?
    ensures Absorb(movies, o, toFloat)[FirstMatch(Absorb(movies, o, toFloat), o).value].imdbId == o.imdbId
  {
    var r := Absorb(movies, o, toFloat);
    match FirstMatch(movies, o)
    case None =>
      assert forall j :: 0 <= j < |movies| ==> r[j] == movies[j];
      assert Matches(r[|movies|], o);
      assert FirstMatch(r, o) == Some(|movies|);
    case Some(i) =>
      assert forall j :: 0 <= j < i ==> r[j] == movies[j];
      assert Matches(r[i], o);
      assert FirstMatch(r, o) == Some(i);
  }

  /** A search source: failed (or not a dict), or the results it listed. */
  datatype SourceResult<T> = SourceFailed | SourceOk(entries: seq<T>)

  datatype MovieSearch = MovieSearch(movies: seq<Movie>, query: string, totalResults: nat)

  /** The first five TMDB results as records. */
  function TmdbMovies(tmdb: SourceResult<TmdbEntry>): (r: seq<Movie>)
    ensures tmdb.SourceFailed? ==> r == []
    ensures tmdb.SourceOk? ==> |r| == Min(5, |tmdb.entries|)
    ensures tmdb.SourceOk? ==> forall i :: 0 <= i < |r| ==> r[i] == ProcessTmdbMovie(tmdb.entries[i])
  {
    match tmdb
    case SourceFailed => []
    case SourceOk(entries) =>
      seq(Min(5, |entries|), i requires 0 <= i < Min(5, |entries|) => ProcessTmdbMovie(entries[i]))
  }

  /** The first three OMDB results. */
  function OmdbCandidates(omdb: SourceResult<OmdbEntry>): (r: seq<OmdbEntry>)
    ensures |r| <= 3
    ensures omdb.SourceFailed? ==> r == []
    ensures omdb.SourceOk? ==> r == omdb.entries[..Min(3, |omdb.entries|)]
  {
    match omdb
    case SourceFailed => []
    case SourceOk(entries) => entries[..Min(3, |entries|)]
  }

  /** Up to five TMDB records, in TMDB's order and merged with OMDB data
      where an OMDB result matched, followed by the unmatched ones among the
      first three OMDB results. A failed source contributes nothing and
      does not affect the other one. */
  function CombineMovieData(tmdb: SourceResult<TmdbEntry>, omdb: SourceResult<OmdbEntry>, query: string,
                            toFloat: string -> Option<real>): (r: MovieSearch)
    ensures r.totalResults == |r.movies| <= 8 && r.query == query
    ensures |TmdbMovies(tmdb)| <= |r.movies|
    ensures forall i :: 0 <= i < |TmdbMovies(tmdb)| ==>
              MergedFrom(r.movies[i], ProcessTmdbMovie(tmdb.entries[i])) && r.movies[i].source == "tmdb"
    ensures omdb.SourceFailed? ==> r.movies == TmdbMovies(tmdb)
    ensures tmdb.SourceFailed? ==> forall i :: 0 <= i < |r.movies| ==> r.movies[i].source == "omdb"
  {
    var base := TmdbMovies(tmdb);
    var candidates := OmdbCandidates(omdb);
    var movies := MergeAll(base, candidates, toFloat);
    OmdbOnly(candidates, toFloat);
    MovieSearch(movies, query, |movies|)
  }

  /** The merge loop read from the end: no entries leave the records as
      they are, and each further entry is absorbed into what the earlier
      ones produced. */
  lemma MergeAllSteps(movies: seq<Movie>, omdb: seq<OmdbEntry>, toFloat: string -> Option<real>)
    ensures omdb == [] ==> MergeAll(movies, omdb, toFloat) == movies
    ensures omdb != [] ==> MergeAll(movies, omdb, toFloat)
                           == Absorb(MergeAll(movies, omdb[..|omdb| - 1], toFloat), omdb[|omdb| - 1], toFloat)
  {
    if omdb != [] {
      FoldLast(movies, omdb, 0, AbsorbStep(toFloat));
    }
  }

  /** The last OMDB candidate is absorbed into everything the earlier ones
      produced, so the first record that matches it carries its IMDb id. */
  lemma CombineLastOmdb(tmdb: SourceResult<TmdbEntry>, omdb: SourceResult<OmdbEntry>, query: string,
                        toFloat: string -> Option<real>)
    requires omdb.SourceOk? && omdb.entries != []
    ensures var candidates := OmdbCandidates(omdb);
            var last := candidates[|candidates| - 1];
            var r := CombineMovieData(tmdb, omdb, query, toFloat).movies;
            && r == Absorb(MergeAll(TmdbMovies(tmdb), candidates[..|candidates| - 1], toFloat), last, toFloat)
            && FirstMatch(r, last).Some? && r[FirstMatch(r, last).value].imdbId == last.imdbId
  {
    var candidates := OmdbCandidates(omdb);
    var last := candidates[|candidates| - 1];
    var base := TmdbMovies(tmdb);
    FoldLast(base, candidates, 0, AbsorbStep(toFloat));
    AbsorbCarriesId(MergeAll(base, candidates[..|candidates| - 1], toFloat), last, toFloat);
  }

  /** When the first TMDB record's title equals the last OMDB candidate's,
      ignoring case, that record ends up with the candidate's IMDb id. */
  lemma FirstTitleGetsId(tmdb: SourceResult<TmdbEntry>, omdb: SourceResult<OmdbEntry>, query: string,
                         toFloat: string -> Option<real>)
    requires tmdb.SourceOk? && tmdb.entries != [] && omdb.SourceOk? && omdb.entries != []
    requires Lower(tmdb.entries[0].title.GetOr("Unknown Title"))
             == Lower(OmdbCandidates(omdb)[|OmdbCandidates(omdb)| - 1].title.GetOr(""))
    ensures CombineMovieData(tmdb, omdb, query, toFloat).movies[0].imdbId
            == OmdbCandidates(omdb)[|OmdbCandidates(omdb)| - 1].imdbId
  {
    var candidates := OmdbCandidates(omdb);
    var last := candidates[|candidates| - 1];
    var base := TmdbMovies(tmdb);
    var earlier := MergeAll(base, candidates[..|candidates| - 1], toFloat);
    CombineLastOmdb(tmdb, omdb, query, toFloat);
    MergedFromKeepsSource(earlier[0], base[0]);
    assert Matches(earlier[0], last);
    assert FirstMatch(earlier, last) == Some(0);
  }

  /** Starting from no records, every record is an OMDB one. */
  lemma OmdbOnly(omdb: seq<OmdbEntry>, toFloat: string -> Option<real>)
    ensures forall i :: 0 <= i < |MergeAll([], omdb, toFloat)| ==> MergeAll([], omdb, toFloat)[i].source == "omdb"
  {
    AppendedInOrder([], omdb, toFloat);
    var movies := MergeAll([], omdb, toFloat);
    var added := Added([], omdb, 0, AbsorbStep(toFloat));
    forall i | 0 <= i < |movies| ensures movies[i].source == "omdb" {
      assert 0 + i == i;
      MergedFromKeepsSource(movies[i], ProcessOmdbMovie(omdb[added[i]], toFloat));
    }
  }

  /** With the TMDB records first, an OMDB result that lacks an IMDb id
      always merges into the first of them: a TMDB record has no id yet, and
      two missing ids compare equal. */
  lemma MissingIdsMatch(e: TmdbEntry, rest: seq<Movie>, o: OmdbEntry)
    requires o.imdbId == None
    ensures FirstMatch([ProcessTmdbMovie(e)] + rest, o) == Some(0)
  {
  }

  // ---------------------------------------------------------------------------
  // format_movie_message

  /** The year line shows the first four characters of the release date,
      or all of it when it is shorter. */
  function YearText(releaseDate: string): (r: string)
    ensures |r| == Min(4, |releaseDate|) && IsPrefix(r, releaseDate)
  {
    if |releaseDate| >= 4 then releaseDate[..4] else releaseDate
  }

  /** The first three names of a ", "-separated cast. */
  function CastText(actors: string): (r: string)
    ensures IsPrefix(r, actors)
    ensures |Split(actors, ", ")| <= 3 ==> r == actors
    ensures Split(r, ", ") == Split(actors, ", ")[..Min(3, |Split(actors, ", ")|)]
  {
    var names := Split(actors, ", ");
    JoinTakePrefix(names, ", ", Min(3, |names|));
    SplitJoinPrefix(actors, ", ", Min(3, |names|));
    assert |names| <= 3 ==> names[..Min(3, |names|)] == names;
    Join(names[..Min(3, |names|)], ", ")
  }

  /** An overview longer than 300 characters is cut to 297 and "...". */
  function PlotText(overview: string): (r: string)
    ensures |r| <= 300
    ensures |overview| <= 300 ==> r == overview
    ensures |overview| > 300 ==> |r| == 300 && IsPrefix(r[..297], overview) && IsSuffix("...", r)
  {
    if |overview| > 300 then overview[..297] + "..." else overview
  }

  /** The overview cut is `truncate_text` with bound 300 and suffix "...". */
  lemma PlotTextIsTruncateText(overview: string)
    ensures PlotText(overview) == Helpers.TruncateText(overview, 300, "...")
  {
  }

  /** Python's truthiness of a rating. */
  predicate RatingShown(rating: Option<real>) {
    rating.Some? && rating.value != 0.0
  }

  /** A director or cast line appears when the value is truthy and not
      OMDB's "N/A". */
  predicate Known(s: Option<string>) {
    Truthy(s) && s.value != "N/A"
  }

  function ImdbLine(id: string): string {
    "🔗 [View on IMDB](https://www.imdb.com/title/" + id + "/)"
  }

  /** One for a condition that holds, zero otherwise. */
  function Ones(cond: bool): nat {
    if cond then 1 else 0
  }

  /** A line when the condition holds, nothing otherwise. */
  function When(cond: bool, line: string): (r: seq<string>)
    ensures |r| <= 1 && (r != [] <==> cond) && (cond ==> r == [line])
    ensures |r| == Ones(cond)
  {
    if cond then [line] else []
  }

  /** The paragraphs between the title and the IMDb link: year, rating,
      director, cast and plot, each only when there is something to show.
      Python's rendering of a float is the parameter `render`. */
  function Details(m: Movie, render: real -> string): (r: seq<string>)
    ensures |r| == |When(Truthy(m.releaseDate), "")| + |When(RatingShown(m.voteAverage), "")|
                   + |When(Known(m.director), "")| + |When(Known(m.actors), "")| + |When(m.overview != "", "")|
    ensures Truthy(m.releaseDate) ==> r[0] == "📅 *Year:* " + YearText(m.releaseDate.value)
    ensures RatingShown(m.voteAverage) ==> "⭐ *Rating:* " + render(m.voteAverage.value) + "/10" in r
    ensures Known(m.director) ==> "🎭 *Director:* " + m.director.value in r
    ensures Known(m.actors) ==> "👥 *Cast:* " + CastText(m.actors.value) in r
    ensures RatingShown(m.voteAverage)
            ==> r[Ones(Truthy(m.releaseDate))] == "⭐ *Rating:* " + render(m.voteAverage.value) + "/10"
    ensures Known(m.director)
            ==> r[Ones(Truthy(m.releaseDate)) + Ones(RatingShown(m.voteAverage))] == "🎭 *Director:* " + m.director.value
    ensures Known(m.actors)
            ==> r[Ones(Truthy(m.releaseDate)) + Ones(RatingShown(m.voteAverage)) + Ones(Known(m.director))]
                == "👥 *Cast:* " + CastText(m.actors.value)
    ensures m.overview != "" ==> r[|r| - 1] == "📖 *Plot:* " + PlotText(m.overview)
  {
    var year := When(Truthy(m.releaseDate), "📅 *Year:* " + YearText(m.releaseDate.GetOr("")));
    var rating := When(RatingShown(m.voteAverage), "⭐ *Rating:* " + render(m.voteAverage.GetOr(0.0)) + "/10");
    var director := When(Known(m.director), "🎭 *Director:* " + m.director.GetOr(""));
    var cast := When(Known(m.actors), "👥 *Cast:* " + CastText(m.actors.GetOr("")));
    var plot := When(m.overview != "", "📖 *Plot:* " + PlotText(m.overview));
    OptionalParts(year, rating, director, cast, plot);
    year + rating + director + cast + plot
  }

  /** Five optional paragraphs in a row: the first leads, the last closes,
      and the middle ones are present when non-empty. */
  lemma OptionalParts<T>(a: seq<T>, b: seq<T>, c: seq<T>, d: seq<T>, e: seq<T>)
    requires |a| <= 1 && |b| <= 1 && |c| <= 1 && |d| <= 1 && |e| <= 1
    ensures |a + b + c + d + e| == |a| + |b| + |c| + |d| + |e|
    ensures a != [] ==> (a + b + c + d + e)[0] == a[0]
    ensures b != [] ==> (a + b + c + d + e)[|a|] == b[0] && b[0] in a + b + c + d + e
    ensures c != [] ==> (a + b + c + d + e)[|a| + |b|] == c[0] && c[0] in a + b + c + d + e
    ensures d != [] ==> (a + b + c + d + e)[|a| + |b| + |c|] == d[0] && d[0] in a + b + c + d + e
    ensures e != [] ==> (a + b + c + d + e)[|a + b + c + d + e| - 1] == e[0]
  {
    var r := a + b + c + d + e;
    if b != [] {
      assert r[|a|] == b[0];
    }
    if c != [] {
      assert r[|a| + |b|] == c[0];
    }
    if d != [] {
      assert r[|a| + |b| + |c|] == d[0];
    }
  }

  /** The message's paragraphs: the title, the details, and the IMDb link
      exactly when the record has an id. */
  function MovieParts(m: Movie, render: real -> string): (r: seq<string>)
    ensures |r| == 1 + |Details(m, render)| + |When(Truthy(m.imdbId), "")| && |r| <= 7
    ensures r[0] == "🎬 *" + m.title + "*"
    ensures r[1..|r| - |When(Truthy(m.imdbId), "")|] == Details(m, render)
    ensures Truthy(m.imdbId) ==> r[|r| - 1] == ImdbLine(m.imdbId.value)
  {
    var details := Details(m, render);
    var r := ["🎬 *" + m.title + "*"] + details + When(Truthy(m.imdbId), ImdbLine(m.imdbId.GetOr("")));
    assert r[1..|r| - |When(Truthy(m.imdbId), "")|] == details;
    r
  }

  /** The paragraphs joined by blank lines. The message always opens with
      the bold title and ends with the IMDb link when there is an id. */
  function FormatMovieMessage(m: Movie, render: real -> string): (r: string)
    ensures IsPrefix("🎬 *" + m.title + "*", r)
    ensures Truthy(m.imdbId) ==> IsSuffix(ImdbLine(m.imdbId.value), r)
    ensures m.overview != "" ==> Contains(r, "📖 *Plot:* " + PlotText(m.overview))
    ensures Known(m.director) ==> Contains(r, "🎭 *Director:* " + m.director.value)
    ensures Known(m.actors) ==> Contains(r, "👥 *Cast:* " + CastText(m.actors.value))
    ensures Truthy(m.releaseDate) ==> Contains(r, "📅 *Year:* " + YearText(m.releaseDate.value))
    ensures RatingShown(m.voteAverage) ==> Contains(r, "⭐ *Rating:* " + render(m.voteAverage.value) + "/10")
  {
    MessageHasDetails(m, render, Join(MovieParts(m, render), "\n\n"));
    Join(MovieParts(m, render), "\n\n")
  }

  /** The message built from the parts contains every detail line. */
  lemma MessageHasDetails(m: Movie, render: real -> string, r: string)
    requires r == Join(MovieParts(m, render), "\n\n")
    ensures IsPrefix("🎬 *" + m.title + "*", r)
    ensures Truthy(m.imdbId) ==> IsSuffix(ImdbLine(m.imdbId.value), r)
    ensures forall p :: p in Details(m, render) ==> Contains(r, p)
    ensures m.overview != "" ==> Contains(r, "📖 *Plot:* " + PlotText(m.overview))
  {
    JoinFacts(MovieParts(m, render), "\n\n");
    DetailsInParts(m, render);
  }

  lemma DetailsInParts(m: Movie, render: real -> string)
    ensures forall p :: p in Details(m, render) ==> p in MovieParts(m, render)
  {
    var parts := MovieParts(m, render);
    SliceMembers(parts, 1, |parts| - |When(Truthy(m.imdbId), "")|, Details(m, render));
  }

  lemma SliceMembers<T>(s: seq<T>, lo: nat, hi: nat, part: seq<T>)
    requires lo <= hi <= |s| && s[lo..hi] == part
    ensures forall x :: x in part ==> x in s
  {
    forall x | x in part ensures x in s {
      var i :| 0 <= i < |part| && part[i] == x;
      assert s[lo + i] == part[i];
    }
  }

  /** A join starts with its first part, ends with its last, and contains
      every part. */
  lemma JoinFacts(parts: seq<string>, sep: string)
    requires |parts| >= 1
    ensures IsPrefix(parts[0], Join(parts, sep))
    ensures IsSuffix(parts[|parts| - 1], Join(parts, sep))
    ensures forall p :: p in parts ==> Contains(Join(parts, sep), p)
  {
    JoinTakePrefix(parts, sep, 1);
    assert parts[..1] == [parts[0]];
    JoinEndsWith(parts, sep);
    forall p | p in parts ensures Contains(Join(parts, sep), p) {
      var i :| 0 <= i < |parts| && parts[i] == p;
      JoinContainsParts(parts, sep, i);
    }
  }
}

=== FILE: patterns.dfy ===
/** The helpers of utils/helpers.py that are written with regular
    expressions: year and IMDb-id extraction, duration parsing and title
    cleaning. Each regular expression is replaced by the scan it amounts to,
    keeping `re.search`'s leftmost-match-wins and the greediness that decides
    which digits a group captures. */
module HelperPatterns {
  import opened Wrappers
  import opened Text
  import Helpers

  // ---------------------------------------------------------------------------
  // Digit runs

  /** The length of the run of digits that starts at `i`. */
  function RunLen(s: string, i: nat): (n: nat)
    requires i <= |s|
    ensures i + n <= |s|
    ensures forall k :: i <= k < i + n ==> IsDigit(s[k])
    ensures i + n < |s| ==> !IsDigit(s[i + n])
  {
    var n := LeadCount(s[i..], IsDigit);
    assert forall k :: i <= k < i + n ==> s[k] == s[i..][k - i];
    n
  }

  /** A run entered in its middle ends where the whole run ends. */
  lemma RunLenInside(s: string, i: nat, k: nat)
    requires i <= |s| && i <= k <= i + RunLen(s, i)
    ensures k + RunLen(s, k) == i + RunLen(s, i)
  {
    var e := i + RunLen(s, i);
    var f := k + RunLen(s, k);
    assert forall j :: k <= j < e ==> IsDigit(s[j]);
    assert e < |s| ==> !IsDigit(s[e]);
  }

  /** The value of the digit run starting at `i` (the group a greedy `\d+`
      captures there). */
  function RunValue(s: string, i: nat): nat
    requires i <= |s|
  {
    DigitsValue(s[i..i + RunLen(s, i)])
  }

  /** What a regular expression demands right after its first `(\d+)`,
      read at the index where the digits end. */
  type Tail = (string, nat) -> bool

  /** Where the `\s*` starting at `j` ends. */
  function SkipSpaces(s: string, j: nat): (k: nat)
    requires j <= |s|
    ensures j <= k <= |s|
  {
    j + LeadCount(s[j..], IsSpace)
  }

  /** `\s*word`, ignoring ASCII case. */
  predicate WordAfterSpaces(s: string, j: nat, word: string) {
    j <= |s| && var k := SkipSpaces(s, j);
    k + |word| <= |s| && Lower(s[k..k + |word|]) == word
  }

  predicate HourLetter(s: string, j: nat) { j < |s| && s[j] == 'H' }
  predicate MinuteLetter(s: string, j: nat) { j < |s| && s[j] == 'M' }
  predicate SecondLetter(s: string, j: nat) { j < |s| && s[j] == 'S' }

  /** The tail of `(\d+)\s*min`. */
  predicate MinWord(s: string, j: nat) { WordAfterSpaces(s, j, "min") }

  /** The tail of `(\d+)\s*h(?:ours?)?`; the optional "ours?" never changes
      where a match starts or what it captures. */
  predicate HourWord(s: string, j: nat) { WordAfterSpaces(s, j, "h") }

  /** Where the second number of `(\d+)h\s*(\d+)m` starts, after the first
      ends at `j`. */
  function SecondNumberStart(s: string, j: nat): nat {
    if j + 1 <= |s| then SkipSpaces(s, j + 1) else j
  }

  /** The tail of `(\d+)h\s*(\d+)m`, ignoring ASCII case. */
  predicate HoursMinutesTail(s: string, j: nat) {
    j < |s| && LowerChar(s[j]) == 'h'
    && var k := SecondNumberStart(s, j);
    k < |s| && IsDigit(s[k])
    && var e := k + RunLen(s, k);
    e < |s| && LowerChar(s[e]) == 'm'
  }

  /** The expression `(\d+)` followed by `tail` matches at `i`. Backtracking
      into the digits never helps: a shorter run is followed by a digit,
      which no tail of this module accepts first. */
  predicate RunMatch(s: string, i: int, tail: Tail) {
    0 <= i < |s| && IsDigit(s[i]) && tail(s, i + RunLen(s, i))
  }

  /** `re.search`: the leftmost index at or after `from` where the expression
      matches. Inside a run every start shares the run's end, so a failed run
      is skipped whole. */
  function FindRun(s: string, tail: Tail, from: nat): (r: Option<nat>)
    requires from <= |s|
    ensures r.Some? ==> from <= r.value && RunMatch(s, r.value, tail)
    ensures r.Some? ==> forall k :: from <= k < r.value ==> !RunMatch(s, k, tail)
    ensures r.None? ==> forall k :: from <= k ==> !RunMatch(s, k, tail)
    decreases |s| - from
  {
    if from == |s| then None
    else if !IsDigit(s[from]) then FindRun(s, tail, from + 1)
    else if tail(s, from + RunLen(s, from)) then Some(from)
    else
      var n := RunLen(s, from);
      assert forall k :: from <= k < from + n ==> !RunMatch(s, k, tail) by {
        forall k | from <= k < from + n ensures !RunMatch(s, k, tail) {
          RunLenInside(s, from, k);
        }
      }
      FindRun(s, tail, from + n)
  }

  /** `int(m.group(1))` of `re.search`, or `None` without a match. */
  function SearchNumber(s: string, tail: Tail): Option<nat> {
    match FindRun(s, tail, 0)
    case Some(i) => Some(RunValue(s, i))
    case None => None
  }

  // ---------------------------------------------------------------------------
  // convert_duration_to_minutes

  /** The "PT…" branch: hours, minutes and whole minutes of seconds, each
      taken from the first number followed by its letter; a missing field
      counts as zero. */
  function IsoTotal(s: string): nat {
    var hours := SearchNumber(s, HourLetter).GetOr(0);
    var minutes := SearchNumber(s, MinuteLetter).GetOr(0);
    var seconds := SearchNumber(s, SecondLetter).GetOr(0);
    hours * 60 + minutes + seconds / 60
  }

  /** `(\d+)h\s*(\d+)m`, ignoring case: hours and minutes of the leftmost
      match, in minutes. */
  function HoursMinutesForm(s: string): Option<nat> {
    match FindRun(s, HoursMinutesTail, 0)
    case Some(i) =>
      var e := i + RunLen(s, i);
      Some(RunValue(s, i) * 60 + RunValue(s, SecondNumberStart(s, e)))
    case None => None
  }

  /** `(\d+)\s*h(?:ours?)?`, ignoring case: the hours of the leftmost match,
      in minutes. */
  function HoursForm(s: string): Option<nat> {
    match SearchNumber(s, HourWord)
    case Some(h) => Some(h * 60)
    case None => None
  }

  function OrElse(a: Option<nat>, b: Option<nat>): Option<nat> {
    if a.Some? then a else b
  }

  /** convert_duration_to_minutes: an ISO 8601 duration "PT…" (section
      4.4.3.2 of ISO 8601:2004) adds its fields; otherwise the first of
      "{n} min", "{h}h {m}m" and "{h} h" that matches anywhere decides, in
      that order. */
  function ConvertDurationToMinutes(s: string): (r: Option<nat>)
    ensures IsPrefix("PT", s) ==> r.Some?
    ensures !IsPrefix("PT", s) && SearchNumber(s, MinWord).Some? ==> r == SearchNumber(s, MinWord)
    ensures r.None? <==>
              !IsPrefix("PT", s) && SearchNumber(s, MinWord).None?
              && HoursMinutesForm(s).None? && SearchNumber(s, HourWord).None?
  {
    if IsPrefix("PT", s) then Some(IsoTotal(s))
    else OrElse(SearchNumber(s, MinWord), OrElse(HoursMinutesForm(s), HoursForm(s)))
  }

  /** The same conversion with "{h}h {m}m" tried before "{n} min", so that
      the minutes of an hours-and-minutes text do not stand for the whole. */
  function ConvertDurationToMinutesCorrected(s: string): (r: Option<nat>)
    ensures IsPrefix("PT", s) ==> r.Some?
    ensures !IsPrefix("PT", s) && HoursMinutesForm(s).Some? ==> r == HoursMinutesForm(s)
    ensures r.None? <==>
              !IsPrefix("PT", s) && SearchNumber(s, MinWord).None?
              && HoursMinutesForm(s).None? && SearchNumber(s, HourWord).None?
  {
    if IsPrefix("PT", s) then Some(IsoTotal(s))
    else OrElse(HoursMinutesForm(s), OrElse(SearchNumber(s, MinWord), HoursForm(s)))
  }

  // ---------------------------------------------------------------------------
  // Finding a number in a text of known shape

  /** A non-empty string of digits, as a number is written. */
  predicate IsNumeral(d: string) {
    d != [] && AllDigits(d)
  }

  /** A numeral standing at `i` and closed by a non-digit is one digit run,
      entered anywhere, with the numeral's value. */
  lemma NumeralRun(s: string, i: nat, d: string)
    requires IsNumeral(d)
    requires i + |d| < |s| && s[i..i + |d|] == d && !IsDigit(s[i + |d|])
    ensures forall k :: i <= k <= i + |d| ==> k + RunLen(s, k) == i + |d|
    ensures IsDigit(s[i]) && RunLen(s, i) == |d|
    ensures RunValue(s, i) == DigitsValue(d)
  {
    var e := i + |d|;
    assert forall j :: i <= j < e ==> s[j] == d[j - i];
    RunEndsAt(s, i, e);
  }

  /** Every position of a digit run closed by a non-digit at `e` runs to
      `e`. */
  lemma RunEndsAt(s: string, i: nat, e: nat)
    requires i <= e < |s| && !IsDigit(s[e])
    requires forall j :: i <= j < e ==> IsDigit(s[j])
    ensures forall k :: i <= k <= e ==> k + RunLen(s, k) == e
  {
    forall k | i <= k <= e ensures k + RunLen(s, k) == e {
      var len := RunLen(s, k);
    }
  }

  /** The search finds the number that stands at `p` when nothing before it
      matches. */
  lemma SearchFinds(s: string, tail: Tail, p: nat, n: nat)
    requires RunMatch(s, p, tail) && RunValue(s, p) == n
    requires forall k :: 0 <= k < p ==> !RunMatch(s, k, tail)
    ensures SearchNumber(s, tail) == Some(n)
  {
  }

  /** No match starts inside a run whose tail fails. */
  lemma NoMatchInRun(s: string, i: nat, e: nat, tail: Tail)
    requires e <= |s|
    requires forall k :: i <= k < e ==> k + RunLen(s, k) == e
    requires !tail(s, e)
    ensures forall k :: i <= k < e ==> !RunMatch(s, k, tail)
  {
    forall k | i <= k < e ensures !RunMatch(s, k, tail) {
      assert k + RunLen(s, k) == e;
    }
  }

  /** The words the patterns look for are already lower-case. */
  lemma PatternWordsLower()
    ensures Lower("min") == "min" && Lower("h") == "h"
  {
    assert Lower("min")[0] == 'm' && Lower("min")[1] == 'i' && Lower("min")[2] == 'n';
    assert Lower("h")[0] == 'h';
  }

  /** `word` standing at `j` satisfies a `\s*word` tail there. */
  lemma WordAt(s: string, j: nat, word: string)
    requires j + |word| <= |s| && s[j..j + |word|] == word
    requires word != [] && !IsSpace(word[0]) && Lower(word) == word
    ensures WordAfterSpaces(s, j, word)
  {
    assert s[j..][0] == word[0];
    assert SkipSpaces(s, j) == j;
    assert Lower(s[j..j + |word|]) == word;
  }

  /** A `\s*word` tail fails where a character other than a space or the
      word's first letter stands. */
  lemma WordNotAt(s: string, j: nat, word: string)
    requires j < |s| && !IsSpace(s[j]) && word != [] && LowerChar(s[j]) != word[0]
    ensures !WordAfterSpaces(s, j, word)
  {
    assert s[j..][0] == s[j];
    assert SkipSpaces(s, j) == j;
    if j + |word| <= |s| {
      assert Lower(s[j..j + |word|])[0] == LowerChar(s[j]);
    }
  }

  // ---------------------------------------------------------------------------
  // ISO 8601 durations

  /** An ISO 8601 duration with all three fields written out. */
  function IsoText(h: string, m: string, c: string): string {
    "PT" + h + "H" + m + "M" + c + "S"
  }

  /** The ISO 8601 duration of the given fields, as the video platform
      writes it. */
  function IsoDuration(hours: nat, minutes: nat, seconds: nat): string {
    IsoText(NatToString(hours), NatToString(minutes), NatToString(seconds))
  }

  /** Where the three fields of an ISO 8601 duration stand in `s`. */
  predicate IsoLayout(s: string, h: string, m: string, c: string) {
    && |s| == 5 + |h| + |m| + |c|
    && s[0] == 'P' && s[1] == 'T'
    && s[2 + |h|] == 'H' && s[3 + |h| + |m|] == 'M' && s[4 + |h| + |m| + |c|] == 'S'
    && s[2..2 + |h|] == h
    && s[3 + |h|..3 + |h| + |m|] == m
    && s[4 + |h| + |m|..4 + |h| + |m| + |c|] == c
  }

  lemma IsoTextLayout(h: string, m: string, c: string)
    ensures IsoLayout(IsoText(h, m, c), h, m, c)
  {
    var s1 := "PT" + h + "H";
    var s2 := s1 + m + "M";
    var s := s2 + c + "S";
    assert s == IsoText(h, m, c);
    assert s[..|s2|] == s2 && s2[..|s1|] == s1;
    assert s[2..2 + |h|] == s1[2..2 + |h|] == h;
    assert s[3 + |h|..3 + |h| + |m|] == s2[|s1|..|s1| + |m|] == m;
    assert s[|s2|..|s2| + |c|] == c;
  }

  /** The hours field: the first digit run, closed by 'H'. */
  lemma IsoHours(s: string, h: string, m: string, c: string)
    requires IsoLayout(s, h, m, c) && IsNumeral(h)
    ensures SearchNumber(s, HourLetter) == Some(DigitsValue(h))
  {
    NumeralRun(s, 2, h);
    SearchFinds(s, HourLetter, 2, DigitsValue(h));
  }

  /** No minutes match starts before the second field. */
  lemma IsoNoMinutesBefore(s: string, h: string, m: string, c: string)
    requires IsoLayout(s, h, m, c) && IsNumeral(h)
    ensures forall k :: 0 <= k < 3 + |h| ==> !RunMatch(s, k, MinuteLetter)
  {
    NumeralRun(s, 2, h);
    NoMatchInRun(s, 2, 2 + |h|, MinuteLetter);
    forall k | 0 <= k < 3 + |h| ensures !RunMatch(s, k, MinuteLetter) {
      if k < 2 || k == 2 + |h| {
        assert !IsDigit(s[k]);
      }
    }
  }

  /** The minutes field: the hours run is closed by 'H', not 'M'. */
  lemma IsoMinutes(s: string, h: string, m: string, c: string)
    requires IsoLayout(s, h, m, c) && IsNumeral(h) && IsNumeral(m)
    ensures SearchNumber(s, MinuteLetter) == Some(DigitsValue(m))
  {
    IsoNoMinutesBefore(s, h, m, c);
    NumeralRun(s, 3 + |h|, m);
    SearchFinds(s, MinuteLetter, 3 + |h|, DigitsValue(m));
  }

  /** No seconds match starts before the third field. */
  lemma IsoNoSecondsBefore(s: string, h: string, m: string, c: string)
    requires IsoLayout(s, h, m, c) && IsNumeral(h) && IsNumeral(m)
    ensures forall k :: 0 <= k < 4 + |h| + |m| ==> !RunMatch(s, k, SecondLetter)
  {
    NumeralRun(s, 2, h);
    NumeralRun(s, 3 + |h|, m);
    NoMatchInRun(s, 2, 2 + |h|, SecondLetter);
    NoMatchInRun(s, 3 + |h|, 3 + |h| + |m|, SecondLetter);
    forall k | 0 <= k < 4 + |h| + |m| ensures !RunMatch(s, k, SecondLetter) {
      if k < 2 || k == 2 + |h| || k == 3 + |h| + |m| {
        assert !IsDigit(s[k]);
      }
    }
  }

  /** The seconds field: the runs before it are closed by 'H' and 'M'. */
  lemma IsoSeconds(s: string, h: string, m: string, c: string)
    requires IsoLayout(s, h, m, c) && IsNumeral(h) && IsNumeral(m) && IsNumeral(c)
    ensures SearchNumber(s, SecondLetter) == Some(DigitsValue(c))
  {
    IsoNoSecondsBefore(s, h, m, c);
    NumeralRun(s, 4 + |h| + |m|, c);
    SearchFinds(s, SecondLetter, 4 + |h| + |m|, DigitsValue(c));
  }

  /** An ISO 8601 duration reads as its hours and minutes, with the seconds
      rounded down to whole minutes. */
  lemma IsoTextReads(h: string, m: string, c: string)
    requires IsNumeral(h) && IsNumeral(m) && IsNumeral(c)
    ensures IsoTotal(IsoText(h, m, c)) == DigitsValue(h) * 60 + DigitsValue(m) + DigitsValue(c) / 60
    ensures IsPrefix("PT", IsoText(h, m, c))
  {
    var s := IsoText(h, m, c);
    IsoTextLayout(h, m, c);
    IsoHours(s, h, m, c);
    IsoMinutes(s, h, m, c);
    IsoSeconds(s, h, m, c);
    assert s[..2] == "PT";
  }

  /** Both conversions take the "PT…" branch on a text starting "PT". */
  lemma ConvertsIso(s: string)
    requires IsPrefix("PT", s)
    ensures ConvertDurationToMinutes(s) == Some(IsoTotal(s))
    ensures ConvertDurationToMinutesCorrected(s) == Some(IsoTotal(s))
  {
  }

  lemma IsoDurationTotal(hours: nat, minutes: nat, seconds: nat)
    ensures IsPrefix("PT", IsoDuration(hours, minutes, seconds))
    ensures IsoTotal(IsoDuration(hours, minutes, seconds)) == hours * 60 + minutes + seconds / 60
  {
    IsoTextReads(NatToString(hours), NatToString(minutes), NatToString(seconds));
    DigitsValueOfNatToString(hours);
    DigitsValueOfNatToString(minutes);
    DigitsValueOfNatToString(seconds);
  }

  /** An ISO 8601 duration converts to its hours and minutes, with the
      seconds rounded down to whole minutes, in either order of the
      patterns. */
  lemma IsoDurationRoundTrip(hours: nat, minutes: nat, seconds: nat)
    ensures ConvertDurationToMinutes(IsoDuration(hours, minutes, seconds))
         == Some(hours * 60 + minutes + seconds / 60)
    ensures ConvertDurationToMinutesCorrected(IsoDuration(hours, minutes, seconds))
         == Some(hours * 60 + minutes + seconds / 60)
  {
    IsoDurationTotal(hours, minutes, seconds);
    ConvertsIso(IsoDuration(hours, minutes, seconds));
  }

  // ---------------------------------------------------------------------------
  // Reading back what format_runtime writes

  /** The leftmost match is at 0 when one starts there. */
  lemma MatchAtStart(s: string, tail: Tail)
    requires RunMatch(s, 0, tail)
    ensures FindRun(s, tail, 0) == Some(0)
  {
  }

  /** A text whose only digits form one run at its start, with a tail that
      fails there, has no match. */
  lemma NoMatchAnywhere(s: string, n: nat, tail: Tail)
    requires n <= |s|
    requires forall k :: 0 <= k < n ==> k + RunLen(s, k) == n
    requires !tail(s, n)
    requires forall k :: n <= k < |s| ==> !IsDigit(s[k])
    ensures FindRun(s, tail, 0) == None
  {
    NoMatchInRun(s, 0, n, tail);
  }

  /** A text that starts with a digit is not an ISO 8601 duration. */
  lemma DigitFirstNotIso(s: string)
    requires s != [] && IsDigit(s[0])
    ensures !IsPrefix("PT", s)
  {
    if |s| >= 2 {
      assert s[..2][0] == s[0];
    }
  }

  /** Where the parts of "{m}min" stand. */
  predicate MinutesLayout(s: string, d: string) {
    var n := |d|;
    |s| == n + 3 && s[..n] == d && s[n] == 'm' && s[n..] == "min"
  }

  lemma MinutesTextLayout(d: string)
    ensures MinutesLayout(d + "min", d)
  {
    var s := d + "min";
    assert s[..|d|] == d && s[|d|..] == "min";
  }

  /** "{m}min" matches the minutes pattern at its start. */
  lemma MinutesTextMinutes(s: string, d: string)
    requires MinutesLayout(s, d) && IsNumeral(d)
    ensures !IsPrefix("PT", s)
    ensures SearchNumber(s, MinWord) == Some(DigitsValue(d))
  {
    var n := |d|;
    assert s[n..n + 3] == s[n..];
    NumeralRun(s, 0, d);
    DigitFirstNotIso(s);
    PatternWordsLower();
    WordAt(s, n, "min");
    SearchFinds(s, MinWord, 0, DigitsValue(d));
  }

  /** "{m}min" has no hours-and-minutes match. */
  lemma MinutesTextNoHoursMinutes(s: string, d: string)
    requires MinutesLayout(s, d) && IsNumeral(d)
    ensures HoursMinutesForm(s).None?
  {
    var n := |d|;
    NumeralRun(s, 0, d);
    assert !HoursMinutesTail(s, n) by {
      assert LowerChar(s[n]) == 'm';
    }
    assert forall k :: n <= k < |s| ==> !IsDigit(s[k]) by {
      forall k | n <= k < |s| ensures !IsDigit(s[k]) {
        assert s[k] == s[n..][k - n];
      }
    }
    NoMatchAnywhere(s, n, HoursMinutesTail);
  }

  /** "{m}min" reads back in either order of the patterns. */
  lemma ReadsMinutesText(d: string)
    requires IsNumeral(d)
    ensures ConvertDurationToMinutes(d + "min") == Some(DigitsValue(d))
    ensures ConvertDurationToMinutesCorrected(d + "min") == Some(DigitsValue(d))
  {
    var s := d + "min";
    MinutesTextLayout(d);
    MinutesTextMinutes(s, d);
    MinutesTextNoHoursMinutes(s, d);
  }

  /** Where the parts of "{h}h" stand. */
  predicate HoursLayout(s: string, d: string) {
    |s| == |d| + 1 && s[..|d|] == d && s[|d|] == 'h' && s[|d|..] == "h"
  }

  lemma HoursTextLayout(d: string)
    ensures HoursLayout(d + "h", d)
  {
    var s := d + "h";
    assert s[..|d|] == d && s[|d|..] == "h";
  }

  /** "{h}h" has neither a minutes nor an hours-and-minutes match. */
  lemma HoursTextNoMinutes(s: string, d: string)
    requires HoursLayout(s, d) && IsNumeral(d)
    ensures SearchNumber(s, MinWord).None?
    ensures HoursMinutesForm(s).None?
  {
    var n := |d|;
    NumeralRun(s, 0, d);
    assert !HoursMinutesTail(s, n) by {
      assert SecondNumberStart(s, n) == n + 1;
    }
    NoMatchAnywhere(s, n, HoursMinutesTail);
    WordNotAt(s, n, "min");
    NoMatchAnywhere(s, n, MinWord);
  }

  /** "{h}h" matches the hours pattern at its start. */
  lemma HoursTextHours(s: string, d: string)
    requires HoursLayout(s, d) && IsNumeral(d)
    ensures !IsPrefix("PT", s)
    ensures SearchNumber(s, HourWord) == Some(DigitsValue(d))
  {
    var n := |d|;
    assert s[n..n + 1] == s[n..];
    NumeralRun(s, 0, d);
    DigitFirstNotIso(s);
    PatternWordsLower();
    WordAt(s, n, "h");
    SearchFinds(s, HourWord, 0, DigitsValue(d));
  }

  /** "{h}h" reads back in either order of the patterns. */
  lemma ReadsHoursText(d: string)
    requires IsNumeral(d)
    ensures ConvertDurationToMinutes(d + "h") == Some(DigitsValue(d) * 60)
    ensures ConvertDurationToMinutesCorrected(d + "h") == Some(DigitsValue(d) * 60)
  {
    var s := d + "h";
    HoursTextLayout(d);
    HoursTextNoMinutes(s, d);
    HoursTextHours(s, d);
  }

  /** Where the parts of "{h}h {r}min" stand. */
  predicate MixedLayout(s: string, d: string, e: string) {
    var n := |d|;
    var q := n + 2 + |e|;
    && |s| == q + 3
    && s[..n] == d && s[n] == 'h' && s[n + 1] == ' '
    && s[n + 2..q] == e
    && s[q..] == "min"
  }

  lemma MixedTextLayout(d: string, e: string)
    ensures MixedLayout(d + "h " + e + "min", d, e)
  {
    var s1 := d + "h ";
    var s2 := s1 + e;
    var s := s2 + "min";
    var n := |d|;
    var q := |s2|;
    assert s[..q] == s2 && s2[..n + 2] == s1 && s1[..n] == d;
    assert s[..n] == d;
    assert s[n] == s1[n] == 'h' && s[n + 1] == s1[n + 1] == ' ';
    assert s2[n + 2..] == e;
    assert s[n + 2..q] == s2[n + 2..];
    assert s[q..] == "min";
  }

  /** The runs of "{h}h {r}min" and the hours-and-minutes tail after the
      first. */
  lemma MixedRuns(s: string, d: string, e: string)
    requires MixedLayout(s, d, e) && IsNumeral(d) && IsNumeral(e)
    ensures !IsPrefix("PT", s)
    ensures RunMatch(s, 0, HoursMinutesTail) && RunValue(s, 0) == DigitsValue(d)
    ensures RunValue(s, SecondNumberStart(s, RunLen(s, 0))) == DigitsValue(e)
  {
    var n := |d|;
    var q := n + 2 + |e|;
    assert s[q] == s[q..][0] == 'm';
    NumeralRun(s, 0, d);
    NumeralRun(s, n + 2, e);
    MixedSecondNumber(s, d, e);
    assert HoursMinutesTail(s, n);
    DigitFirstNotIso(s);
  }

  /** "{h}h {r}min" matches the hours-and-minutes pattern at its start. */
  lemma MixedHoursMinutes(s: string, d: string, e: string)
    requires MixedLayout(s, d, e) && IsNumeral(d) && IsNumeral(e)
    ensures !IsPrefix("PT", s)
    ensures HoursMinutesForm(s) == Some(DigitsValue(d) * 60 + DigitsValue(e))
  {
    MixedRuns(s, d, e);
    MatchAtStart(s, HoursMinutesTail);
    HoursMinutesAtStart(s, DigitsValue(d), DigitsValue(e));
  }

  /** The minutes of "{h}h {r}min" start right after the one space. */
  lemma MixedSecondNumber(s: string, d: string, e: string)
    requires MixedLayout(s, d, e) && IsNumeral(e)
    ensures SecondNumberStart(s, |d|) == |d| + 2
  {
    var n := |d|;
    assert s[n + 2] == s[n + 2..n + 2 + |e|][0] == e[0];
    var t := s[n + 1..];
    assert t[0] == ' ' && !IsSpace(t[1]);
  }

  /** A match at the start gives the hours and minutes of its two runs. */
  lemma HoursMinutesAtStart(s: string, h: nat, m: nat)
    requires FindRun(s, HoursMinutesTail, 0) == Some(0)
    requires RunValue(s, 0) == h && RunValue(s, SecondNumberStart(s, RunLen(s, 0))) == m
    ensures HoursMinutesForm(s) == Some(h * 60 + m)
  {
  }

  /** No "{n} min" match starts in the hours of "{h}h {r}min". */
  lemma MixedNoMinutesBefore(s: string, d: string, e: string)
    requires MixedLayout(s, d, e) && IsNumeral(d)
    ensures forall k :: 0 <= k < |d| + 2 ==> !RunMatch(s, k, MinWord)
  {
    var n := |d|;
    assert s[..n] == d;
    NumeralRun(s, 0, d);
    WordNotAt(s, n, "min");
    NoMatchInRun(s, 0, n, MinWord);
    NoMatchAtNonDigits(s, n, n + 2, MinWord);
  }

  /** No match starts at a character that is not a digit. */
  lemma NoMatchAtNonDigits(s: string, i: nat, e: nat, tail: Tail)
    requires i <= e <= |s| && forall k :: i <= k < e ==> !IsDigit(s[k])
    ensures forall k :: i <= k < e ==> !RunMatch(s, k, tail)
  {
  }

  /** ... but the minutes pattern, tried first as written, matches at the
      remainder: the hours are not followed by "min", the remainder is. */
  lemma MixedMinutesOnly(s: string, d: string, e: string)
    requires MixedLayout(s, d, e) && IsNumeral(d) && IsNumeral(e)
    ensures SearchNumber(s, MinWord) == Some(DigitsValue(e))
  {
    var n := |d|;
    var q := n + 2 + |e|;
    assert s[q..q + 3] == "min";
    MixedNoMinutesBefore(s, d, e);
    NumeralRun(s, n + 2, e);
    PatternWordsLower();
    WordAt(s, q, "min");
    SearchFinds(s, MinWord, n + 2, DigitsValue(e));
  }

  lemma DivMod60(q: nat, r: nat)
    requires r < 60
    ensures (q * 60 + r) / 60 == q && (q * 60 + r) % 60 == r
  {
  }

  lemma WholeHours(minutes: nat)
    requires minutes % 60 == 0
    ensures (minutes / 60) * 60 == minutes
  {
  }

  /** What format_runtime writes for a runtime with hours and leftover
      minutes. */
  lemma FormatRuntimeMixed(minutes: nat)
    requires minutes >= 60 && minutes % 60 != 0
    ensures Helpers.FormatRuntime(minutes)
         == NatToString(minutes / 60) + "h " + NatToString(minutes % 60) + "min"
  {
  }

  /** As written, the text format_runtime writes for a runtime with hours
      and leftover minutes reads back as the leftover minutes alone. */
  lemma FormatRuntimeMisread(hours: nat, rest: nat)
    requires hours >= 1 && 0 < rest < 60
    ensures ConvertDurationToMinutes(Helpers.FormatRuntime(hours * 60 + rest)) == Some(rest)
  {
    var d, e := NatToString(hours), NatToString(rest);
    DivMod60(hours, rest);
    FormatRuntimeMixed(hours * 60 + rest);
    MixedTextLayout(d, e);
    MixedHoursMinutes(d + "h " + e + "min", d, e);
    MixedMinutesOnly(d + "h " + e + "min", d, e);
    DigitsValueOfNatToString(rest);
  }

  /** The corrected conversion reads every non-negative runtime
      format_runtime writes back as the same number of minutes. */
  lemma CorrectedReadsFormatRuntime(minutes: nat)
    ensures ConvertDurationToMinutesCorrected(Helpers.FormatRuntime(minutes)) == Some(minutes)
  {
    if minutes < 60 {
      ReadsMinutesText(NatToString(minutes));
      DigitsValueOfNatToString(minutes);
    } else if minutes % 60 == 0 {
      ReadsHoursText(NatToString(minutes / 60));
      DigitsValueOfNatToString(minutes / 60);
      WholeHours(minutes);
    } else {
      var d, e := NatToString(minutes / 60), NatToString(minutes % 60);
      FormatRuntimeMixed(minutes);
      MixedTextLayout(d, e);
      MixedHoursMinutes(d + "h " + e + "min", d, e);
      DigitsValueOfNatToString(minutes / 60);
      DigitsValueOfNatToString(minutes % 60);
    }
  }

  /** As written, runtimes under an hour and whole hours do read back. */
  lemma FormatRuntimeReadsBackUnmixed(minutes: nat)
    requires minutes < 60 || minutes % 60 == 0
    ensures ConvertDurationToMinutes(Helpers.FormatRuntime(minutes)) == Some(minutes)
  {
    if minutes < 60 {
      ReadsMinutesText(NatToString(minutes));
      DigitsValueOfNatToString(minutes);
    } else {
      ReadsHoursText(NatToString(minutes / 60));
      DigitsValueOfNatToString(minutes / 60);
      WholeHours(minutes);
    }
  }

  // ---------------------------------------------------------------------------
  // extract_year_from_string

  /** `\b(19\d{2}|20\d{2})\b` matches at `i`. */
  predicate YearAt(s: string, i: int) {
    && 0 <= i && i + 4 <= |s|
    && (s[i..i + 2] == "19" || s[i..i + 2] == "20")
    && IsDigit(s[i + 2]) && IsDigit(s[i + 3])
    && (i == 0 || !IsWordChar(s[i - 1]))
    && (i + 4 == |s| || !IsWordChar(s[i + 4]))
  }

  function FindYear(s: string, from: nat): (r: Option<nat>)
    ensures r.Some? ==> from <= r.value && YearAt(s, r.value)
    ensures r.Some? ==> forall k :: from <= k < r.value ==> !YearAt(s, k)
    ensures r.None? ==> forall k :: from <= k ==> !YearAt(s, k)
    decreases |s| - from
  {
    if from + 4 > |s| then None
    else if YearAt(s, from) then Some(from)
    else FindYear(s, from + 1)
  }

  /** The first stand-alone year from 1900 to 2099 in the text, if any. */
  function ExtractYearFromString(text: string): (r: Option<string>)
    ensures r.Some? ==> |r.value| == 4 && AllDigits(r.value)
    ensures r.Some? ==> r.value[..2] == "19" || r.value[..2] == "20"
    ensures r.None? <==> forall i :: !YearAt(text, i)
    ensures r.Some? ==> Contains(text, r.value)
  {
    match FindYear(text, 0)
    case None => None
    case Some(i) =>
      var y := text[i..i + 4];
      assert OccursAt(text, y, i);
      assert y[..2] == text[i..i + 2];
      assert y[0] == text[i] && y[1] == text[i + 1] && y[2] == text[i + 2] && y[3] == text[i + 3];
      Some(y)
  }

  /** The year found is the leftmost one. */
  lemma ExtractYearIsLeftmost(text: string, i: nat)
    requires YearAt(text, i)
    requires forall k :: 0 <= k < i ==> !YearAt(text, k)
    ensures ExtractYearFromString(text) == Some(text[i..i + 4])
  {
  }

  // ---------------------------------------------------------------------------
  // parse_imdb_id

  /** `\b(tt\d{7,})\b` matches at `i`: the greedy digits must end at a word
      boundary, and giving digits back cannot create one. */
  predicate ImdbIdAt(s: string, i: int) {
    && 0 <= i && i + 2 <= |s|
    && s[i..i + 2] == "tt"
    && (i == 0 || !IsWordChar(s[i - 1]))
    && RunLen(s, i + 2) >= 7
    && (i + 2 + RunLen(s, i + 2) == |s| || !IsWordChar(s[i + 2 + RunLen(s, i + 2)]))
  }

  function FindImdbId(s: string, from: nat): (r: Option<nat>)
    ensures r.Some? ==> from <= r.value && ImdbIdAt(s, r.value)
    ensures r.Some? ==> forall k :: from <= k < r.value ==> !ImdbIdAt(s, k)
    ensures r.None? ==> forall k :: from <= k ==> !ImdbIdAt(s, k)
    decreases |s| - from
  {
    if from + 2 > |s| then None
    else if ImdbIdAt(s, from) then Some(from)
    else FindImdbId(s, from + 1)
  }

  /** `i` is where the leftmost match of the id pattern starts. */
  predicate FirstImdbIdAt(s: string, i: int) {
    ImdbIdAt(s, i) && forall k :: 0 <= k < i ==> !ImdbIdAt(s, k)
  }

  /** The id matched at `i`: "tt" and the whole run of digits after it. */
  function ImdbIdFrom(s: string, i: nat): string
    requires i + 2 <= |s|
  {
    s[i..i + 2 + RunLen(s, i + 2)]
  }

  /** There is only one leftmost match. */
  lemma FirstImdbIdUnique(s: string, i: int, j: int)
    requires FirstImdbIdAt(s, i) && FirstImdbIdAt(s, j)
    ensures i == j
  {
  }

  /** The first stand-alone "tt" followed by at least seven digits, with all
      its digits. */
  function ParseImdbId(text: string): (r: Option<string>)
    ensures r.Some? ==> |r.value| >= 9 && r.value[..2] == "tt" && AllDigits(r.value[2..])
    ensures r.None? <==> forall i :: !ImdbIdAt(text, i)
    ensures r.Some? ==> Contains(text, r.value)
  {
    match FindImdbId(text, 0)
    case None => None
    case Some(i) =>
      var id := text[i..i + 2 + RunLen(text, i + 2)];
      assert OccursAt(text, id, i);
      assert forall k :: 2 <= k < |id| ==> id[k] == text[i + k];
      Some(id)
  }

  /** The id found is the leftmost match, with its whole run of digits. */
  lemma ParseImdbIdIsLeftmost(text: string, i: nat)
    requires FirstImdbIdAt(text, i)
    ensures ParseImdbId(text) == Some(ImdbIdFrom(text, i))
  {
    var found := FindImdbId(text, 0);
    assert found.Some?;
    FirstImdbIdUnique(text, i, found.value);
  }

  // ---------------------------------------------------------------------------
  // clean_movie_title

  /** `re.sub(r'\s+', ' ', s)`: every maximal run of whitespace becomes one
      space. */
  function CollapseSpaces(s: string): (r: string)
    ensures |r| <= |s|
    ensures forall k :: 0 <= k < |r| && IsSpace(r[k]) ==> r[k] == ' '
    ensures forall k :: 0 <= k < |r| - 1 ==> !(r[k] == ' ' && r[k + 1] == ' ')
    ensures s != [] ==> r != [] && (IsSpace(r[0]) <==> IsSpace(s[0]))
    ensures s != [] ==> (IsSpace(r[|r| - 1]) <==> IsSpace(s[|s| - 1]))
    decreases |s|
  {
    if s == [] then []
    else if IsSpace(s[0]) then
      var n := LeadCount(s, IsSpace);
      var rest := CollapseSpaces(s[n..]);
      SpaceBefore(rest);
      " " + rest
    else
      var rest := CollapseSpaces(s[1..]);
      KeptBefore(s[0], rest);
      [s[0]] + rest
  }

  /** The characters of `s` that are not whitespace, in order. */
  function NonSpaces(s: string): (r: string)
    ensures |r| <= |s|
    ensures forall k :: 0 <= k < |r| ==> !IsSpace(r[k])
  {
    if s == [] then [] else (if IsSpace(s[0]) then [] else [s[0]]) + NonSpaces(s[1..])
  }

  /** Dropping leading whitespace keeps the non-space characters. */
  lemma {:induction false} NonSpacesSkip(s: string, n: nat)
    requires n <= |s| && forall k :: 0 <= k < n ==> IsSpace(s[k])
    ensures NonSpaces(s[n..]) == NonSpaces(s)
    decreases n
  {
    if n > 0 {
      NonSpacesSkip(s[1..], n - 1);
      assert s[1..][n - 1..] == s[n..];
    }
  }

  /** Collapsing whitespace keeps every other character, in order: it only
      rewrites the whitespace runs. */
  lemma {:induction false} CollapseSpacesKeepsText(s: string)
    ensures NonSpaces(CollapseSpaces(s)) == NonSpaces(s)
    decreases |s|
  {
    if s != [] {
      if IsSpace(s[0]) {
        var n := LeadCount(s, IsSpace);
        CollapseSpacesKeepsText(s[n..]);
        NonSpacesSkip(s, n);
        var r := " " + CollapseSpaces(s[n..]);
        assert r[1..] == CollapseSpaces(s[n..]);
      } else {
        CollapseSpacesKeepsText(s[1..]);
        var r := [s[0]] + CollapseSpaces(s[1..]);
        assert r[1..] == CollapseSpaces(s[1..]);
      }
    }
  }

  /** Only single spaces stand for whitespace in `r`. */
  predicate SingleSpaced(r: string) {
    && (forall k :: 0 <= k < |r| && IsSpace(r[k]) ==> r[k] == ' ')
    && (forall k :: 0 <= k < |r| - 1 ==> !(r[k] == ' ' && r[k + 1] == ' '))
  }

  /** One space before a single-spaced text that starts with a non-space
      keeps it single-spaced. */
  lemma SpaceBefore(rest: string)
    requires SingleSpaced(rest) && (rest != [] ==> !IsSpace(rest[0]))
    ensures SingleSpaced(" " + rest)
    ensures rest != [] ==> (" " + rest)[|rest|] == rest[|rest| - 1]
  {
    var r := " " + rest;
    forall k | 1 <= k < |r| ensures r[k] == rest[k - 1] {
    }
  }

  /** A non-space before a single-spaced text keeps it single-spaced. */
  lemma KeptBefore(c: char, rest: string)
    requires SingleSpaced(rest) && !IsSpace(c)
    ensures SingleSpaced([c] + rest)
    ensures rest != [] ==> ([c] + rest)[|rest|] == rest[|rest| - 1]
  {
    var r := [c] + rest;
    forall k | 1 <= k < |r| ensures r[k] == rest[k - 1] {
    }
  }

  /** Where the run of whitespace that ends at `p` begins: how far a
      leading `\s*` of a match reaches back. */
  function SpacesBefore(s: string, p: nat): (q: nat)
    requires p <= |s|
    ensures q <= p
    ensures forall k :: q <= k < p ==> IsSpace(s[k])
    ensures q > 0 ==> !IsSpace(s[q - 1])
  {
    p - TrailCount(s[..p], IsSpace)
  }

  predicate EndsWithCI(s: string, word: string) {
    |word| <= |s| && Lower(s[|s| - |word|..]) == word
  }

  /** `\s*\(\d{4}\)$`: where a year in parentheses at the end begins. */
  function YearSuffixStart(s: string): (r: Option<nat>)
    ensures r.Some? ==> r.value <= |s|
  {
    var n := |s|;
    if n >= 6 && s[n - 6] == '(' && AllDigits(s[n - 5..n - 1]) && s[n - 1] == ')'
    then Some(SpacesBefore(s, n - 6)) else None
  }

  /** `\s*\[.*\]$`: where a bracketed tag at the end begins; the leftmost
      match starts at the first '['. */
  function BracketSuffixStart(s: string): (r: Option<nat>)
    ensures r.Some? ==> r.value <= |s|
  {
    if |s| >= 2 && s[|s| - 1] == ']' then
      match FindFirst(s[..|s| - 1], "[")
      case Some(p) => Some(SpacesBefore(s, p))
      case None => None
    else None
  }

  /** `\s*-\s*trailer$`, ignoring case. */
  function DashTrailerSuffixStart(s: string): (r: Option<nat>)
    ensures r.Some? ==> r.value <= |s|
  {
    if EndsWithCI(s, "trailer") then
      var b := SpacesBefore(s, |s| - 7);
      if b >= 1 && s[b - 1] == '-' then Some(SpacesBefore(s, b - 1)) else None
    else None
  }

  /** `\s*official\s*trailer$`, ignoring case. */
  function OfficialTrailerSuffixStart(s: string): (r: Option<nat>)
    ensures r.Some? ==> r.value <= |s|
  {
    if EndsWithCI(s, "trailer") then
      var b := SpacesBefore(s, |s| - 7);
      if b >= 8 && Lower(s[b - 8..b]) == "official" then Some(SpacesBefore(s, b - 8)) else None
    else None
  }

  /** `re.sub(pattern, '', s)` for a pattern anchored at the end: the match
      runs to the end, so it is removed once. */
  function CutAt(s: string, start: Option<nat>): (r: string)
    requires start.Some? ==> start.value <= |s|
    ensures IsPrefix(r, s)
  {
    if start.Some? then s[..start.value] else s
  }

  lemma PrefixTransitive(a: string, b: string, c: string)
    requires IsPrefix(a, b) && IsPrefix(b, c)
    ensures IsPrefix(a, c)
  {
    assert c[..|a|] == c[..|b|][..|a|];
  }

  /** The four suffix removals of clean_movie_title, in their order. */
  function RemoveTitleSuffixes(s: string): (r: string)
    ensures IsPrefix(r, s)
  {
    var a := CutAt(s, YearSuffixStart(s));
    var b := CutAt(a, BracketSuffixStart(a));
    var c := CutAt(b, DashTrailerSuffixStart(b));
    var d := CutAt(c, OfficialTrailerSuffixStart(c));
    PrefixTransitive(b, a, s);
    PrefixTransitive(c, b, s);
    PrefixTransitive(d, c, s);
    d
  }

  /** clean_movie_title: strip, collapse whitespace, then remove in turn a
      trailing "(yyyy)", "[...]", "- trailer" and "official trailer", and
      strip again. */
  function CleanMovieTitle(title: string): (r: string)
    ensures |r| <= |title|
    ensures forall k :: 0 <= k < |r| && IsSpace(r[k]) ==> r[k] == ' '
    ensures r != [] ==> !IsSpace(r[0]) && !IsSpace(r[|r| - 1])
    ensures IsPrefix(r, CollapseSpaces(Strip(title)))
  {
    var collapsed := CollapseSpaces(Strip(title));
    var d := RemoveTitleSuffixes(collapsed);
    StripOfPrefix(d, collapsed);
    Strip(d)
  }

  /** Stripping a prefix of a string that starts with a non-space gives a
      prefix. */
  lemma StripOfPrefix(d: string, whole: string)
    requires IsPrefix(d, whole)
    requires whole != [] ==> !IsSpace(whole[0])
    requires forall k :: 0 <= k < |whole| && IsSpace(whole[k]) ==> whole[k] == ' '
    ensures IsPrefix(Strip(d), whole)
    ensures forall k :: 0 <= k < |Strip(d)| && IsSpace(Strip(d)[k]) ==> Strip(d)[k] == ' '
  {
    var r := Strip(d);
    if d != [] {
      assert d[0] == whole[0];
      assert LeadCount(d, IsSpace) == 0;
    }
    assert forall k :: 0 <= k < |r| ==> r[k] == whole[k];
  }

  /** Text that needs no stripping or collapsing: it starts and ends with a
      non-space, and whitespace appears only as single spaces. */
  predicate Spaced(s: string) {
    s != [] && !IsSpace(s[0]) && !IsSpace(s[|s| - 1]) && SingleSpaced(s)
  }

  /** A clean title that ends in none of the four suffixes. */
  predicate PlainTitle(t: string) {
    && Spaced(t)
    && t[|t| - 1] != ')' && t[|t| - 1] != ']'
    && !EndsWithCI(t, "trailer")
  }

  /** A clean title with none of the four suffixes comes back unchanged. */
  lemma CleanMovieTitleKeepsPlainTitles(title: string)
    requires PlainTitle(title)
    ensures CleanMovieTitle(title) == title
  {
    CleanOfSpaced(title);
    PlainTitleUncut(title);
  }

  /** For spaced text only the suffix removals and the final strip act. */
  lemma CleanOfSpaced(s: string)
    requires Spaced(s)
    ensures CleanMovieTitle(s) == Strip(RemoveTitleSuffixes(s))
  {
    StripNoSpaces(s);
    CollapseClean(s);
  }

  /** None of the four suffix patterns matches a plain title. */
  lemma PlainTitleUncut(t: string)
    requires PlainTitle(t)
    ensures YearSuffixStart(t).None? && BracketSuffixStart(t).None?
    ensures DashTrailerSuffixStart(t).None? && OfficialTrailerSuffixStart(t).None?
    ensures RemoveTitleSuffixes(t) == t && Strip(t) == t
  {
    StripNoSpaces(t);
  }

  /** The whitespace run ending at `p` begins at `q` when `s[q..p]` is all
      whitespace and `q` is the start or follows a non-space. */
  lemma SpacesBeforeIs(s: string, p: nat, q: nat)
    requires q <= p <= |s|
    requires forall k :: q <= k < p ==> IsSpace(s[k])
    requires q > 0 ==> !IsSpace(s[q - 1])
    ensures SpacesBefore(s, p) == q
  {
  }

  /** A spaced title, one space and a spaced tail make spaced text. */
  lemma SpacedJoin(t: string, x: string)
    requires Spaced(t) && Spaced(x)
    ensures Spaced(t + " " + x)
  {
    var s := t + " " + x;
    assert forall k :: 0 <= k < |t| ==> s[k] == t[k];
    assert s[|t|] == ' ';
    assert forall k :: |t| < k < |s| ==> s[k] == x[k - |t| - 1];
  }

  lemma StripNoSpaces(s: string)
    requires s != [] ==> !IsSpace(s[0]) && !IsSpace(s[|s| - 1])
    ensures Strip(s) == s
  {
    if s != [] {
      assert LeadCount(s, IsSpace) == 0;
      assert s[0..] == s;
      assert TrailCount(s, IsSpace) == 0;
    }
  }

  /** A lone space collapses to itself. */
  lemma CollapseLoneSpace(s: string)
    requires s != [] && s[0] == ' ' && (|s| > 1 ==> !IsSpace(s[1]))
    ensures CollapseSpaces(s) == " " + CollapseSpaces(s[1..])
  {
    var t := s[1..];
    assert LeadCount(t, IsSpace) == 0 by {
      if t != [] {
        assert t[0] == s[1];
      }
    }
    assert LeadCount(s, IsSpace) == 1;
  }

  /** Collapsing leaves text with only single spaces unchanged. */
  lemma {:induction false} CollapseClean(s: string)
    requires forall k :: 0 <= k < |s| && IsSpace(s[k]) ==> s[k] == ' '
    requires forall k :: 0 <= k < |s| - 1 ==> !(s[k] == ' ' && s[k + 1] == ' ')
    ensures CollapseSpaces(s) == s
    decreases |s|
  {
    if s != [] {
      var t := s[1..];
      assert forall k :: 0 <= k < |t| ==> t[k] == s[k + 1];
      CollapseClean(t);
      if IsSpace(s[0]) {
        CollapseLoneSpace(s);
      }
      HeadTail(s);
    }
  }

  /** When the first suffix that matches starts right after a plain title,
      the removals leave exactly that title. */
  lemma SuffixesCutTo(s: string, t: string)
    requires PlainTitle(t) && |t| <= |s| && s[..|t|] == t
    requires || YearSuffixStart(s) == Some(|t|)
             || (YearSuffixStart(s).None? && BracketSuffixStart(s) == Some(|t|))
             || (YearSuffixStart(s).None? && BracketSuffixStart(s).None? && DashTrailerSuffixStart(s) == Some(|t|))
             || (YearSuffixStart(s).None? && BracketSuffixStart(s).None? && DashTrailerSuffixStart(s).None?
                 && OfficialTrailerSuffixStart(s) == Some(|t|))
    ensures CleanMovieTitle(s) == t || !Spaced(s)
  {
    PlainTitleUncut(t);
    if Spaced(s) {
      CleanOfSpaced(s);
    }
  }

  /** A title, one space and a spaced tail: spaced, with the title in
      front. */
  lemma TitleThenTail(t: string, x: string)
    requires Spaced(t) && Spaced(x)
    ensures Spaced(t + " " + x) && (t + " " + x)[..|t|] == t && (t + " " + x)[|t|] == ' '
  {
    SpacedJoin(t, x);
  }

  lemma Regroup<T>(t: seq<T>, a: T, b: T, m: seq<T>, c: T)
    ensures t + [a] + ([b] + m + [c]) == t + [a, b] + m + [c]
  {
  }

  function YearTail(y: string): string {
    "(" + y + ")"
  }

  /** The year pattern matches from the space before the parenthesis. */
  lemma YearStartOf(t: string, y: string)
    requires Spaced(t) && |y| == 4 && AllDigits(y)
    ensures Spaced(YearTail(y))
    ensures YearSuffixStart(t + " " + YearTail(y)) == Some(|t|)
  {
    YearSpaced(y);
    var s := t + " " + YearTail(y);
    var n := |s|;
    assert s[n - 6] == '(' && s[n - 1] == ')' && s[n - 5..n - 1] == y;
    assert s[|t| - 1] == t[|t| - 1] && s[|t|] == ' ';
    SpacesBeforeOne(s, |t| + 1);
  }

  /** A year in parentheses is spaced. */
  lemma YearSpaced(y: string)
    requires |y| == 4 && AllDigits(y)
    ensures Spaced(YearTail(y))
  {
    var x := YearTail(y);
    assert forall k :: 0 <= k < |x| ==> x[k] == '(' || x[k] == ')' || IsDigit(x[k]);
  }

  /** A trailing year in parentheses is removed: "Heat (1995)" cleans to
      "Heat". */
  lemma CleanRemovesYear(t: string, y: string)
    requires PlainTitle(t) && |y| == 4 && AllDigits(y)
    ensures CleanMovieTitle(t + " (" + y + ")") == t
  {
    Regroup(t, ' ', '(', y, ')');
    YearStartOf(t, y);
    TitleThenTail(t, YearTail(y));
    SuffixesCutTo(t + " " + YearTail(y), t);
  }

  function TagTail(tag: string): string {
    "[" + tag + "]"
  }

  /** The bracket pattern matches from the space before the first '['. */
  lemma TagStartOf(t: string, tag: string)
    requires Spaced(t) && '[' !in t && forall k :: 0 <= k < |tag| ==> !IsSpace(tag[k])
    ensures Spaced(TagTail(tag))
    ensures YearSuffixStart(t + " " + TagTail(tag)).None?
    ensures BracketSuffixStart(t + " " + TagTail(tag)) == Some(|t|)
  {
    TagSpaced(tag);
    var s := t + " " + TagTail(tag);
    TagFirstBracket(t, tag);
    assert s[|t| - 1] == t[|t| - 1] && s[|t|] == ' ';
    SpacesBeforeOne(s, |t| + 1);
    BracketFromParts(s, |t| + 1, |t|);
  }

  /** A bracketed tag without whitespace is spaced. */
  lemma TagSpaced(tag: string)
    requires forall k :: 0 <= k < |tag| ==> !IsSpace(tag[k])
    ensures Spaced(TagTail(tag))
  {
    var x := TagTail(tag);
    assert forall k :: 1 <= k < |x| - 1 ==> x[k] == tag[k - 1];
  }

  /** In a title with no '[' of its own followed by " [tag", the first
      '[' is the one that opens the tag. */
  lemma TagFirstBracket(t: string, tag: string)
    requires '[' !in t
    ensures FindFirst((t + " " + TagTail(tag))[..|t| + |tag| + 2], "[") == Some(|t| + 1)
  {
    var front := (t + " " + TagTail(tag))[..|t| + |tag| + 2];
    assert forall k :: 0 <= k < |t| ==> front[k] == t[k];
    assert front[|t|] == ' ' && front[|t| + 1] == '[';
    assert OccursAt(front, "[", |t| + 1);
    assert forall k :: 0 <= k < |t| + 1 ==> !OccursAt(front, "[", k);
  }

  /** The bracket pattern read off from the first '[' and the spaces
      before it; the year pattern needs a closing ')'. */
  lemma BracketFromParts(s: string, p: nat, q: nat)
    requires |s| >= 2 && s[|s| - 1] == ']'
    requires FindFirst(s[..|s| - 1], "[") == Some(p) && p <= |s| && SpacesBefore(s, p) == q
    ensures YearSuffixStart(s).None?
    ensures BracketSuffixStart(s) == Some(q)
  {
  }

  /** A trailing bracketed tag is removed when the title has no '[' of its
      own: "Heat [HD]" cleans to "Heat". */
  lemma CleanRemovesTag(t: string, tag: string)
    requires PlainTitle(t) && '[' !in t && forall k :: 0 <= k < |tag| ==> !IsSpace(tag[k])
    ensures CleanMovieTitle(t + " [" + tag + "]") == t
  {
    Regroup(t, ' ', '[', tag, ']');
    TagStartOf(t, tag);
    TitleThenTail(t, TagTail(tag));
    SuffixesCutTo(t + " " + TagTail(tag), t);
  }

  /** A text with no capital letters is its own lower-case form. */
  lemma LowerOfLower(w: string)
    requires forall i :: 0 <= i < |w| ==> !('A' <= w[i] <= 'Z')
    ensures Lower(w) == w
  {
  }

  /** Ending with a lower-case word is ending with it ignoring case. */
  lemma EndsWithWord(s: string, w: string)
    requires IsSuffix(w, s) && forall i :: 0 <= i < |w| ==> !('A' <= w[i] <= 'Z')
    ensures EndsWithCI(s, w)
  {
    LowerOfLower(w);
  }

  /** A title followed by a space and a tail, with the title's last
      character still before the space. */
  lemma TitleSpaceTail(t: string, x: string, s: string)
    requires Spaced(t) && Spaced(x) && s == t + (" " + x)
    ensures Spaced(s) && s[..|t|] == t && s[|t|] == ' ' && !IsSpace(s[|t| - 1])
  {
    Assoc(t, " ", x);
    SpacedJoin(t, x);
  }

  /** One space after a non-space is a run of one. */
  lemma SpacesBeforeOne(s: string, p: nat)
    requires 2 <= p <= |s| && s[p - 1] == ' ' && !IsSpace(s[p - 2])
    ensures SpacesBefore(s, p) == p - 1
  {
    SpacesBeforeIs(s, p, p - 1);
  }

  /** Text ending in neither ')' nor ']' has no year or tag suffix. */
  lemma NoYearNoTag(s: string)
    requires s != [] && s[|s| - 1] != ')' && s[|s| - 1] != ']'
    ensures YearSuffixStart(s).None? && BracketSuffixStart(s).None?
  {
  }

  /** `s` is a non-space at `i - 1` followed by " - trailer". */
  lemma DashMatchAt(s: string, i: nat)
    requires 1 <= i && i + 10 == |s| && !IsSpace(s[i - 1])
    requires s[i] == ' ' && s[i + 1] == '-' && s[i + 2] == ' ' && s[i + 3..] == "trailer"
    ensures DashTrailerSuffixStart(s) == Some(i)
  {
    EndsWithWord(s, "trailer");
    assert !IsSpace(s[i + 1]);
    SpacesBeforeOne(s, i + 3);
    SpacesBeforeOne(s, i + 1);
    DashFromParts(s, i);
  }

  /** The dash pattern read off from the word, the dash and the spaces
      before each. */
  lemma DashFromParts(s: string, i: nat)
    requires i + 10 == |s| && EndsWithCI(s, "trailer") && s[i + 1] == '-'
    requires SpacesBefore(s, i + 3) == i + 2 && SpacesBefore(s, i + 1) == i
    ensures DashTrailerSuffixStart(s) == Some(i)
  {
  }

  /** The dash pattern matches from the space before the dash. */
  lemma DashStartOf(t: string)
    requires Spaced(t)
    ensures YearSuffixStart(t + " - trailer").None? && BracketSuffixStart(t + " - trailer").None?
    ensures DashTrailerSuffixStart(t + " - trailer") == Some(|t|)
  {
    var s := t + " - trailer";
    var n := |t|;
    assert s[n - 1] == t[n - 1];
    assert s[n] == ' ' && s[n + 1] == '-' && s[n + 2] == ' ' && s[n + 3..] == "trailer";
    NoYearNoTag(s);
    DashMatchAt(s, n);
  }

  /** A title followed by " - trailer" needs no stripping or collapsing. */
  lemma DashSpaced(t: string)
    requires Spaced(t)
    ensures Spaced(t + " - trailer") && (t + " - trailer")[..|t|] == t
  {
    assert Spaced("- trailer");
    TitleSpaceTail(t, "- trailer", t + " - trailer");
  }

  /** A trailing "- trailer" is removed: "Heat - trailer" cleans to "Heat". */
  lemma CleanRemovesDashTrailer(t: string)
    requires PlainTitle(t)
    ensures CleanMovieTitle(t + " - trailer") == t
  {
    DashStartOf(t);
    DashSpaced(t);
    SuffixesCutTo(t + " - trailer", t);
  }

  /** `s` is a non-space at `i - 1` followed by " official trailer". */
  lemma OfficialMatchAt(s: string, i: nat)
    requires 1 <= i && i + 17 == |s| && !IsSpace(s[i - 1])
    requires s[i] == ' ' && s[i + 1..i + 9] == "official" && s[i + 9] == ' ' && s[i + 10..] == "trailer"
    ensures DashTrailerSuffixStart(s).None?
    ensures OfficialTrailerSuffixStart(s) == Some(i)
  {
    OfficialWords(s, i);
    assert s[i + 8] == s[i + 1..i + 9][7];
    TwoSpaceRuns(s, i, i + 9);
    OfficialFromParts(s, i);
  }

  /** The two words of " official trailer", read ignoring case. */
  lemma OfficialWords(s: string, i: nat)
    requires i + 17 == |s| && s[i + 1..i + 9] == "official" && s[i + 10..] == "trailer"
    ensures EndsWithCI(s, "trailer") && Lower(s[i + 1..i + 9]) == "official"
  {
    EndsWithWord(s, "trailer");
    LowerOfLower("official");
  }

  /** Two single spaces, at `i` and `j`, each after a non-space. */
  lemma TwoSpaceRuns(s: string, i: nat, j: nat)
    requires 1 <= i < j < |s| && s[i] == ' ' && s[j] == ' '
    requires !IsSpace(s[i - 1]) && !IsSpace(s[j - 1])
    ensures SpacesBefore(s, j + 1) == j && SpacesBefore(s, i + 1) == i
  {
    SpacesBeforeOne(s, j + 1);
    SpacesBeforeOne(s, i + 1);
  }

  /** The official-trailer pattern read off from the two words and the
      spaces before each; "official" does not end in a dash. */
  lemma OfficialFromParts(s: string, i: nat)
    requires i + 17 == |s| && EndsWithCI(s, "trailer") && Lower(s[i + 1..i + 9]) == "official"
    requires SpacesBefore(s, i + 10) == i + 9 && SpacesBefore(s, i + 1) == i
    ensures DashTrailerSuffixStart(s).None?
    ensures OfficialTrailerSuffixStart(s) == Some(i)
  {
    assert s[i + 8] == s[i + 1..i + 9][7];
  }

  /** The official-trailer pattern matches from the space before
      "official"; the dash pattern does not match. */
  lemma OfficialStartOf(t: string)
    requires Spaced(t)
    ensures YearSuffixStart(t + " official trailer").None? && BracketSuffixStart(t + " official trailer").None?
    ensures DashTrailerSuffixStart(t + " official trailer").None?
    ensures OfficialTrailerSuffixStart(t + " official trailer") == Some(|t|)
  {
    var s := t + " official trailer";
    var n := |t|;
    assert s[n - 1] == t[n - 1];
    assert s[n] == ' ' && s[n + 1..n + 9] == "official" && s[n + 9] == ' ' && s[n + 10..] == "trailer";
    NoYearNoTag(s);
    OfficialMatchAt(s, n);
  }

  /** A title followed by " official trailer" needs no stripping or
      collapsing. */
  lemma OfficialSpaced(t: string)
    requires Spaced(t)
    ensures Spaced(t + " official trailer") && (t + " official trailer")[..|t|] == t
  {
    assert Spaced("official trailer");
    TitleSpaceTail(t, "official trailer", t + " official trailer");
  }

  /** A trailing "official trailer" is removed: "Heat official trailer"
      cleans to "Heat". */
  lemma CleanRemovesOfficialTrailer(t: string)
    requires PlainTitle(t)
    ensures CleanMovieTitle(t + " official trailer") == t
  {
    OfficialStartOf(t);
    OfficialSpaced(t);
    SuffixesCutTo(t + " official trailer", t);
  }
}

=== FILE: ranking.dfy ===
/** Ranking as the bot does it: Python's stable `sort(key=..., reverse=True)`
    followed by a `[:k]` slice. Every sort key the bot uses is a number or a
    pair of numbers compared lexicographically, so keys are modelled as a
    `Rank` pair (a single-number key leaves the second component at 0). */
module Ranking {
  import opened Wrappers

  datatype Rank = Rank(primary: real, secondary: int)

  /** `a` sorts strictly ahead of `b` in a descending sort. */
  predicate Above(a: Rank, b: Rank) {
    a.primary > b.primary || (a.primary == b.primary && a.secondary > b.secondary)
  }

  /** Non-increasing by key: no element ranks strictly above one before it. */
  predicate SortedDesc<T>(s: seq<T>, key: T -> Rank) {
    forall i, j :: 0 <= i < j < |s| ==> !Above(key(s[j]), key(s[i]))
  }

  /** The elements of `s` whose key is exactly `k`, in their order in `s`. */
  function WithRank<T>(s: seq<T>, key: T -> Rank, k: Rank): (r: seq<T>)
    ensures |r| <= |s|
  {
    if s == [] then []
    else (if key(s[0]) == k then [s[0]] else []) + WithRank(s[1..], key, k)
  }

  /** Places `x` in front of the first element that does not rank strictly
      above it, so `x` stays ahead of the elements it ties with. */
  function Insert<T>(x: T, s: seq<T>, key: T -> Rank): (r: seq<T>)
    requires SortedDesc(s, key)
    ensures |r| == |s| + 1
    ensures forall y :: y in r ==> y in s || y == x
    ensures SortedDesc(r, key)
    ensures multiset(r) == multiset(s) + multiset{x}
  {
    if s == [] || !Above(key(s[0]), key(x)) then [x] + s
    else
      var rest := Insert(x, s[1..], key);
      assert s == [s[0]] + s[1..];
      HeadBound(s, key);
      ConsSorted(s[0], rest, key);
      [s[0]] + rest
  }

  /** Nothing after the head of a sorted sequence ranks above the head. */
  lemma HeadBound<T>(s: seq<T>, key: T -> Rank)
    requires SortedDesc(s, key) && s != []
    ensures forall y :: y in s[1..] ==> !Above(key(y), key(s[0]))
  {
    forall y | y in s[1..] ensures !Above(key(y), key(s[0])) {
      var i :| 0 <= i < |s[1..]| && s[1..][i] == y;
      assert s[i + 1] == y;
    }
  }

  /** A head that nothing in a sorted tail ranks above keeps it sorted. */
  lemma ConsSorted<T>(h: T, rest: seq<T>, key: T -> Rank)
    requires SortedDesc(rest, key)
    requires forall y :: y in rest ==> !Above(key(y), key(h))
    ensures SortedDesc([h] + rest, key)
  {
    var r := [h] + rest;
    forall i, j | 0 <= i < j < |r| ensures !Above(key(r[j]), key(r[i])) {
      assert r[j] == rest[j - 1];
      if i == 0 {
        assert rest[j - 1] in rest;
      } else {
        assert r[i] == rest[i - 1];
      }
    }
  }

  /** Python's `sorted(s, key=key, reverse=True)`, as an insertion sort. */
  function SortDesc<T>(s: seq<T>, key: T -> Rank): (r: seq<T>)
    ensures |r| == |s|
    ensures SortedDesc(r, key)
    ensures multiset(r) == multiset(s)
  {
    if s == [] then []
    else
      assert s == [s[0]] + s[1..];
      Insert(s[0], SortDesc(s[1..], key), key)
  }

  /** The elements of rank `k` in `[h] + t`: `h` if it has that rank, then
      those of `t`. */
  lemma WithRankCons<T>(h: T, t: seq<T>, key: T -> Rank, k: Rank)
    ensures WithRank([h] + t, key, k) == (if key(h) == k then [h] else []) + WithRank(t, key, k)
  {
    assert ([h] + t)[0] == h && ([h] + t)[1..] == t;
  }

  lemma {:induction false} InsertStable<T>(x: T, s: seq<T>, key: T -> Rank, k: Rank)
    requires SortedDesc(s, key)
    ensures WithRank(Insert(x, s, key), key, k)
         == (if key(x) == k then [x] else []) + WithRank(s, key, k)
    decreases |s|
  {
    if s == [] || !Above(key(s[0]), key(x)) {
      WithRankCons(x, s, key, k);
    } else {
      var rest := Insert(x, s[1..], key);
      InsertStable(x, s[1..], key, k);
      WithRankCons(s[0], rest, key, k);
      WithRankCons(s[0], s[1..], key, k);
      assert s == [s[0]] + s[1..];
      assert key(s[0]) != key(x);
    }
  }

  /** The sort is stable: for every key value, the elements carrying it come
      out in the order they went in. */
  lemma {:induction false} SortDescStable<T>(s: seq<T>, key: T -> Rank, k: Rank)
    ensures WithRank(SortDesc(s, key), key, k) == WithRank(s, key, k)
  {
    if s != [] {
      SortDescStable(s[1..], key, k);
      InsertStable(s[0], SortDesc(s[1..], key), key, k);
    }
  }

  /** Python's `sorted(s, key=key, reverse=True)[:n]`. */
  function TopK<T>(s: seq<T>, key: T -> Rank, n: nat): seq<T> {
    SortDesc(s, key)[..Min(n, |s|)]
  }

  /** The top `n`: as many as fit, sorted, drawn from the input, and nothing
      left out ranks strictly above anything kept. */
  lemma TopKIsTop<T>(s: seq<T>, key: T -> Rank, n: nat)
    ensures |TopK(s, key, n)| == Min(n, |s|)
    ensures SortedDesc(TopK(s, key, n), key)
    ensures multiset(TopK(s, key, n)) <= multiset(s)
    ensures forall x, y :: x in multiset(s) - multiset(TopK(s, key, n)) && y in TopK(s, key, n)
              ==> !Above(key(x), key(y))
  {
    var sorted := SortDesc(s, key);
    var m := Min(n, |s|);
    SplitMultiset(sorted, m);
    SortedPrefix(sorted, key, m);
    PrefixIsTop(sorted, key, m);
  }

  lemma SplitMultiset<T>(s: seq<T>, m: nat)
    requires m <= |s|
    ensures multiset(s) == multiset(s[..m]) + multiset(s[m..])
  {
    assert s == s[..m] + s[m..];
  }

  lemma SortedPrefix<T>(s: seq<T>, key: T -> Rank, m: nat)
    requires SortedDesc(s, key) && m <= |s|
    ensures SortedDesc(s[..m], key)
  {
    forall i, j | 0 <= i < j < m ensures !Above(key(s[..m][j]), key(s[..m][i])) {
      assert s[..m][i] == s[i] && s[..m][j] == s[j];
    }
  }

  /** Nothing after a prefix of a sorted sequence ranks strictly above
      anything in the prefix. */
  lemma PrefixIsTop<T>(sorted: seq<T>, key: T -> Rank, m: nat)
    requires SortedDesc(sorted, key) && m <= |sorted|
    ensures forall x, y :: x in multiset(sorted) - multiset(sorted[..m]) && y in sorted[..m]
              ==> !Above(key(x), key(y))
  {
    var top, rest := sorted[..m], sorted[m..];
    SplitMultiset(sorted, m);
    forall x, y | x in multiset(sorted) - multiset(top) && y in top
      ensures !Above(key(x), key(y))
    {
      assert x in multiset(rest);
      var j :| 0 <= j < |rest| && rest[j] == x;
      var i :| 0 <= i < |top| && top[i] == y;
      assert sorted[i] == y && sorted[m + j] == x;
    }
  }

  /** Every element of a top-`n` selection is an element of the input. */
  lemma TopKMembers<T>(s: seq<T>, key: T -> Rank, n: nat, x: T)
    requires x in TopK(s, key, n)
    ensures x in s
  {
    TopKIsTop(s, key, n);
    assert x in multiset(TopK(s, key, n));
  }

  /** No two elements of `s` share a key. */
  predicate DistinctBy<T, K(==)>(s: seq<T>, key: T -> K) {
    forall i, j :: 0 <= i < j < |s| ==> key(s[i]) != key(s[j])
  }

  /** Distinct keys survive taking a sub-multiset, so a top-`n` selection of
      a list with distinct keys has distinct keys. */
  lemma DistinctBySubMultiset<T, K>(a: seq<T>, b: seq<T>, key: T -> K)
    requires multiset(a) <= multiset(b)
    requires DistinctBy(b, key)
    ensures DistinctBy(a, key)
  {
    DistinctOnce(b, key);
    forall i, j | 0 <= i < j < |a| ensures key(a[i]) != key(a[j]) {
      RepeatCountsTwice(a, i, j);
      assert a[i] != a[j];
      assert a[i] in multiset(b) && a[j] in multiset(b);
      var p :| 0 <= p < |b| && b[p] == a[i];
      var q :| 0 <= q < |b| && b[q] == a[j];
      assert p != q;
      if p < q {
        assert key(b[p]) != key(b[q]);
      } else {
        assert key(b[q]) != key(b[p]);
      }
    }
  }

  /** With distinct keys no element occurs twice. */
  lemma {:induction false} DistinctOnce<T, K>(s: seq<T>, key: T -> K)
    requires DistinctBy(s, key)
    ensures forall x :: multiset(s)[x] <= 1
  {
    if s != [] {
      var rest := s[1..];
      assert DistinctBy(rest, key) by {
        forall i, j | 0 <= i < j < |rest| ensures key(rest[i]) != key(rest[j]) {
          assert rest[i] == s[i + 1] && rest[j] == s[j + 1];
        }
      }
      DistinctOnce(rest, key);
      assert s == [s[0]] + rest;
      assert s[0] !in rest by {
        forall k | 0 <= k < |rest| ensures rest[k] != s[0] {
          assert key(s[0]) != key(s[k + 1]);
        }
      }
    }
  }

  /** An element found at two positions is counted at least twice. */
  lemma RepeatCountsTwice<T>(s: seq<T>, i: nat, j: nat)
    requires i < j < |s|
    ensures s[i] == s[j] ==> multiset(s)[s[i]] >= 2
  {
    assert s == s[..j] + [s[j]] + s[j + 1..];
    assert s[i] in s[..j];
  }
}

=== FILE: text.dfy ===
/** String primitives shared by the whole model. A string is a sequence of
    Unicode scalar values, as a Python `str` is; each primitive here mirrors
    the Python built-in the bot relies on (`in`, `lower`, `strip`, `join`,
    `split`, `replace`, slicing, `str(int)`). */
module Text {
  import opened Wrappers

  // ---------------------------------------------------------------------------
  // Character classes

  /** Python's `str.isspace()`, which is also what `strip()` removes and what
      the `\s` class of the `re` module matches. */
  predicate IsSpace(c: char) {
    || c == ' '
    || '\t' <= c <= '\r'
    || '\U{1C}' <= c <= '\U{1F}'
    || c == '\U{85}' || c == '\U{A0}' || c == '\U{1680}'
    || '\U{2000}' <= c <= '\U{200A}'
    || c == '\U{2028}' || c == '\U{2029}' || c == '\U{202F}'
    || c == '\U{205F}' || c == '\U{3000}'
  }

  predicate IsDigit(c: char) {
    '0' <= c <= '9'
  }

  predicate IsLetter(c: char) {
    'a' <= c <= 'z' || 'A' <= c <= 'Z'
  }

  /** The `\w` class of the `re` module: letters, digits and underscore. */
  predicate IsWordChar(c: char) {
    IsLetter(c) || IsDigit(c) || c == '_'
  }

  predicate AllDigits(s: string) {
    forall i :: 0 <= i < |s| ==> IsDigit(s[i])
  }

  // ---------------------------------------------------------------------------
  // Case

  function LowerChar(c: char): (r: char)
    ensures !('A' <= r <= 'Z')
    ensures IsLetter(c) <==> IsLetter(r)
    ensures IsDigit(c) <==> IsDigit(r)
  {
    if 'A' <= c <= 'Z' then (c as int + 32) as char else c
  }

  /** Python's `str.lower()`, on the ASCII letters. */
  function Lower(s: string): (r: string)
    ensures |r| == |s|
    ensures forall i :: 0 <= i < |s| ==> r[i] == LowerChar(s[i])
  {
    if s == [] then [] else [LowerChar(s[0])] + Lower(s[1..])
  }

  lemma LowerIdempotent(s: string)
    ensures Lower(Lower(s)) == Lower(s)
  {
  }

  // ---------------------------------------------------------------------------
  // Substrings

  predicate IsPrefix(p: string, s: string) {
    |p| <= |s| && s[..|p|] == p
  }

  predicate IsSuffix(p: string, s: string) {
    |p| <= |s| && s[|s| - |p|..] == p
  }

  /** `sub` occurs in `s` starting at index `i`. */
  predicate OccursAt(s: string, sub: string, i: int) {
    0 <= i && i + |sub| <= |s| && s[i..i + |sub|] == sub
  }

  /** The first index at or after `from` where `sub` occurs in `s`. */
  function FindFrom(s: string, sub: string, from: nat): (r: Option<nat>)
    ensures r.Some? ==> from <= r.value && OccursAt(s, sub, r.value)
    ensures r.Some? ==> forall k :: from <= k < r.value ==> !OccursAt(s, sub, k)
    ensures r.None? ==> forall k :: from <= k ==> !OccursAt(s, sub, k)
    decreases |s| - from
  {
    if from + |sub| > |s| then None
    else if s[from..from + |sub|] == sub then Some(from)
    else FindFrom(s, sub, from + 1)
  }

  /** Python's `s.find(sub)`, with `None` for -1. */
  function FindFirst(s: string, sub: string): (r: Option<nat>)
    ensures r.Some? ==> OccursAt(s, sub, r.value)
    ensures r.Some? ==> forall k :: 0 <= k < r.value ==> !OccursAt(s, sub, k)
    ensures r.None? ==> forall k :: !OccursAt(s, sub, k)
  {
    FindFrom(s, sub, 0)
  }

  /** Python's `sub in s`. */
  predicate Contains(s: string, sub: string) {
    FindFirst(s, sub).Some?
  }

  lemma ContainsAt(s: string, sub: string, i: int)
    requires OccursAt(s, sub, i)
    ensures Contains(s, sub)
  {
  }

  lemma ContainsSelf(s: string)
    ensures Contains(s, s)
  {
    assert OccursAt(s, s, 0);
  }

  /** Containment is transitive: a string containing `mid` contains every
      substring of `mid`. */
  lemma ContainsTransitive(s: string, mid: string, sub: string)
    requires Contains(s, mid) && Contains(mid, sub)
    ensures Contains(s, sub)
  {
    var i := FindFirst(s, mid).value;
    var j := FindFirst(mid, sub).value;
    assert mid == s[i..i + |mid|];
    forall k | 0 <= k < |sub|
      ensures s[i + j + k] == sub[k]
    {
      assert sub[k] == mid[j + k] == s[i..i + |mid|][j + k];
    }
    assert s[i + j..i + j + |sub|] == sub;
    assert OccursAt(s, sub, i + j);
  }

  /** An occurrence inside one part of a concatenation is an occurrence in the
      whole. */
  lemma ContainsInConcat(a: string, b: string, sub: string)
    ensures Contains(a, sub) ==> Contains(a + b, sub)
    ensures Contains(b, sub) ==> Contains(a + b, sub)
  {
    if Contains(a, sub) {
      var i := FindFirst(a, sub).value;
      assert (a + b)[i..i + |sub|] == a[i..i + |sub|];
      assert OccursAt(a + b, sub, i);
    }
    if Contains(b, sub) {
      var i := FindFirst(b, sub).value;
      assert (a + b)[|a| + i..|a| + i + |sub|] == b[i..i + |sub|];
      assert OccursAt(a + b, sub, |a| + i);
    }
  }

  /** Whether some word of `words` occurs in `text`: the bot's loops over a
      keyword list that stop at the first keyword found, so they fire once
      however many of the keywords occur. */
  function ContainsAny(text: string, words: seq<string>): (r: bool)
    ensures r <==> exists i :: 0 <= i < |words| && Contains(text, words[i])
  {
    if words == [] then false
    else if Contains(text, words[0]) then true
    else
      var rest := ContainsAny(text, words[1..]);
      assert forall i :: 1 <= i < |words| ==> words[i] == words[1..][i - 1];
      rest
  }

  /** Any predicate on characters that holds of every character of `s` holds
      of every character of a substring of `s`. */
  lemma OccursAtChars(s: string, sub: string, i: int, k: int)
    requires OccursAt(s, sub, i) && 0 <= k < |sub|
    ensures sub[k] == s[i + k]
  {
  }

  /** An optional string is truthy in Python when present and non-empty. */
  predicate Truthy(s: Option<string>) {
    s.Some? && s.value != ""
  }

  // ---------------------------------------------------------------------------
  // Python slicing

  /** Where Python's slice bound `n` lands in a sequence of length `len`: a
      negative bound counts from the end, and both ends are clamped. */
  function SliceBound(len: nat, n: int): (k: nat)
    ensures k <= len
    ensures 0 <= n <= len ==> k == n
    ensures n > len ==> k == len
    ensures n < 0 ==> k == Max(len + n, 0)
  {
    if n >= 0 then Min(n, len) else Max(len + n, 0)
  }

  /** Python's `s[:n]`. */
  function PyTake<T>(s: seq<T>, n: int): seq<T> {
    s[..SliceBound(|s|, n)]
  }

  /** Python's `s[n:]`. */
  function PyDrop<T>(s: seq<T>, n: int): seq<T> {
    s[SliceBound(|s|, n)..]
  }

  // ---------------------------------------------------------------------------
  // Stripping

  /** A non-empty sequence is its head before its tail. */
  lemma HeadTail<T>(s: seq<T>)
    requires s != []
    ensures s == [s[0]] + s[1..]
  {
  }

  /** How many leading characters of `s` satisfy `p`. */
  function LeadCount(s: string, p: char -> bool): (n: nat)
    ensures n <= |s|
    ensures forall k :: 0 <= k < n ==> p(s[k])
    ensures n < |s| ==> !p(s[n])
  {
    if s == [] || !p(s[0]) then 0 else 1 + LeadCount(s[1..], p)
  }

  /** How many trailing characters of `s` satisfy `p`. */
  function TrailCount(s: string, p: char -> bool): (n: nat)
    ensures n <= |s|
    ensures forall k :: |s| - n <= k < |s| ==> p(s[k])
    ensures n < |s| ==> !p(s[|s| - n - 1])
  {
    if s == [] || !p(s[|s| - 1]) then 0 else 1 + TrailCount(s[..|s| - 1], p)
  }

  /** Python's `s.strip(chars)`, where `p` says which characters are in
      `chars`: every leading and trailing character in the set goes. */
  function StripBy(s: string, p: char -> bool): (r: string)
    ensures |r| <= |s|
    ensures OccursAt(s, r, LeadCount(s, p))
    ensures forall k :: 0 <= k < LeadCount(s, p) ==> p(s[k])
    ensures forall k :: LeadCount(s, p) + |r| <= k < |s| ==> p(s[k])
    ensures |r| > 0 ==> !p(r[0]) && !p(r[|r| - 1])
  {
    var a := LeadCount(s, p);
    var t := s[a..];
    var b := TrailCount(t, p);
    assert t[..|t| - b] == s[a..a + (|t| - b)];
    t[..|t| - b]
  }

  /** Stripping a string whose ends are already kept changes nothing. */
  lemma StripByNothing(s: string, p: char -> bool)
    requires s != [] ==> !p(s[0]) && !p(s[|s| - 1])
    ensures StripBy(s, p) == s
  {
    if s != [] {
      assert LeadCount(s, p) == 0;
      assert s[0..] == s;
      assert TrailCount(s, p) == 0;
    }
  }

  /** Stripping twice is stripping once. */
  lemma StripIdempotent(s: string, p: char -> bool)
    ensures StripBy(StripBy(s, p), p) == StripBy(s, p)
  {
    StripByNothing(StripBy(s, p), p);
  }

  /** Python's `s.strip()`. */
  function Strip(s: string): string {
    StripBy(s, IsSpace)
  }

  // ---------------------------------------------------------------------------
  // Join, split and replace

  /** The lines `enumerate(xs, first)` produces through `line`. */
  function Numbered<T>(xs: seq<T>, first: nat, line: (nat, T) -> string): (r: seq<string>)
    ensures |r| == |xs|
    ensures forall i :: 0 <= i < |xs| ==> r[i] == line(first + i, xs[i])
  {
    if xs == [] then []
    else [line(first, xs[0])] + Numbered(xs[1..], first + 1, line)
  }

  /** Python's `sep.join(parts)`. */
  function Join(parts: seq<string>, sep: string): string {
    if |parts| == 0 then ""
    else if |parts| == 1 then parts[0]
    else parts[0] + sep + Join(parts[1..], sep)
  }

  /** Each part of a join appears in the joined text. */
  lemma {:induction false} JoinContainsParts(parts: seq<string>, sep: string, i: int)
    requires 0 <= i < |parts|
    ensures Contains(Join(parts, sep), parts[i])
    decreases |parts|
  {
    if |parts| == 1 {
      ContainsSelf(parts[0]);
    } else if i == 0 {
      ContainsSelf(parts[0]);
      ContainsInConcat(parts[0], sep + Join(parts[1..], sep), parts[0]);
      assert parts[0] + sep + Join(parts[1..], sep) == parts[0] + (sep + Join(parts[1..], sep));
    } else {
      JoinContainsParts(parts[1..], sep, i - 1);
      ContainsInConcat(parts[0] + sep, Join(parts[1..], sep), parts[i]);
    }
  }

  /** A join of two or more parts starts with the first part and a
      separator. */
  lemma JoinStartsWith(parts: seq<string>, sep: string)
    requires |parts| >= 2
    ensures IsPrefix(parts[0] + sep, Join(parts, sep))
  {
    assert Join(parts, sep) == (parts[0] + sep) + Join(parts[1..], sep);
  }

  /** Every part of a run inside a join appears in the joined text. */
  lemma JoinContainsRun(front: seq<string>, mid: seq<string>, back: seq<string>, sep: string)
    ensures forall i :: 0 <= i < |mid| ==> Contains(Join(front + mid + back, sep), mid[i])
  {
    var parts := front + mid + back;
    forall i | 0 <= i < |mid| ensures Contains(Join(parts, sep), mid[i]) {
      assert parts[|front| + i] == mid[i];
      JoinContainsParts(parts, sep, |front| + i);
    }
  }

  /** Joining the first `k` parts gives a prefix of joining them all. */
  lemma {:induction false} JoinTakePrefix(parts: seq<string>, sep: string, k: nat)
    requires k <= |parts|
    ensures IsPrefix(Join(parts[..k], sep), Join(parts, sep))
    decreases k
  {
    if k == 0 {
    } else if k == |parts| {
      assert parts[..k] == parts;
    } else if k == 1 {
      assert parts[..1] == [parts[0]];
      assert Join(parts, sep) == parts[0] + (sep + Join(parts[1..], sep));
    } else {
      JoinTakePrefix(parts[1..], sep, k - 1);
      assert parts[..k][1..] == parts[1..][..k - 1];
      assert parts[..k][0] == parts[0];
      assert Join(parts[..k], sep) == parts[0] + sep + Join(parts[1..][..k - 1], sep);
    }
  }

  /** A join ends with its last part. */
  lemma {:induction false} JoinEndsWith(parts: seq<string>, sep: string)
    requires |parts| >= 1
    ensures IsSuffix(parts[|parts| - 1], Join(parts, sep))
    decreases |parts|
  {
    if |parts| > 1 {
      JoinEndsWith(parts[1..], sep);
      var tail := Join(parts[1..], sep);
      assert Join(parts, sep) == (parts[0] + sep) + tail;
    }
  }

  /** Every run of leading parts, joined, is a prefix of the whole join. */
  lemma JoinPrefixes(parts: seq<string>, sep: string)
    ensures forall k :: 0 <= k <= |parts| ==> IsPrefix(Join(parts[..k], sep), Join(parts, sep))
  {
    forall k | 0 <= k <= |parts| ensures IsPrefix(Join(parts[..k], sep), Join(parts, sep)) {
      JoinTakePrefix(parts, sep, k);
    }
  }

  /** A prefix that ends before the first occurrence does not contain it. */
  lemma NotInPrefix(s: string, sub: string, i: nat)
    requires i <= |s| && |sub| > 0
    requires forall k :: 0 <= k < i ==> !OccursAt(s, sub, k)
    ensures !Contains(s[..i], sub)
  {
    forall k | OccursAt(s[..i], sub, k) ensures false {
      assert k + |sub| <= i;
      assert s[..i][k..k + |sub|] == s[k..k + |sub|];
      assert OccursAt(s, sub, k);
    }
  }

  /** Python's `s.split(sep)` for a non-empty separator: the pieces between
      the successive leftmost non-overlapping occurrences of `sep`. */
  function Split(s: string, sep: string): (r: seq<string>)
    requires |sep| > 0
    ensures |r| >= 1
    ensures Join(r, sep) == s
    ensures forall k :: 0 <= k < |r| ==> !Contains(r[k], sep)
    decreases |s|
  {
    match FindFirst(s, sep)
    case None => [s]
    case Some(i) =>
      var head := s[..i];
      NotInPrefix(s, sep, i);
      var rest := Split(s[i + |sep|..], sep);
      assert s == head + sep + s[i + |sep|..] by {
        assert s[i..i + |sep|] == sep;
        assert s == s[..i] + s[i..i + |sep|] + s[i + |sep|..];
      }
      [head] + rest
  }

  /** Text without the separator is a single piece. */
  lemma SplitSingle(p: string, sep: string)
    requires |sep| > 0 && !Contains(p, sep)
    ensures Split(p, sep) == [p]
  {
  }

  /** Joining the first `k` pieces of a split and splitting again gives
      those pieces back. */
  lemma {:induction false} SplitJoinPrefix(s: string, sep: string, k: nat)
    requires |sep| > 0 && 1 <= k <= |Split(s, sep)|
    ensures Split(Join(Split(s, sep)[..k], sep), sep) == Split(s, sep)[..k]
    decreases |s|
  {
    var parts := Split(s, sep);
    match FindFirst(s, sep)
    case None =>
      assert parts == [s];
      assert parts[..k] == [s];
      assert Join([s], sep) == s;
    case Some(i) =>
      if k == 1 {
        SplitJoinFirst(s, sep, i);
      } else {
        SplitJoinPrefix(s[i + |sep|..], sep, k - 1);
        SplitJoinCons(s, sep, i, k);
      }
  }

  /** The base case of `SplitJoinPrefix` when the separator occurs: the
      first piece alone splits back to itself. */
  lemma SplitJoinFirst(s: string, sep: string, i: nat)
    requires |sep| > 0 && FindFirst(s, sep) == Some(i)
    ensures Split(Join(Split(s, sep)[..1], sep), sep) == Split(s, sep)[..1]
  {
    SplitAt(s, sep, i);
    var parts := Split(s, sep);
    assert parts[..1] == [s[..i]];
    assert Join([s[..i]], sep) == s[..i];
    assert !Contains(parts[0], sep);
    SplitSingle(s[..i], sep);
  }

  /** The step of `SplitJoinPrefix` when the separator occurs: from the
      claim for the rest after the first occurrence to the claim for the
      whole text. */
  lemma SplitJoinCons(s: string, sep: string, i: nat, k: nat)
    requires |sep| > 0 && FindFirst(s, sep) == Some(i)
    requires 2 <= k <= |Split(s, sep)|
    requires Split(Join(Split(s[i + |sep|..], sep)[..k - 1], sep), sep) == Split(s[i + |sep|..], sep)[..k - 1]
    ensures Split(Join(Split(s, sep)[..k], sep), sep) == Split(s, sep)[..k]
  {
    SplitAt(s, sep, i);
    var tailParts := Split(s[i + |sep|..], sep)[..k - 1];
    PrefixCons(Split(s, sep), s[..i], Split(s[i + |sep|..], sep), k);
    JoinCons(s[..i], tailParts, sep);
    SplitJoinStep(s, sep, i, tailParts);
  }

  /** The first `k` items of a list with a given head. */
  lemma PrefixCons<T>(xs: seq<T>, head: T, tail: seq<T>, k: nat)
    requires xs == [head] + tail && 2 <= k <= |xs|
    ensures xs[..k] == [head] + tail[..k - 1]
  {
  }

  /** The inductive step of `SplitJoinPrefix`: in the first piece of a
      split followed by the separator and a join that splits back, the
      first occurrence is where it was, and the rest splits back. */
  lemma SplitJoinStep(s: string, sep: string, i: nat, tail: seq<string>)
    requires |sep| > 0 && FindFirst(s, sep) == Some(i) && Split(Join(tail, sep), sep) == tail
    ensures Split(s[..i] + sep + Join(tail, sep), sep) == [s[..i]] + tail
  {
    var u := Join(tail, sep);
    var t := s[..i] + sep + u;
    assert OccursAt(s, sep, i);
    assert t[..i + |sep|] == s[..i + |sep|];
    SameFirstOccurrence(s, t, sep, i);
    SplitAt(t, sep, i);
    assert t[..i] == s[..i] && t[i + |sep|..] == u;
  }

  /** A split at a first occurrence: the piece before it, then the split
      of the rest. */
  lemma SplitAt(s: string, sep: string, i: nat)
    requires |sep| > 0 && FindFirst(s, sep) == Some(i)
    ensures Split(s, sep) == [s[..i]] + Split(s[i + |sep|..], sep)
  {
  }

  /** No proper prefix of `sep` is also its suffix, so two occurrences of
      `sep` cannot overlap (", " is unbordered; "aa" is not). */
  predicate Unbordered(sep: string) {
    forall m :: 0 < m < |sep| ==> sep[m..] != sep[..|sep| - m]
  }

  /** Splitting a join gives the parts back when no part holds the
      separator and the separator cannot overlap itself. */
  lemma {:induction false} SplitOfJoin(parts: seq<string>, sep: string)
    requires |sep| > 0 && Unbordered(sep) && |parts| >= 1
    requires forall k :: 0 <= k < |parts| ==> !Contains(parts[k], sep)
    ensures Split(Join(parts, sep), sep) == parts
    decreases |parts|
  {
    if |parts| == 1 {
      SplitSingle(parts[0], sep);
    } else {
      var u := Join(parts[1..], sep);
      var s := parts[0] + sep + u;
      assert Join(parts, sep) == s;
      FirstOccurrenceAfterPart(parts[0], sep, u);
      SplitAt(s, sep, |parts[0]|);
      assert s[..|parts[0]|] == parts[0] && s[|parts[0]| + |sep|..] == u;
      SplitOfJoin(parts[1..], sep);
      assert parts == [parts[0]] + parts[1..];
    }
  }

  /** In a part without the separator, followed by an unbordered separator,
      the first occurrence is that separator. */
  lemma FirstOccurrenceAfterPart(p: string, sep: string, u: string)
    requires |sep| > 0 && Unbordered(sep) && !Contains(p, sep)
    ensures FindFirst(p + sep + u, sep) == Some(|p|)
  {
    var s := p + sep + u;
    assert s[|p|..|p| + |sep|] == sep;
    assert OccursAt(s, sep, |p|);
    forall j | 0 <= j < |p| ensures !OccursAt(s, sep, j) {
      if OccursAt(s, sep, j) {
        if j + |sep| <= |p| {
          assert s[j..j + |sep|] == p[j..j + |sep|];
          ContainsAt(p, sep, j);
        } else {
          BorderOfStraddle(p, sep, u, j);
        }
      }
    }
  }

  /** An occurrence that starts inside `p` and runs into the separator after
      it would make the separator bordered. */
  lemma BorderOfStraddle(p: string, sep: string, u: string, j: nat)
    requires j < |p| < j + |sep| && OccursAt(p + sep + u, sep, j)
    ensures !Unbordered(sep)
  {
    var s := p + sep + u;
    var m := |p| - j;
    forall k | 0 <= k < |sep| - m ensures sep[m..][k] == sep[..|sep| - m][k] {
      assert sep[m + k] == s[j..j + |sep|][m + k] == s[|p| + k] == sep[k];
    }
    assert sep[m..] == sep[..|sep| - m];
  }

  /** Without the unbordered separator the round trip fails: "a" and "b"
      joined by "aa" split into "" and "ab". */
  lemma BorderedSeparatorBreaksSplit()
    ensures Join(["a", "b"], "aa") == "aaab"
    ensures Split("aaab", "aa") == ["", "ab"]
  {
    var s := "aaab";
    assert s[0..2] == "aa";
    assert OccursAt(s, "aa", 0);
    SplitAt(s, "aa", 0);
    assert s[..0] == "" && s[2..] == "ab";
    SplitWithoutSeparator();
  }

  lemma SplitWithoutSeparator()
    ensures Split("ab", "aa") == ["ab"]
  {
    var t := "ab";
    forall k ensures !OccursAt(t, "aa", k) {
      if 0 <= k && k + 2 <= |t| {
        assert t[k..k + 2][1] == 'b';
      }
    }
    SplitSingle(t, "aa");
  }

  /** Concatenation regroups freely. */
  lemma Assoc<T>(a: seq<T>, b: seq<T>, c: seq<T>)
    ensures a + b + c == a + (b + c)
  {
  }

  /** A join of a piece in front of at least one more. */
  lemma JoinCons(head: string, tail: seq<string>, sep: string)
    requires |tail| >= 1
    ensures Join([head] + tail, sep) == head + sep + Join(tail, sep)
  {
    assert ([head] + tail)[1..] == tail;
  }

  /** Two texts that agree up to the end of the first occurrence have that
      occurrence first. */
  lemma SameFirstOccurrence(s: string, t: string, sep: string, i: nat)
    requires FindFirst(s, sep) == Some(i) && i + |sep| <= |t| && t[..i + |sep|] == s[..i + |sep|]
    ensures FindFirst(t, sep) == Some(i)
  {
    assert OccursAt(s, sep, i);
    forall j | 0 <= j < i ensures !OccursAt(t, sep, j) {
      assert !OccursAt(s, sep, j);
      SliceOfSharedPrefix(s, t, i + |sep|, j, j + |sep|);
    }
    SliceOfSharedPrefix(s, t, i + |sep|, i, i + |sep|);
    assert OccursAt(t, sep, i);
  }

  /** Two sequences with the same first `n` items agree on every slice
      inside them. */
  lemma SliceOfSharedPrefix<T>(a: seq<T>, b: seq<T>, n: nat, j: nat, m: nat)
    requires j <= m <= n <= |a| && n <= |b| && a[..n] == b[..n]
    ensures a[j..m] == b[j..m]
  {
    forall k | j <= k < m ensures a[k] == b[k] {
      assert a[k] == a[..n][k] && b[k] == b[..n][k];
    }
    assert |a[j..m]| == |b[j..m]|;
    assert forall k :: 0 <= k < m - j ==> a[j..m][k] == a[j + k] && b[j..m][k] == b[j + k];
  }

  /** Python's `s.replace(c, rep)` for a one-character pattern. */
  function ReplaceChar(s: string, c: char, rep: string): (r: string)
    ensures c !in rep ==> c !in r
    ensures forall x :: x in r ==> x in s || x in rep
  {
    if s == [] then []
    else (if s[0] == c then rep else [s[0]]) + ReplaceChar(s[1..], c, rep)
  }

  // ---------------------------------------------------------------------------
  // Decimal numbers

  function DigitChar(d: nat): (c: char)
    requires d < 10
    ensures IsDigit(c)
  {
    ('0' as int + d) as char
  }

  function DigitValue(c: char): (d: nat)
    requires IsDigit(c)
    ensures d < 10
  {
    c as int - '0' as int
  }

  /** Python's `str(n)` for a natural number. */
  function NatToString(n: nat): (r: string)
    ensures |r| >= 1 && AllDigits(r)
    ensures |r| > 1 ==> r[0] != '0'
  {
    if n < 10 then [DigitChar(n)] else NatToString(n / 10) + [DigitChar(n % 10)]
  }

  /** Python's `str(i)`, and the `{i}` of an f-string, for an integer. */
  function IntToString(i: int): string {
    if i < 0 then "-" + NatToString(-i) else NatToString(i)
  }

  /** Python's `int(s)` on a string of decimal digits. */
  function DigitsValue(s: string): nat
    requires AllDigits(s)
  {
    if s == [] then 0 else DigitsValue(s[..|s| - 1]) * 10 + DigitValue(s[|s| - 1])
  }

  /** Reading back the decimal rendering of a number gives the number. */
  lemma {:induction false} DigitsValueOfNatToString(n: nat)
    ensures DigitsValue(NatToString(n)) == n
  {
    if n >= 10 {
      var s := NatToString(n);
      assert s[..|s| - 1] == NatToString(n / 10);
      DigitsValueOfNatToString(n / 10);
    }
  }
}

=== FILE: video.dfy ===
/** The video reader of services/video_analysis.py: the checks an upload
    must pass, the per-frame analysis, and the two ways it merges title
    candidates. The candidates seen across frames accumulate: each repeat
    sighting raises the confidence and counts a frame. The final merge
    keeps the single best entry per title. Both merges go through a Python
    dict keyed by the lower-cased title, so the results keep the order in
    which titles were first seen; here that dict is a sequence with
    distinct keys. */
module VideoAnalysis {
  import opened Wrappers
  import opened Text
  import Config
  import Ranking
  import Helpers
  import ImageAnalysis

  // ---------------------------------------------------------------------------
  // _validate_video

  datatype Validation = Valid(format: string, size: nat) | Invalid(error: string)

  const TooLargeError: string := "Video file too large (max 20MB)"
  const TooSmallError: string := "Video file appears to be corrupted or too small"

  function UnsupportedError(): string {
    "Unsupported video format. Supported: " + Join(Config.SupportedVideoFormats, ", ")
  }

  /** The extension `os.path.splitext` finds in the lower-cased name. */
  function VideoExtension(filename: string): (r: string)
    ensures IsSuffix(r, Lower(filename))
    ensures r == [] || (r[0] == '.' && '.' !in r[1..] && '/' !in r)
  {
    var (root, ext) := Helpers.SplitExt(Lower(filename));
    assert Lower(filename)[|root|..] == ext;
    ext
  }

  /** A name, a dot and a dot-free, slash-free tail has that tail,
      lower-cased and with its dot, as its extension: "Clip.MP4" is ".mp4". */
  lemma VideoExtensionOf(stem: string, e: string)
    requires '.' !in e && '/' !in e && Helpers.NamedStem(stem)
    ensures VideoExtension(stem + "." + e) == "." + Lower(e)
  {
    Helpers.FileExtensionOf(stem, e);
  }

  /** The first failing check decides: the 20 MB limit, then the
      extension, then the 1 KB floor. */
  function ValidateVideo(size: nat, filename: string): (r: Validation)
    ensures size > Config.MaxFileSize ==> r == Invalid(TooLargeError)
    ensures size <= Config.MaxFileSize && VideoExtension(filename) !in Config.SupportedVideoFormats
            ==> r == Invalid(UnsupportedError())
    ensures size <= Config.MaxFileSize && VideoExtension(filename) in Config.SupportedVideoFormats && size < 1024
            ==> r == Invalid(TooSmallError)
    ensures r.Valid? <==> 1024 <= size <= Config.MaxFileSize && VideoExtension(filename) in Config.SupportedVideoFormats
    ensures r.Valid? ==> r.format in Config.SupportedVideoFormats && IsSuffix(r.format, Lower(filename)) && r.size == size
  {
    var ext := VideoExtension(filename);
    if size > Config.MaxFileSize then Invalid(TooLargeError)
    else if ext !in Config.SupportedVideoFormats then Invalid(UnsupportedError())
    else if size < 1024 then Invalid(TooSmallError)
    else Valid(ext, size)
  }

  /** The size limit is `validate_file_size` against the configured maximum:
      an upload is rejected as too large exactly when that check fails. */
  lemma TooLargeIsFileSizeCheck(size: nat, filename: string)
    ensures ValidateVideo(size, filename) == Invalid(TooLargeError) <==> !Helpers.ValidateFileSize(size, Config.MaxFileSize)
  {
    assert TooLargeError[0] != UnsupportedError()[0];
    assert TooLargeError[11] != TooSmallError[11];
  }

  // ---------------------------------------------------------------------------
  // Candidates keyed by lower-cased title

  /** A merged candidate. Entries that come from audio clues carry no frame
      count in the source; here they carry 0. */
  datatype VideoCandidate = VideoCandidate(title: string, confidence: real, frameCount: nat, source: string)

  function KeyOf(c: VideoCandidate): string {
    Lower(c.title)
  }

  /** The position of `key` in a dict modelled as a sequence. */
  function FindKey(s: seq<VideoCandidate>, key: string): (r: Option<nat>)
    ensures r.Some? ==> r.value < |s| && KeyOf(s[r.value]) == key
    ensures r.None? ==> forall i :: 0 <= i < |s| ==> KeyOf(s[i]) != key
  {
    if s == [] then None
    else if KeyOf(s[0]) == key then Some(0)
    else match FindKey(s[1..], key)
      case None => None
      case Some(i) => Some(i + 1)
  }

  /** The dict's `d.get(key)`. */
  function Lookup(s: seq<VideoCandidate>, key: string): Option<VideoCandidate> {
    match FindKey(s, key)
    case None => None
    case Some(i) => Some(s[i])
  }

  /** With distinct keys, each entry is what its key looks up. */
  lemma LookupFindsEntry(s: seq<VideoCandidate>, i: nat)
    requires Ranking.DistinctBy(s, KeyOf) && i < |s|
    ensures Lookup(s, KeyOf(s[i])) == Some(s[i])
  {
    var j := FindKey(s, KeyOf(s[i])).value;
    assert KeyOf(s[j]) == KeyOf(s[i]);
    assert j == i;
  }

  /** Adding a new key at the end. */
  lemma LookupAppend(s: seq<VideoCandidate>, x: VideoCandidate)
    requires Ranking.DistinctBy(s, KeyOf) && Lookup(s, KeyOf(x)).None?
    ensures Ranking.DistinctBy(s + [x], KeyOf)
    ensures forall k :: Lookup(s + [x], k) == if k == KeyOf(x) then Some(x) else Lookup(s, k)
  {
    var t := s + [x];
    forall k ensures Lookup(t, k) == if k == KeyOf(x) then Some(x) else Lookup(s, k) {
      if k == KeyOf(x) {
        LookupFindsEntry(t, |s|);
      } else if FindKey(s, k).Some? {
        LookupFindsEntry(t, FindKey(s, k).value);
      } else {
        assert forall i :: 0 <= i < |t| ==> KeyOf(t[i]) != k;
      }
    }
  }

  /** Replacing the value stored under an existing key. */
  lemma LookupReplace(s: seq<VideoCandidate>, i: nat, x: VideoCandidate)
    requires Ranking.DistinctBy(s, KeyOf) && i < |s| && KeyOf(x) == KeyOf(s[i])
    ensures Ranking.DistinctBy(s[i := x], KeyOf)
    ensures forall k :: Lookup(s[i := x], k) == if k == KeyOf(x) then Some(x) else Lookup(s, k)
  {
    var t := s[i := x];
    forall k ensures Lookup(t, k) == if k == KeyOf(x) then Some(x) else Lookup(s, k) {
      if k == KeyOf(x) {
        LookupFindsEntry(t, i);
      } else if FindKey(s, k).Some? {
        LookupFindsEntry(t, FindKey(s, k).value);
      } else {
        assert forall j :: 0 <= j < |t| ==> KeyOf(t[j]) != k;
      }
    }
  }

  // ---------------------------------------------------------------------------
  // _combine_frame_results

  /** What one sighting makes of the entry stored under its title: a new
      entry with one frame, or the old one with its first spelling, 0.3 of
      the new confidence added (capped at 1) and one more frame. */
  function Sighted(prev: Option<VideoCandidate>, m: ImageAnalysis.Candidate): VideoCandidate {
    match prev
    case None => VideoCandidate(m.title, m.confidence, 1, "video_frames")
    case Some(c) => c.(confidence := MinReal(c.confidence + m.confidence * 0.3, 1.0), frameCount := c.frameCount + 1)
  }

  /** One sighting: a new title goes at the end, a known one is updated in
      its place. */
  function Observe(acc: seq<VideoCandidate>, m: ImageAnalysis.Candidate): seq<VideoCandidate> {
    match FindKey(acc, Lower(m.title))
    case None => acc + [Sighted(None, m)]
    case Some(i) => acc[i := Sighted(Some(acc[i]), m)]
  }

  /** The dict after all sightings, in order. */
  function Accumulate(sightings: seq<ImageAnalysis.Candidate>): seq<VideoCandidate> {
    if sightings == [] then []
    else Observe(Accumulate(sightings[..|sightings| - 1]), sightings[|sightings| - 1])
  }

  /** A sighting changes only the entry under its own title. */
  lemma ObserveLookup(acc: seq<VideoCandidate>, m: ImageAnalysis.Candidate)
    requires Ranking.DistinctBy(acc, KeyOf)
    ensures Ranking.DistinctBy(Observe(acc, m), KeyOf)
    ensures forall k :: Lookup(Observe(acc, m), k)
                        == if k == Lower(m.title) then Some(Sighted(Lookup(acc, k), m)) else Lookup(acc, k)
  {
    match FindKey(acc, Lower(m.title))
    case None =>
      LookupAppend(acc, Sighted(None, m));
    case Some(i) =>
      LookupFindsEntry(acc, i);
      LookupReplace(acc, i, Sighted(Some(acc[i]), m));
  }

  /** How many sightings carry the key. */
  function CountKey(sightings: seq<ImageAnalysis.Candidate>, key: string): (n: nat)
    ensures n <= |sightings|
    ensures n == 0 <==> forall j :: 0 <= j < |sightings| ==> Lower(sightings[j].title) != key
  {
    if sightings == [] then 0
    else
      var last := |sightings| - 1;
      CountKey(sightings[..last], key) + if Lower(sightings[last].title) == key then 1 else 0
  }

  /** The index of the first sighting that carries the key. */
  function FirstIndex(sightings: seq<ImageAnalysis.Candidate>, key: string): (r: Option<nat>)
    ensures r.None? <==> forall j :: 0 <= j < |sightings| ==> Lower(sightings[j].title) != key
    ensures r.Some? ==> r.value < |sightings| && Lower(sightings[r.value].title) == key
                        && forall j :: 0 <= j < r.value ==> Lower(sightings[j].title) != key
  {
    if sightings == [] then None
    else
      var last := |sightings| - 1;
      assert forall j :: 0 <= j < last ==> sightings[..last][j] == sightings[j];
      match FirstIndex(sightings[..last], key)
      case Some(j) => Some(j)
      case None => if Lower(sightings[last].title) == key then Some(last) else None
  }

  /** The tally for one title: the dict has an entry for it exactly when
      it was sighted, the entry's frame count is the number of sightings,
      its spelling is that of the first sighting, and it came from the
      frames. */
  lemma {:induction false} AccumulateTallyAt(sightings: seq<ImageAnalysis.Candidate>, k: string)
    ensures Ranking.DistinctBy(Accumulate(sightings), KeyOf)
    ensures Lookup(Accumulate(sightings), k).Some? <==> CountKey(sightings, k) > 0
    ensures Lookup(Accumulate(sightings), k).Some? ==>
              && Lookup(Accumulate(sightings), k).value.frameCount == CountKey(sightings, k)
              && Lookup(Accumulate(sightings), k).value.title == sightings[FirstIndex(sightings, k).value].title
              && Lookup(Accumulate(sightings), k).value.source == "video_frames"
  {
    if sightings != [] {
      var last := |sightings| - 1;
      AccumulateTallyAt(sightings[..last], k);
      ObserveLookup(Accumulate(sightings[..last]), sightings[last]);
    }
  }

  /** The tally for every title at once. */
  lemma AccumulateTally(sightings: seq<ImageAnalysis.Candidate>)
    ensures Ranking.DistinctBy(Accumulate(sightings), KeyOf)
    ensures forall k :: Lookup(Accumulate(sightings), k).Some? <==> CountKey(sightings, k) > 0
    ensures forall k :: Lookup(Accumulate(sightings), k).Some? ==>
              && Lookup(Accumulate(sightings), k).value.frameCount == CountKey(sightings, k)
              && Lookup(Accumulate(sightings), k).value.title == sightings[FirstIndex(sightings, k).value].title
              && Lookup(Accumulate(sightings), k).value.source == "video_frames"
  {
    AccumulateTallyAt(sightings, "");
    forall k ensures Lookup(Accumulate(sightings), k).Some? <==> CountKey(sightings, k) > 0 {
      AccumulateTallyAt(sightings, k);
    }
    forall k | Lookup(Accumulate(sightings), k).Some?
      ensures && Lookup(Accumulate(sightings), k).value.frameCount == CountKey(sightings, k)
              && Lookup(Accumulate(sightings), k).value.title == sightings[FirstIndex(sightings, k).value].title
              && Lookup(Accumulate(sightings), k).value.source == "video_frames"
    {
      AccumulateTallyAt(sightings, k);
    }
  }

  /** Confidences stay within [0, 1] when every sighting's does. */
  lemma {:induction false} AccumulateBounded(sightings: seq<ImageAnalysis.Candidate>)
    requires forall j :: 0 <= j < |sightings| ==> 0.0 <= sightings[j].confidence <= 1.0
    ensures forall i :: 0 <= i < |Accumulate(sightings)| ==> 0.0 <= Accumulate(sightings)[i].confidence <= 1.0
  {
    if sightings != [] {
      var last := |sightings| - 1;
      AccumulateBounded(sightings[..last]);
      var m := sightings[last];
      assert 0.0 <= m.confidence * 0.3;
    }
  }

  /** Seen at 0.5 and then at 0.4, a title ends at 0.5 + 0.4 * 0.3 = 0.62
      over two frames, with the first spelling. */
  lemma TwoSightings(a: ImageAnalysis.Candidate, b: ImageAnalysis.Candidate)
    requires Lower(a.title) == Lower(b.title)
    requires a.confidence == 0.5 && b.confidence == 0.4
    ensures Accumulate([a, b]) == [VideoCandidate(a.title, 0.62, 2, "video_frames")]
  {
    assert [a, b][..1] == [a];
    assert [a][..0] == [];
    assert Accumulate([]) == [];
    assert FindKey([], Lower(a.title)) == None;
    var acc := Accumulate([a]);
    assert acc == [Sighted(None, a)];
    assert FindKey(acc, Lower(b.title)) == Some(0);
  }

  /** Every candidate the frames produced, frame by frame. */
  function Sightings(results: seq<ImageAnalysis.Analysis>): seq<ImageAnalysis.Candidate> {
    if results == [] then [] else results[0].potentialMovies + Sightings(results[1..])
  }

  function ByConfidenceThenFrames(c: VideoCandidate): Ranking.Rank {
    Ranking.Rank(c.confidence, c.frameCount)
  }

  /** At most three merged candidates with distinct titles, ordered by
      confidence and then frame count, with nothing left out ranking above
      anything kept. */
  function CombineFrameResults(results: seq<ImageAnalysis.Analysis>): (r: seq<VideoCandidate>)
    ensures |r| == Min(3, |Accumulate(Sightings(results))|)
    ensures Ranking.SortedDesc(r, ByConfidenceThenFrames)
    ensures Ranking.DistinctBy(r, KeyOf)
    ensures forall c :: c in r ==> c in Accumulate(Sightings(results))
    ensures forall c, d :: (c in Accumulate(Sightings(results)) && d in r
                            && Ranking.Above(ByConfidenceThenFrames(c), ByConfidenceThenFrames(d))) ==> c in r
  {
    var all := Accumulate(Sightings(results));
    var top := Ranking.TopK(all, ByConfidenceThenFrames, 3);
    Ranking.TopKIsTop(all, ByConfidenceThenFrames, 3);
    AccumulateTally(Sightings(results));
    Ranking.DistinctBySubMultiset(top, all, KeyOf);
    forall c | c in top ensures c in all {
      Ranking.TopKMembers(all, ByConfidenceThenFrames, 3, c);
    }
    forall c, d | c in all && d in top && Ranking.Above(ByConfidenceThenFrames(c), ByConfidenceThenFrames(d))
      ensures c in top
    {
      assert c in multiset(all) - multiset(top) ==> !Ranking.Above(ByConfidenceThenFrames(c), ByConfidenceThenFrames(d));
      assert c in multiset(top);
    }
    top
  }

  // ---------------------------------------------------------------------------
  // _analyze_frames

  /** The frame stage's result: merged candidates, how many frames were
      analysed successfully, and the overall confidence 0.0 that only the
      no-frames answer reports. */
  datatype FrameAnalysis = FrameAnalysis(potentialMovies: seq<VideoCandidate>, framesAnalyzed: nat, confidence: Option<real>)

  /** The analyses that succeeded, in frame order. */
  function Succeeded(outcomes: seq<ImageAnalysis.AnalysisOutcome>): (r: seq<ImageAnalysis.Analysis>)
    ensures |r| <= |outcomes|
    ensures forall a :: a in r ==> ImageAnalysis.Analysed(a) in outcomes
    ensures |r| == |outcomes| <==> forall i :: 0 <= i < |outcomes| ==> outcomes[i].Analysed?
    ensures r == [] <==> forall i :: 0 <= i < |outcomes| ==> outcomes[i].AnalysisFailed?
  {
    if outcomes == [] then []
    else
      (match outcomes[0] case Analysed(a) => [a] case AnalysisFailed(_) => []) + Succeeded(outcomes[1..])
  }

  /** The successes of two outcome lists in a row are those of the first
      followed by those of the second, so order and copies are kept. One
      outcome gives its analysis when it succeeded and nothing otherwise. */
  lemma {:induction false} SucceededConcat(xs: seq<ImageAnalysis.AnalysisOutcome>, ys: seq<ImageAnalysis.AnalysisOutcome>)
    ensures Succeeded(xs + ys) == Succeeded(xs) + Succeeded(ys)
    ensures |xs| == 1 && xs[0].Analysed? ==> Succeeded(xs) == [xs[0].analysis]
    ensures |xs| == 1 && xs[0].AnalysisFailed? ==> Succeeded(xs) == []
    decreases |xs|
  {
    if xs == [] {
      assert xs + ys == ys;
    } else {
      var zs := xs + ys;
      assert zs[0] == xs[0] && zs[1..] == xs[1..] + ys;
      SucceededCons(zs);
      SucceededConcat(xs[1..], ys);
      SucceededCons(xs);
      Assoc(SucceededOne(xs[0]), Succeeded(xs[1..]), Succeeded(ys));
      if |xs| == 1 {
        assert xs[1..] == [];
      }
    }
  }

  /** What one outcome contributes to `Succeeded`. */
  function SucceededOne(o: ImageAnalysis.AnalysisOutcome): seq<ImageAnalysis.Analysis> {
    match o case Analysed(a) => [a] case AnalysisFailed(_) => []
  }

  lemma SucceededCons(xs: seq<ImageAnalysis.AnalysisOutcome>)
    requires xs != []
    ensures Succeeded(xs) == SucceededOne(xs[0]) + Succeeded(xs[1..])
  {
  }

  /** The frames actually analysed: at most the first five. */
  function Analysed5<F>(frames: seq<F>): (r: seq<F>)
    ensures |r| <= 5 && |r| <= |frames| && r == frames[..|r|]
    ensures |r| == 5 || r == frames
  {
    frames[..Min(5, |frames|)]
  }

  /** The picture analysis of each frame, in order. */
  function AnalyzeEach<F>(frames: seq<F>, analyze: F -> ImageAnalysis.AnalysisOutcome): (r: seq<ImageAnalysis.AnalysisOutcome>)
    ensures |r| == |frames| && forall i :: 0 <= i < |frames| ==> r[i] == analyze(frames[i])
  {
    seq(|frames|, i requires 0 <= i < |frames| => analyze(frames[i]))
  }

  /** The accumulated table of the candidates that the successful analyses
      of the first five frames found. */
  function FrameTable<F>(frames: seq<F>, analyze: F -> ImageAnalysis.AnalysisOutcome): seq<VideoCandidate> {
    Accumulate(Sightings(Succeeded(AnalyzeEach(Analysed5(frames), analyze))))
  }

  /** No frames, no candidates and confidence 0.0. Otherwise each of the
      first five frames is analysed as a picture, and the successful
      analyses are merged and counted. */
  function AnalyzeFrames<F>(frames: seq<F>, analyze: F -> ImageAnalysis.AnalysisOutcome): (r: FrameAnalysis)
    ensures frames == [] ==> r == FrameAnalysis([], 0, Some(0.0))
    ensures r.framesAnalyzed <= |Analysed5(frames)|
    ensures frames != [] ==> r.framesAnalyzed == |Succeeded(AnalyzeEach(Analysed5(frames), analyze))|
    ensures |r.potentialMovies| <= 3
    ensures frames != [] ==>
              (r.framesAnalyzed == |Analysed5(frames)|
               <==> forall i :: 0 <= i < |Analysed5(frames)| ==> analyze(Analysed5(frames)[i]).Analysed?)
    ensures (forall i :: 0 <= i < |Analysed5(frames)| ==> analyze(Analysed5(frames)[i]).AnalysisFailed?)
            ==> r.potentialMovies == [] && r.framesAnalyzed == 0
    ensures frames != [] ==> |r.potentialMovies| == Min(3, |FrameTable(frames, analyze)|)
    ensures forall c :: c in r.potentialMovies ==> c in FrameTable(frames, analyze)
  {
    if frames == [] then FrameAnalysis([], 0, Some(0.0))
    else
      var ok := Succeeded(AnalyzeEach(Analysed5(frames), analyze));
      assert ok == [] ==> CombineFrameResults(ok) == [] by {
        assert Sightings([]) == [] && Accumulate([]) == [];
      }
      FrameAnalysis(CombineFrameResults(ok), |ok|, None)
  }

  // ---------------------------------------------------------------------------
  // _combine_video_analysis

  /** A title clue from the audio track. */
  datatype AudioClue = AudioClue(title: string, confidence: real)

  /** One candidate for the best-per-title dict: a new title is added at the
      end; a known title's entry is replaced only by a strictly more
      confident one, so among equals the first seen stays. */
  function Consider(acc: seq<VideoCandidate>, m: VideoCandidate): seq<VideoCandidate> {
    match FindKey(acc, KeyOf(m))
    case None => acc + [m]
    case Some(i) => if m.confidence > acc[i].confidence then acc[i := m] else acc
  }

  function KeepBest(movies: seq<VideoCandidate>): seq<VideoCandidate> {
    if movies == [] then []
    else Consider(KeepBest(movies[..|movies| - 1]), movies[|movies| - 1])
  }

  /** The index of the first of the most confident entries for the key. */
  function BestIndex(movies: seq<VideoCandidate>, key: string): (r: Option<nat>)
    ensures r.None? <==> forall j :: 0 <= j < |movies| ==> KeyOf(movies[j]) != key
    ensures r.Some? ==> r.value < |movies| && KeyOf(movies[r.value]) == key
    ensures r.Some? ==> forall j :: 0 <= j < |movies| && KeyOf(movies[j]) == key
                          ==> movies[j].confidence <= movies[r.value].confidence
    ensures r.Some? ==> forall j :: 0 <= j < r.value && KeyOf(movies[j]) == key
                          ==> movies[j].confidence < movies[r.value].confidence
  {
    if movies == [] then None
    else
      var last := |movies| - 1;
      assert forall j :: 0 <= j < last ==> movies[..last][j] == movies[j];
      var prev := BestIndex(movies[..last], key);
      if KeyOf(movies[last]) != key then prev
      else match prev
        case None => Some(last)
        case Some(b) => if movies[last].confidence > movies[b].confidence then Some(last) else Some(b)
  }

  /** A candidate changes only the entry under its own title, and only
      when it is strictly more confident. */
  lemma ConsiderLookup(acc: seq<VideoCandidate>, m: VideoCandidate)
    requires Ranking.DistinctBy(acc, KeyOf)
    ensures Ranking.DistinctBy(Consider(acc, m), KeyOf)
    ensures forall k :: Lookup(Consider(acc, m), k)
                        == if k != KeyOf(m) then Lookup(acc, k)
                           else match Lookup(acc, k)
                             case None => Some(m)
                             case Some(c) => if m.confidence > c.confidence then Some(m) else Some(c)
  {
    match FindKey(acc, KeyOf(m))
    case None =>
      LookupAppend(acc, m);
    case Some(i) =>
      LookupFindsEntry(acc, i);
      if m.confidence > acc[i].confidence {
        LookupReplace(acc, i, m);
      }
  }

  /** The dict holds, for one title, exactly the first of its most
      confident entries. */
  lemma {:induction false} KeepBestAt(movies: seq<VideoCandidate>, k: string)
    ensures Ranking.DistinctBy(KeepBest(movies), KeyOf)
    ensures Lookup(KeepBest(movies), k) == match BestIndex(movies, k) case None => None case Some(j) => Some(movies[j])
  {
    if movies != [] {
      var last := |movies| - 1;
      KeepBestAt(movies[..last], k);
      ConsiderLookup(KeepBest(movies[..last]), movies[last]);
    }
  }

  /** The dict holds, for every title seen, exactly the first of its most
      confident entries. */
  lemma KeepBestIsBest(movies: seq<VideoCandidate>)
    ensures Ranking.DistinctBy(KeepBest(movies), KeyOf)
    ensures forall k :: Lookup(KeepBest(movies), k)
                        == match BestIndex(movies, k) case None => None case Some(j) => Some(movies[j])
  {
    KeepBestAt(movies, "");
    forall k ensures Lookup(KeepBest(movies), k)
                     == match BestIndex(movies, k) case None => None case Some(j) => Some(movies[j])
    {
      KeepBestAt(movies, k);
    }
  }

  function ByConfidence(c: VideoCandidate): Ranking.Rank {
    Ranking.Rank(c.confidence, 0)
  }

  datatype VideoResult = VideoResult(potentialMovies: seq<VideoCandidate>, methods: seq<string>, framesAnalyzed: nat)

  /** The frame candidates followed by the audio clues. */
  function AllCandidates(frames: FrameAnalysis, audioClues: seq<AudioClue>): (r: seq<VideoCandidate>)
    ensures |r| == |frames.potentialMovies| + |audioClues|
    ensures r[..|frames.potentialMovies|] == frames.potentialMovies
  {
    frames.potentialMovies + seq(|audioClues|, i requires 0 <= i < |audioClues| =>
      VideoCandidate(audioClues[i].title, audioClues[i].confidence, 0, "audio_metadata"))
  }

  /** At most three entries with distinct titles, most confident first, each
      the best entry for its title, and nothing left out more confident than
      anything kept. */
  function CombineVideoAnalysis(frames: FrameAnalysis, audioClues: seq<AudioClue>): (r: VideoResult)
    ensures |r.potentialMovies| == Min(3, |KeepBest(AllCandidates(frames, audioClues))|)
    ensures Ranking.SortedDesc(r.potentialMovies, ByConfidence)
    ensures Ranking.DistinctBy(r.potentialMovies, KeyOf)
    ensures forall c :: c in r.potentialMovies ==> c in AllCandidates(frames, audioClues)
    ensures forall c, d :: c in AllCandidates(frames, audioClues) && d in r.potentialMovies && KeyOf(c) == KeyOf(d)
                           ==> c.confidence <= d.confidence
    ensures forall c, d :: (c in KeepBest(AllCandidates(frames, audioClues)) && d in r.potentialMovies
                            && Ranking.Above(ByConfidence(c), ByConfidence(d))) ==> c in r.potentialMovies
    ensures r.framesAnalyzed == frames.framesAnalyzed
  {
    var all := AllCandidates(frames, audioClues);
    var best := KeepBest(all);
    var top := Ranking.TopK(best, ByConfidence, 3);
    Ranking.TopKIsTop(best, ByConfidence, 3);
    KeepBestIsBest(all);
    Ranking.DistinctBySubMultiset(top, best, KeyOf);
    forall d | d in top ensures d in best {
      Ranking.TopKMembers(best, ByConfidence, 3, d);
    }
    forall d | d in top ensures d in all && forall c :: c in all && KeyOf(c) == KeyOf(d) ==> c.confidence <= d.confidence {
      var i :| 0 <= i < |best| && best[i] == d;
      LookupFindsEntry(best, i);
      var j := BestIndex(all, KeyOf(d)).value;
      assert d == all[j];
    }
    forall c, d | c in best && d in top && Ranking.Above(ByConfidence(c), ByConfidence(d))
      ensures c in top
    {
      assert c in multiset(best) - multiset(top) ==> !Ranking.Above(ByConfidence(c), ByConfidence(d));
      assert c in multiset(top);
    }
    VideoResult(top, ["frame_analysis", "audio_metadata"], frames.framesAnalyzed)
  }

  /** A title left out has no sighting more confident than anything kept:
      its best sighting would have outranked the kept entry. */
  lemma CombineVideoKeepsBestTitles(frames: FrameAnalysis, audioClues: seq<AudioClue>, c: VideoCandidate, d: VideoCandidate)
    requires c in AllCandidates(frames, audioClues) && d in CombineVideoAnalysis(frames, audioClues).potentialMovies
    requires c.confidence > d.confidence
    ensures exists e :: e in CombineVideoAnalysis(frames, audioClues).potentialMovies && KeyOf(e) == KeyOf(c)
                        && c.confidence <= e.confidence
  {
    var all := AllCandidates(frames, audioClues);
    var best := KeepBest(all);
    KeepBestIsBest(all);
    var j := BestIndex(all, KeyOf(c)).value;
    var i := FindKey(best, KeyOf(c)).value;
    assert best[i] == all[j];
    assert Ranking.Above(ByConfidence(all[j]), ByConfidence(d));
    assert all[j] in CombineVideoAnalysis(frames, audioClues).potentialMovies;
  }

  // ---------------------------------------------------------------------------
  // analyze_video

  /** The outcome of a whole video analysis: a failure with its message, or
      the combined result. */
  datatype VideoOutcome = VideoFailed(error: string) | VideoAnalysed(result: VideoResult)

  /** Validation first; a rejected upload is reported with its reason. An
      accepted one has its frames analysed, and those results are combined
      with the audio clues. The frames and the audio clues are inputs:
      extracting them is outside the model. */
  function AnalyzeVideo<F>(size: nat, filename: string, frames: seq<F>,
                           analyze: F -> ImageAnalysis.AnalysisOutcome, audioClues: seq<AudioClue>): (r: VideoOutcome)
    ensures r.VideoFailed? <==> ValidateVideo(size, filename).Invalid?
    ensures r.VideoFailed? ==> r.error == ValidateVideo(size, filename).error
    ensures r.VideoAnalysed? ==> r.result.framesAnalyzed <= 5 && |r.result.potentialMovies| <= 3
    ensures r.VideoAnalysed? && frames == [] && audioClues == [] ==> r.result.potentialMovies == []
    ensures r.VideoAnalysed? ==> r.result.framesAnalyzed == AnalyzeFrames(frames, analyze).framesAnalyzed
    ensures r.VideoAnalysed? ==>
              |r.result.potentialMovies| == Min(3, |KeepBest(AllCandidates(AnalyzeFrames(frames, analyze), audioClues))|)
    ensures r.VideoAnalysed? ==>
              forall c :: c in r.result.potentialMovies ==> c in AllCandidates(AnalyzeFrames(frames, analyze), audioClues)
  {
    match ValidateVideo(size, filename)
    case Invalid(error) => VideoFailed(error)
    case Valid(_, _) =>
      var frameResult := AnalyzeFrames(frames, analyze);
      assert AllCandidates(FrameAnalysis([], 0, Some(0.0)), []) == [];
      VideoAnalysed(CombineVideoAnalysis(frameResult, audioClues))
  }

  // ---------------------------------------------------------------------------
  // format_video_analysis_message

  /** 🎬 for frames, 🎵 for audio, 🔍 for anything else. */
  function SourceIcon(source: string): string {
    if source == "video_frames" then "🎬" else if source == "audio_metadata" then "🎵" else "🔍"
  }

  function VideoLine(n: nat, c: VideoCandidate): string {
    NatToString(n) + ". " + ImageAnalysis.ConfidenceIcon(c.confidence) + " *" + c.title + "* ("
      + IntToString(ImageAnalysis.Percent(c.confidence)) + "% confidence) " + SourceIcon(c.source)
  }

  function VideoLines(movies: seq<VideoCandidate>, first: nat): (r: seq<string>)
    ensures |r| == |movies|
    ensures forall i :: 0 <= i < |movies| ==> r[i] == VideoLine(first + i, movies[i])
  {
    Numbered(movies, first, VideoLine)
  }

  const VideoHeader: string := "🎥 *Video Analysis Results*\n"
  const MoviesHeading: string := "\n*Potential movies identified:*"
  const VideoTip: string := "\n💡 Tip: Use /search command with any of these titles to get detailed movie information!"
  const NoContentMessage: string :=
    "🎥 *Video Analysis Complete*\n\nNo movie content detected in the video. This might be original content or the quality might not be sufficient for identification."

  /** The frame-count line, shown only when some frame was analysed. */
  function FramesLine(framesAnalyzed: nat): seq<string> {
    if framesAnalyzed > 0 then ["📊 Analyzed " + NatToString(framesAnalyzed) + " video frames"] else []
  }

  lemma Regroup<T>(a: seq<T>, b: seq<T>, c: seq<T>, d: seq<T>, e: seq<T>)
    ensures a + b + c + d + e == a + b + (c + d + e)
  {
  }

  /** The report's layout, whatever its lines say: it starts with the
      header and contains every other part. */
  lemma ReportParts(header: string, extra: seq<string>, heading: string, lines: seq<string>, tip: string)
    ensures var r := Join([header] + extra + [heading] + lines + [tip], "\n");
            && IsPrefix(header + "\n", r)
            && Contains(r, tip)
            && (forall i :: 0 <= i < |extra| ==> Contains(r, extra[i]))
            && (forall i :: 0 <= i < |lines| ==> Contains(r, lines[i]))
  {
    var front := [header] + extra + [heading];
    var parts := front + lines + [tip];
    var r := Join(parts, "\n");
    assert IsPrefix(header + "\n", r) by {
      JoinStartsWith(parts, "\n");
    }
    assert Contains(r, tip) by {
      JoinContainsParts(parts, "\n", |parts| - 1);
    }
    assert forall i :: 0 <= i < |lines| ==> Contains(r, lines[i]) by {
      JoinContainsRun(front, lines, [tip], "\n");
    }
    assert forall i :: 0 <= i < |extra| ==> Contains(r, extra[i]) by {
      Regroup([header], extra, [heading], lines, [tip]);
      JoinContainsRun([header], extra, [heading] + lines + [tip], "\n");
    }
  }

  /** A failure is reported with its message; no candidates give a fixed
      text; otherwise the header, the frame count when positive, and one
      numbered line per candidate followed by the tip. */
  function FormatVideoAnalysisMessage(outcome: VideoOutcome): (r: string)
    ensures outcome.VideoFailed? ==> r == "❌ Video analysis failed: " + outcome.error
    ensures outcome.VideoAnalysed? && outcome.result.potentialMovies == [] ==> r == NoContentMessage
    ensures outcome.VideoAnalysed? && outcome.result.potentialMovies != [] ==>
              IsPrefix(VideoHeader + "\n", r)
              && Contains(r, VideoTip)
              && (outcome.result.framesAnalyzed > 0 ==> Contains(r, FramesLine(outcome.result.framesAnalyzed)[0]))
              && forall i :: 0 <= i < |outcome.result.potentialMovies|
                   ==> Contains(r, VideoLine(i + 1, outcome.result.potentialMovies[i]))
  {
    match outcome
    case VideoFailed(error) => "❌ Video analysis failed: " + error
    case VideoAnalysed(v) =>
      if v.potentialMovies == [] then NoContentMessage
      else
        var lines := VideoLines(v.potentialMovies, 1);
        ReportParts(VideoHeader, FramesLine(v.framesAnalyzed), MoviesHeading, lines, VideoTip);
        Join([VideoHeader] + FramesLine(v.framesAnalyzed) + [MoviesHeading] + lines + [VideoTip], "\n")
  }

  /** The frame extractor and the audio reader are placeholders that find
      nothing, so every upload that passes validation ends in the
      no-content message. */
  lemma PlaceholdersFindNothing<F>(size: nat, filename: string, analyze: F -> ImageAnalysis.AnalysisOutcome)
    requires ValidateVideo(size, filename).Valid?
    ensures FormatVideoAnalysisMessage(AnalyzeVideo(size, filename, [], analyze, [])) == NoContentMessage
  {
  }
}

=== FILE: wrappers.dfy ===
/** The optional value used throughout the model: a dictionary key that may be
    absent, a search that may find nothing, a source that may have failed. */
module Wrappers {

  datatype Option<+T> = None | Some(value: T) {

    /** The value inside `Some`, or `default` when there is none. */
    function GetOr(default: T): T {
      match this
      case Some(v) => v
      case None => default
    }
  }

  function Min(a: int, b: int): int {
    if a <= b then a else b
  }

  function Max(a: int, b: int): int {
    if a >= b then a else b
  }

  function MinReal(a: real, b: real): real {
    if a <= b then a else b
  }

  function MaxReal(a: real, b: real): real {
    if a >= b then a else b
  }
}

=== FILE: youtube.dfy ===
/** The trailer finder of services/youtube_service.py: the query variants it
    tries, the additive relevance score it gives each video, the filter that
    keeps the best three, the first-query-wins search loop and the message
    that lists the result. Scores are kept in integer tenths (0.3 is 3), so
    the threshold test and the icons compare integers. */
module Trailers {
  import opened Wrappers
  import opened Text
  import Ranking
  import Helpers

  /** A search hit as `_parse_youtube_item` builds it; a field the response
      leaves out is the empty string. */
  datatype Video = Video(
    videoId: string,
    title: string,
    description: string,
    channelTitle: string,
    publishedAt: string,
    thumbnail: string,
    url: string)

  /** A video that passed the filter, carrying its relevance in tenths. */
  datatype Trailer = Trailer(video: Video, score: nat)

  // ---------------------------------------------------------------------------
  // _build_search_queries

  /** One query: the cleaned title, a space, a middle part and "trailer". */
  function Query(title: string, middle: string): (r: string)
    ensures IsPrefix(title + " ", r)
    ensures IsSuffix("trailer", r)
    ensures OccursAt(r, middle, |title| + 1)
  {
    var r := title + " " + middle + "trailer";
    assert r[..|title| + 1] == title + " ";
    assert r[|title| + 1..|title| + 1 + |middle|] == middle;
    r
  }

  /** What goes between the title and "trailer": three year-bearing forms
      first when a year is given, then the four plain forms. */
  function QueryMiddles(year: Option<string>): (r: seq<string>)
    ensures |r| == if Truthy(year) then 7 else 4
    ensures Truthy(year) ==> forall i :: 0 <= i < 3 ==> Contains(r[i], year.value)
  {
    var common := ["official ", "movie ", "", "film "];
    if Truthy(year) then
      var y := year.value;
      var r := [y + " official ", y + " ", "movie " + y + " "] + common;
      assert OccursAt(r[0], y, 0) && OccursAt(r[1], y, 0) && OccursAt(r[2], y, 6);
      r
    else common
  }

  function Queries(title: string, middles: seq<string>): (r: seq<string>)
    ensures |r| == |middles|
    ensures forall i :: 0 <= i < |middles| ==> r[i] == Query(title, middles[i])
  {
    if middles == [] then [] else [Query(title, middles[0])] + Queries(title, middles[1..])
  }

  /** Seven queries when a year is given, the first three of them naming it;
      four otherwise. Every query starts with the stripped title and ends
      with "trailer". */
  function BuildSearchQueries(movieTitle: string, year: Option<string>): (r: seq<string>)
    ensures |r| == if Truthy(year) then 7 else 4
    ensures forall i :: 0 <= i < |r| ==> IsPrefix(Strip(movieTitle) + " ", r[i]) && IsSuffix("trailer", r[i])
    ensures Truthy(year) ==> forall i :: 0 <= i < 3 ==> Contains(r[i], year.value)
  {
    var t := Strip(movieTitle);
    var middles := QueryMiddles(year);
    QueriesNameYear(t, year);
    Queries(t, middles)
  }

  lemma QueriesNameYear(title: string, year: Option<string>)
    ensures Truthy(year) ==> forall i :: 0 <= i < 3 ==> Contains(Queries(title, QueryMiddles(year))[i], year.value)
  {
    if Truthy(year) {
      var middles := QueryMiddles(year);
      forall i | 0 <= i < 3 ensures Contains(Queries(title, middles)[i], year.value) {
        QueryNamesYear(title, year.value, middles[i]);
      }
    }
  }

  lemma QueryNamesYear(title: string, year: string, middle: string)
    requires Contains(middle, year)
    ensures Contains(Query(title, middle), year)
  {
    ContainsAt(Query(title, middle), middle, |title| + 1);
    ContainsTransitive(Query(title, middle), middle, year);
  }

  // ---------------------------------------------------------------------------
  // _calculate_trailer_score

  const TrailerKeywords: seq<string> := ["trailer", "official trailer", "movie trailer", "teaser"]

  const OfficialChannels: seq<string> :=
    ["sony pictures", "warner bros", "disney", "universal", "paramount", "fox", "lionsgate", "marvel", "dc"]

  const PenaltyKeywords: seq<string> :=
    ["reaction", "review", "analysis", "breakdown", "fan made", "unofficial", "mashup", "parody"]

  /** Which of the six scoring rules fire for a video. */
  datatype Signals = Signals(
    titleMatch: bool,
    keyword: bool,
    studio: bool,
    yearMatch: bool,
    penalty: bool,
    official: bool)

  /** The rules read the lower-cased title, description and channel; the
      penalty is the only rule that also looks at the description. The four
      trailer keywords come down to "trailer" and "teaser", since the other
      two contain "trailer". */
  function ReadSignals(v: Video, movieTitleLower: string, year: Option<string>): (s: Signals)
    ensures s.titleMatch <==> Contains(Lower(v.title), movieTitleLower)
    ensures s.keyword <==> Contains(Lower(v.title), "trailer") || Contains(Lower(v.title), "teaser")
    ensures s.studio <==> exists i :: 0 <= i < |OfficialChannels| && Contains(Lower(v.channelTitle), OfficialChannels[i])
    ensures s.yearMatch <==> Truthy(year) && Contains(Lower(v.title), year.value)
    ensures s.penalty <==> exists i :: 0 <= i < |PenaltyKeywords|
                             && (Contains(Lower(v.title), PenaltyKeywords[i])
                                 || Contains(Lower(v.description), PenaltyKeywords[i]))
    ensures s.official <==> Contains(Lower(v.title), "official")
  {
    var title := Lower(v.title);
    var description := Lower(v.description);
    KeywordsReduce(title);
    Signals(
      Contains(title, movieTitleLower),
      ContainsAny(title, TrailerKeywords),
      ContainsAny(Lower(v.channelTitle), OfficialChannels),
      Truthy(year) && Contains(title, year.value),
      ContainsAny(title, PenaltyKeywords) || ContainsAny(description, PenaltyKeywords),
      Contains(title, "official"))
  }

  lemma KeywordsReduce(title: string)
    ensures ContainsAny(title, TrailerKeywords) <==> Contains(title, "trailer") || Contains(title, "teaser")
  {
    var k := TrailerKeywords;
    if Contains(title, k[1]) {
      assert OccursAt(k[1], "trailer", 9);
      ContainsTransitive(title, k[1], "trailer");
    }
    if Contains(title, k[2]) {
      assert OccursAt(k[2], "trailer", 6);
      ContainsTransitive(title, k[2], "trailer");
    }
    assert Contains(title, "trailer") ==> Contains(title, k[0]);
    assert Contains(title, "teaser") ==> Contains(title, k[3]);
  }

  function Bonus(fires: bool, tenths: int): int {
    if fires then tenths else 0
  }

  /** The running sum before the final floor; the penalty can make it
      negative. */
  function RawScore(s: Signals): int {
    Bonus(s.titleMatch, 5) + Bonus(s.keyword, 3) + Bonus(s.studio, 2)
      + Bonus(s.yearMatch, 2) - Bonus(s.penalty, 3) + Bonus(s.official, 2)
  }

  /** The relevance of a video in tenths. It is never negative and never
      above 1.4, because nothing clamps it to 1.0. */
  function TrailerScore(v: Video, movieTitleLower: string, year: Option<string>): (r: nat)
    ensures r <= 14
    ensures RawScore(ReadSignals(v, movieTitleLower, year)) >= 0 ==> r == RawScore(ReadSignals(v, movieTitleLower, year))
    ensures RawScore(ReadSignals(v, movieTitleLower, year)) < 0 ==> r == 0
  {
    Max(RawScore(ReadSignals(v, movieTitleLower, year)), 0)
  }

  /** The floor matters: a video that only trips the penalty sums to -0.3
      and is scored 0. */
  lemma PenaltyAloneIsFloored(v: Video, movieTitleLower: string, year: Option<string>)
    requires ReadSignals(v, movieTitleLower, year) == Signals(false, false, false, false, true, false)
    ensures RawScore(ReadSignals(v, movieTitleLower, year)) == -3
    ensures TrailerScore(v, movieTitleLower, year) == 0
  {
  }

  /** A video that shows the movie title and a trailer keyword and carries
      no penalty word always clears the 0.3 threshold. */
  lemma TitledTrailerPasses(v: Video, movieTitleLower: string, year: Option<string>)
    requires Contains(Lower(v.title), movieTitleLower)
    requires Contains(Lower(v.title), "trailer")
    requires !ReadSignals(v, movieTitleLower, year).penalty
    ensures TrailerScore(v, movieTitleLower, year) >= 8
  {
  }

  /** Without the title and a trailer keyword, a video clears the threshold
      only when it has no penalty word and at least two of the studio, year
      and "official" bonuses. */
  lemma PassingWithoutTitleOrKeyword(v: Video, movieTitleLower: string, year: Option<string>)
    requires !Contains(Lower(v.title), movieTitleLower)
    requires !Contains(Lower(v.title), "trailer") && !Contains(Lower(v.title), "teaser")
    ensures var s := ReadSignals(v, movieTitleLower, year);
            TrailerScore(v, movieTitleLower, year) > 3
            <==> !s.penalty && Bonus(s.studio, 1) + Bonus(s.yearMatch, 1) + Bonus(s.official, 1) >= 2
  {
  }

  // ---------------------------------------------------------------------------
  // _filter_trailer_results

  /** The videos scoring above 0.3 under `score`, in input order, with
      their scores. */
  function KeepAbove(videos: seq<Video>, score: Video -> nat): (r: seq<Trailer>)
    ensures |r| <= |videos|
    ensures forall t :: t in r ==> (t.video in videos && t.score > 3 && t.score == score(t.video))
    ensures forall v :: v in videos && score(v) > 3 ==> Trailer(v, score(v)) in r
  {
    if videos == [] then []
    else
      var s := score(videos[0]);
      var rest := KeepAbove(videos[1..], score);
      assert forall v :: v in videos ==> v == videos[0] || v in videos[1..];
      (if s > 3 then [Trailer(videos[0], s)] else []) + rest
  }

  function VideosOf(ts: seq<Trailer>): (r: seq<Video>)
    ensures |r| == |ts|
    ensures forall i :: 0 <= i < |ts| ==> r[i] == ts[i].video
  {
    if ts == [] then [] else [ts[0].video] + VideosOf(ts[1..])
  }

  /** Keeping drops videos and never adds or repeats one. */
  lemma {:induction false} KeepAboveSubMultiset(videos: seq<Video>, score: Video -> nat)
    ensures multiset(VideosOf(KeepAbove(videos, score))) <= multiset(videos)
  {
    if videos != [] {
      KeepAboveSubMultiset(videos[1..], score);
      var s := score(videos[0]);
      var rest := KeepAbove(videos[1..], score);
      var head: seq<Trailer> := if s > 3 then [Trailer(videos[0], s)] else [];
      assert KeepAbove(videos, score) == head + rest;
      VideosOfConcat(head, rest);
      HeadTail(videos);
    }
  }

  lemma VideosOfConcat(a: seq<Trailer>, b: seq<Trailer>)
    ensures VideosOf(a + b) == VideosOf(a) + VideosOf(b)
  {
  }

  /** Projecting onto the videos keeps sub-multisets sub-multisets. */
  lemma {:induction false} VideosOfSubMultiset(a: seq<Trailer>, b: seq<Trailer>)
    requires multiset(a) <= multiset(b)
    ensures multiset(VideosOf(a)) <= multiset(VideosOf(b))
    decreases |a|
  {
    if a != [] {
      var x := a[0];
      assert x in multiset(b);
      var i :| 0 <= i < |b| && b[i] == x;
      var b' := b[..i] + b[i + 1..];
      RemoveOne(b, i);
      HeadTail(a);
      VideosOfConcat([x], a[1..]);
      MultisetCancel(x, multiset(a[1..]), multiset(b'));
      VideosOfSubMultiset(a[1..], b');
    }
  }

  lemma RemoveOne(b: seq<Trailer>, i: nat)
    requires i < |b|
    ensures multiset(b) == multiset(b[..i] + b[i + 1..]) + multiset{b[i]}
    ensures multiset(VideosOf(b)) == multiset(VideosOf(b[..i] + b[i + 1..])) + multiset{b[i].video}
  {
    var p, x, q := b[..i], b[i], b[i + 1..];
    SplitAt(b, i);
    CutOut(p, x, q);
    VideosOfConcat(p + [x], q);
    VideosOfConcat(p, [x]);
    VideosOfConcat(p, q);
    CutOut(VideosOf(p), x.video, VideosOf(q));
  }

  lemma SplitAt<T>(b: seq<T>, i: nat)
    requires i < |b|
    ensures b == b[..i] + [b[i]] + b[i + 1..]
  {
  }

  lemma CutOut<T>(p: seq<T>, x: T, q: seq<T>)
    ensures multiset(p + [x] + q) == multiset(p + q) + multiset{x}
  {
  }

  lemma MultisetCancel<T>(x: T, a: multiset<T>, b: multiset<T>)
    requires multiset{x} + a <= b + multiset{x}
    ensures a <= b
  {
    forall y ensures a[y] <= b[y] {
      assert (multiset{x} + a)[y] <= (b + multiset{x})[y];
    }
  }

  /** The videos scoring above 0.3 for this title and year. */
  function Scored(videos: seq<Video>, movieTitleLower: string, year: Option<string>): seq<Trailer> {
    KeepAbove(videos, v => TrailerScore(v, movieTitleLower, year))
  }

  function ByScore(t: Trailer): Ranking.Rank {
    Ranking.Rank(t.score as real, 0)
  }

  /** At most three videos, each scoring above 0.3 for this title and year,
      best first, and none left out that scores above one kept. */
  function FilterTrailerResults(videos: seq<Video>, movieTitle: string, year: Option<string>): (r: seq<Trailer>)
    ensures |r| == Min(3, |Scored(videos, Lower(movieTitle), year)|)
    ensures r == [] <==> forall v :: v in videos ==> TrailerScore(v, Lower(movieTitle), year) <= 3
    ensures Ranking.SortedDesc(r, ByScore)
    ensures forall t :: t in r ==> (t.video in videos && t.score > 3
                                  && t.score == TrailerScore(t.video, Lower(movieTitle), year))
    ensures forall v, t :: v in videos && t in r && TrailerScore(v, Lower(movieTitle), year) > t.score
                           ==> Trailer(v, TrailerScore(v, Lower(movieTitle), year)) in r
    ensures multiset(r) <= multiset(Scored(videos, Lower(movieTitle), year))
  {
    var candidates := Scored(videos, Lower(movieTitle), year);
    var r := Ranking.TopK(candidates, ByScore, 3);
    Ranking.TopKIsTop(candidates, ByScore, 3);
    forall t | t in r ensures t in candidates {
      Ranking.TopKMembers(candidates, ByScore, 3, t);
    }
    forall v, t | v in videos && t in r && TrailerScore(v, Lower(movieTitle), year) > t.score
      ensures Trailer(v, TrailerScore(v, Lower(movieTitle), year)) in r
    {
      var x := Trailer(v, TrailerScore(v, Lower(movieTitle), year));
      assert x in candidates;
      assert x in multiset(candidates) - multiset(r) ==> !Ranking.Above(ByScore(x), ByScore(t));
      assert Ranking.Above(ByScore(x), ByScore(t));
      assert x in multiset(r);
    }
    ScoredEmpty(videos, Lower(movieTitle), year);
    r
  }

  /** No video passes exactly when none scores above 3. */
  lemma ScoredEmpty(videos: seq<Video>, movieTitleLower: string, year: Option<string>)
    ensures Scored(videos, movieTitleLower, year) == []
            <==> forall v :: v in videos ==> TrailerScore(v, movieTitleLower, year) <= 3
  {
    var candidates := Scored(videos, movieTitleLower, year);
    if candidates != [] {
      assert candidates[0] in candidates;
    }
  }

  /** The kept videos are drawn from the input without repetition. */
  lemma FilterSubMultiset(videos: seq<Video>, movieTitle: string, year: Option<string>)
    ensures multiset(VideosOf(FilterTrailerResults(videos, movieTitle, year))) <= multiset(videos)
  {
    var candidates := Scored(videos, Lower(movieTitle), year);
    var r := FilterTrailerResults(videos, movieTitle, year);
    KeepAboveSubMultiset(videos, v => TrailerScore(v, Lower(movieTitle), year));
    VideosOfSubMultiset(r, candidates);
  }

  // ---------------------------------------------------------------------------
  // find_trailer

  /** A search call: `None` when the request failed, the parsed hits
      otherwise. */
  type Search = string -> Option<seq<Video>>

  /** What one query yields: nothing when the search failed, else the
      filtered hits. */
  function Hits(query: string, movieTitle: string, year: Option<string>, search: Search): (r: seq<Trailer>)
    ensures |r| <= 3
  {
    match search(query)
    case None => []
    case Some(videos) => FilterTrailerResults(videos, movieTitle, year)
  }

  /** The index of the first query whose hits are non-empty. */
  function FirstHit<T>(queries: seq<string>, hits: string -> seq<T>): (r: Option<nat>)
    ensures r.Some? ==> r.value < |queries| && hits(queries[r.value]) != []
    ensures r.Some? ==> forall j :: 0 <= j < r.value ==> hits(queries[j]) == []
    ensures r.None? ==> forall j :: 0 <= j < |queries| ==> hits(queries[j]) == []
  {
    if queries == [] then None
    else if hits(queries[0]) != [] then Some(0)
    else match FirstHit(queries[1..], hits)
      case None => None
      case Some(i) => Some(i + 1)
  }

  datatype TrailerSearch =
    | Failed(error: string)
    | Found(trailers: seq<Trailer>, query: string)
    | NotFound

  /** Without an API key the search fails. Otherwise the queries are tried in
      order and the first one with filtered hits wins; when none has any,
      the search succeeds with nothing found. */
  function FindTrailer(apiKey: Option<string>, movieTitle: string, year: Option<string>, search: Search): (r: TrailerSearch)
    ensures r.Failed? <==> !Truthy(apiKey)
    ensures r.Found? ==> 1 <= |r.trailers| <= 3
    ensures r.Found? ==> exists i :: 0 <= i < |BuildSearchQueries(movieTitle, year)|
                            && BuildSearchQueries(movieTitle, year)[i] == r.query
                            && r.trailers == Hits(r.query, movieTitle, year, search)
                            && forall j :: 0 <= j < i ==> Hits(BuildSearchQueries(movieTitle, year)[j], movieTitle, year, search) == []
    ensures r.NotFound? ==> forall q :: q in BuildSearchQueries(movieTitle, year) ==> Hits(q, movieTitle, year, search) == []
  {
    if !Truthy(apiKey) then Failed("YouTube API key not configured")
    else
      match FirstFound(BuildSearchQueries(movieTitle, year), q => Hits(q, movieTitle, year, search))
      case None => NotFound
      case Some(found) => Found(found.0, found.1)
  }

  /** The hits of the first query that has any, with that query. */
  function FirstFound<T>(queries: seq<string>, hits: string -> seq<T>): (r: Option<(seq<T>, string)>)
    ensures r.Some? ==> r.value.0 != [] && r.value.0 == hits(r.value.1)
                        && exists i :: 0 <= i < |queries| && queries[i] == r.value.1
                                       && forall j :: 0 <= j < i ==> hits(queries[j]) == []
    ensures r.None? ==> forall q :: q in queries ==> hits(q) == []
  {
    match FirstHit(queries, hits)
    case None => None
    case Some(i) => Some((hits(queries[i]), queries[i]))
  }

  // ---------------------------------------------------------------------------
  // format_trailer_message

  /** Titles over 60 characters keep 57 and gain "...". */
  function ShortTitle(title: string): (r: string)
    ensures |r| <= 60
    ensures |title| <= 60 ==> r == title
    ensures |title| > 60 ==> |r| == 60 && IsPrefix(r[..57], title) && IsSuffix("...", r)
  {
    if |title| > 60 then title[..57] + "..." else title
  }

  /** The title cut is `truncate_text` with bound 60 and suffix "...". */
  lemma ShortTitleIsTruncateText(title: string)
    ensures ShortTitle(title) == Helpers.TruncateText(title, 60, "...")
  {
  }

  /** 🎯 above 0.8, ⭐ above 0.6, 🔗 otherwise. */
  function RelevanceIcon(score: nat): string {
    if score > 8 then "🎯" else if score > 6 then "⭐" else "🔗"
  }

  function TrailerEntry(n: nat, t: Trailer): string {
    NatToString(n) + ". " + RelevanceIcon(t.score) + " [" + ShortTitle(t.video.title) + "](" + t.video.url + ")\n"
      + "   📺 *Channel:* " + t.video.channelTitle
  }

  /** The entries numbered from `first` on. */
  function Entries(trailers: seq<Trailer>, first: nat): (r: seq<string>)
    ensures |r| == |trailers|
    ensures forall i :: 0 <= i < |trailers| ==> r[i] == TrailerEntry(first + i, trailers[i])
  {
    Numbered(trailers, first, TrailerEntry)
  }

  function TrailerHeader(movieTitle: string): string {
    "🎬 *Trailers for '" + movieTitle + "'*\n"
  }

  /** A fixed line when nothing was found; otherwise the header and one
      entry per trailer, numbered from 1, separated by blank lines. */
  function FormatTrailerMessage(trailers: seq<Trailer>, movieTitle: string): (r: string)
    ensures trailers == [] ==> r == "🎬 No trailers found for '" + movieTitle + "'"
    ensures trailers != [] ==> IsPrefix(TrailerHeader(movieTitle) + "\n\n", r)
    ensures forall i :: 0 <= i < |trailers| ==> Contains(r, TrailerEntry(i + 1, trailers[i]))
    ensures trailers != [] ==>
              forall k :: 0 <= k <= |trailers|
                ==> IsPrefix(Join([TrailerHeader(movieTitle)] + Entries(trailers, 1)[..k], "\n\n"), r)
    ensures trailers != [] ==> IsSuffix(TrailerEntry(|trailers|, trailers[|trailers| - 1]), r)
  {
    if trailers == [] then "🎬 No trailers found for '" + movieTitle + "'"
    else
      var parts := [TrailerHeader(movieTitle)] + Entries(trailers, 1);
      var r := Join(parts, "\n\n");
      JoinPrefixes(parts, "\n\n");
      forall k | 0 <= k <= |trailers|
        ensures IsPrefix(Join([TrailerHeader(movieTitle)] + Entries(trailers, 1)[..k], "\n\n"), r)
      {
        assert parts[..k + 1] == [TrailerHeader(movieTitle)] + Entries(trailers, 1)[..k];
      }
      JoinEndsWith(parts, "\n\n");
      assert r == TrailerHeader(movieTitle) + "\n\n" + Join(parts[1..], "\n\n");
      forall i | 0 <= i < |trailers| ensures Contains(r, TrailerEntry(i + 1, trailers[i])) {
        JoinContainsParts(parts, "\n\n", i + 1);
      }
      r
  }
}
